=== FILE: README.md ===
# Runtime subclass synthesis (ViewModelSource), modelled in Dafny

This project models the decision logic of `Generator.ViewModelSource`. The
logic synthesizes, at run time, a subclass of an arbitrary base type. The
subclass implements `ISupportServices`, and each of its properties asks a
lazily created `ServiceContainer` for its value instead of running the base getter.

The base type is an abstract descriptor (`Reflection.BaseType`). It holds:
- its identity (the assembly-qualified full name), its short name and its assembly;
- the instance constructors, each with a visibility and an ordered parameter list;
- the instance properties, each with a name, a type, whether that type is a value type, a getter name and the getter's visibility;
- a flag that says whether the type already implements `ISupportServices`.

A synthesized type is the member plan a `TypeBuilder` collects (`TypeDefs.TypeDef`).
The bodies the source emits with `ILGenerator` are kept as instruction lists, one
`Instr` per `gen.Emit` call. `Il.Run`, a small stack-machine interpreter, gives
them a meaning. A call records whether it was emitted as `call` or `callvirt`.
This lets the model prove three things: the lazy getter is a two-state machine,
a copied constructor forwards its arguments in order, and a property override
only ever calls `GetService<T>(null, 0)`.

`Type.GetConstructor(Type[])` (line 43) chooses through the runtime's default
binder. `Binder` models that choice over parameter-type lists:
- a candidate applies when each argument type may be passed to its parameter (the same type, `object`, or a conversion given by the `TypeUniverse` parameter);
- one applicable candidate is returned as is;
- among several, a left-to-right tournament keeps the most specific one and reports an ambiguity when no single best one exists.

Modules:
- `Wrappers`: `Option` and `Result`.
- `Reflection`: the base-type descriptor, `CanAccessFromDescendant`, the type universe (conversions and value types) and the error kinds.
- `Il`: values, heap, instructions and the interpreter.
- `Memo`: `DictionaryExtensions.GetOrAdd`.
- `TypeDefs`: the member plan of a synthesized type.
- `Binder`: the default binder's `SelectMethod`.
- `Constructors`: `BuildConstructors`, `BuildConstructor` and the default constructor `TypeBuilder.CreateType` adds.
- `Services`: `ImplementISupportServices` and `BuildGetServiceContainerMethod`.
- `ServiceProperties`: `BuildServiceProperties` and `BuildGetServicePropertyMethod`.
- `Synthesis`: `GetModuleBuilder`, `CreateTypeBuilder`, `CreateTypeCore`, `GetPOCOType` and the cache invariant.
- `Construction`: `GetConstructor`, `Expression.New`, `GetNewExpression` and `GetCtorExpression`.

The two `[ThreadStatic]` caches become one explicit state, `Synthesis.Ctx`,
that callers pass in and get back. `Guid.NewGuid()` becomes a supply of tokens,
each different from every earlier one (`Env.nextGuid`). A synthesized type's
name is the pair (base name, GUID token). The `types` cache is keyed by the
whole descriptor, whose full name tells apart types such as `Foo<int>` and
`Foo<string>` that share `Type.Name`.

Facts about the code that the model keeps:
- Properties are not filtered to readable ones (line 109). So every property descriptor here carries a getter.
- When the binder finds no applicable public constructor, `Type.GetConstructor` returns null and `Expression.New(null, …)` throws `ArgumentNullException` (line 44). The model returns `Err(ArgumentNullException("constructor"))`.
- `Expression.New` (line 44) then checks the caller's arguments against the constructor the binder picked. The argument count must equal the parameter count. Each argument's type must be reference-assignable to its parameter's type: the same type, or two reference types related by `Type.IsAssignableFrom`. Boxing and primitive widening do not count, although the binder accepts both. Either failure throws `ArgumentException` (`ArgumentCountMismatch`, `ArgumentTypeMismatch(i)` for the first argument that does not fit).
- So a `new` that names a private or internal base constructor is rebound when some copied constructor accepts its parameter types (`Construction.RetargetedToCopy`). It succeeds only if the arguments also fit that constructor by reference. Take a public `T(object)` and a private `T(int)`: `new T(5)` is rebound to the copy of `T(object)` and then rejected, because an `int` argument is not reference-assignable to `object`. A `string` argument passes (`Construction.PrivateOverloadRebound`). A `new` on an accessible constructor keeps a constructor with the same parameter types, so arguments that fitted the original still fit (`Construction.AccessibleConstructorRetargeted`).
- `typeBuilder.CreateType()` (line 58) adds a public parameterless constructor when the build copied none. That happens when no base constructor is accessible. The added constructor calls the base type's parameterless constructor, whatever its access. So with only an internal `T()`, `new T()` is rewritten to call the added constructor (`Construction.DefaultConstructorRebound`). Running it would call an inaccessible base constructor of another assembly, which the runtime refuses (see "## Left out"). Without a parameterless base constructor, `CreateType` throws `NotSupportedException` and nothing is cached (`Construction.HandedOutNotSupported`). The added constructor is the copy `BuildConstructor` would make of that base constructor (`Constructors.DefaultIsCopy`). The model therefore counts it among the copied constructors (`Constructors.CopiedConstructors`).
- `GetService<T>` has the constraint `where T : class` (line 223). `MakeGenericMethod` (line 132) therefore throws `ArgumentException` for a value-typed property. By then the assembly's module exists (created with a new GUID on first use) and the type's GUID is drawn, and the `types` cache is not filled.
- The second argument of `GetService<T>` is the integer literal 0 (`Ldc_I4_S`, line 137) for every property type, not a default value of the property's type. The key is always null, so the property's name does not reach the container.
- `GetService<T>` is emitted with `OpCodes.Call` (line 138). That is a non-virtual call of an abstract interface method (see "## Findings").
- `GetCtorExpression` fetches the synthesized type before it checks the body's shape (line 30). A rejected body therefore still fills the cache.

## Model

Every "succeeds iff" below is stated within the model. The runtime's own checks when `CreateType()` seals a type are not modelled (see "## Left out"). These include the check that each overridden getter is virtual and not final. A type that fails those checks succeeds in the model.

| member | source | states |
|---|---|---|
| Memo.GetOrAdd | netcore3/ViewModelSource.cs:10-16 | afterwards the key maps to the returned value and the key set only gains the key. A present key returns the stored value, runs no factory and leaves the dictionary unchanged. An absent key runs the factory exactly once and stores and returns its result; a failing factory stores nothing. Every other key is untouched |
| Memo.GetOrAddTwice | netcore3/ViewModelSource.cs:10-16 | a second call for the same key after a success, with any factory, returns the first call's value and changes neither the dictionary nor the factory state. After a failure the second call runs its own factory |
| Reflection.ParameterTypes | netcore3/ViewModelSource.cs:159 | the parameter-type list has one entry per parameter, position by position |
| Reflection.CanAccessFromDescendant | netcore3/ViewModelSource.cs:186-188 | a descendant may call a public, protected or protected-internal member, and is refused exactly the private, internal, private-protected and compiler-controlled ones |
| Reflection.Accessible | netcore3/ViewModelSource.cs:152 | every kept constructor is one of the base constructors and one a descendant may call; no more are kept than there were |
| Reflection.AccessibleComplete | netcore3/ViewModelSource.cs:152 | every base constructor a descendant may call is kept |
| Reflection.AccessibleAppend | netcore3/ViewModelSource.cs:152 | filtering distributes over concatenation, so the kept constructors keep their relative order |
| Reflection.AccessibleIdempotent | netcore3/ViewModelSource.cs:152 | filtering an already filtered list changes nothing |
| Reflection.AccessibleKeepsAll | netcore3/ViewModelSource.cs:152 | when every constructor is accessible, the filtered list is the whole list |
| Binder.FindMostSpecificType | netcore3/ViewModelSource.cs:43 | of two different parameter types, the argument's own type wins; otherwise the winner is the one that converts to the other and not back; equal types, or types that both or neither convert, give no winner |
| Binder.FindMostSpecific | netcore3/ViewModelSource.cs:43 | a parameter list wins only if it fits better at some position and worse at none; identical lists give no winner |
| Binder.ExactMostSpecific | netcore3/ViewModelSource.cs:43 | a list equal to the argument types beats every other list of that length, whichever side it is on |
| Binder.Matching | netcore3/ViewModelSource.cs:43 | the first pass collects exactly the candidates that apply, in increasing position order |
| Binder.SelectMethod | netcore3/ViewModelSource.cs:43 | no match iff no candidate applies; a selected candidate applies; an ambiguity means at least two candidates apply |
| Binder.SoleCandidateSelected | netcore3/ViewModelSource.cs:43 | when exactly one candidate applies, it is selected |
| Binder.ExactMatchSelected | netcore3/ViewModelSource.cs:43 | among candidates with distinct parameter lists, the one equal to the argument types is selected, whatever else applies |
| Constructors.ArgLoads | netcore3/ViewModelSource.cs:164-165 | the loop emits n loads, and load i reads argument i+1 |
| Constructors.ForwardingBody | netcore3/ViewModelSource.cs:162-167 | `this` and then every argument are loaded in order, each once, followed by one non-virtual call of the copied base constructor and a return |
| Constructors.BuildConstructor | netcore3/ViewModelSource.cs:157-161 | the copy is public and has the same parameters (names, types, attributes) as the base constructor |
| Constructors.ForwardingLoad | netcore3/ViewModelSource.cs:164-165 | in any body that starts with the loads of arguments 0..n, load k+1 pushes argument k+1 on top of `this` and the first k arguments |
| Constructors.ForwardingLoads | netcore3/ViewModelSource.cs:163-165 | after k loads the evaluation stack holds `this` and the first k arguments, in order |
| Constructors.ForwardingCall | netcore3/ViewModelSource.cs:166-167 | with `this` and all arguments loaded, the call hands exactly those values, in order, to the base constructor, records that one call, and returns; a throwing base constructor makes the copy throw |
| Constructors.BuildConstructorForwards | netcore3/ViewModelSource.cs:157-168 | running a copy with `this` and a1..an makes exactly one call, to the base constructor it copies, with `this, a1..an` unchanged and in order, and then returns; it throws exactly when the base constructor does |
| Constructors.DefineConstructors | netcore3/ViewModelSource.cs:153-155 | the i-th constructor appended is the copy of the i-th constructor given. Existing constructors and all other members are unchanged |
| Constructors.BuildConstructors | netcore3/ViewModelSource.cs:151-156 | the new constructors correspond one-to-one, in order, to the accessible base constructors, and nothing else of the type changes |
| Constructors.ParameterlessConstructor | netcore3/ViewModelSource.cs:58 | the constructor CreateType's default constructor calls is a base constructor without parameters, of any access; none is found iff every base constructor takes parameters |
| Constructors.DefaultIsCopy | netcore3/ViewModelSource.cs:58 | the default constructor over a parameterless base constructor (`ldarg.0; call; ret`) equals the copy BuildConstructor makes of it |
| Constructors.CopiedConstructorsOfBase | netcore3/ViewModelSource.cs:54-58 | a finished subclass copies base constructors that are accessible or parameterless. It copies none iff every base constructor is inaccessible and takes parameters. When some base constructor is accessible, it copies exactly the accessible ones |
| Constructors.CreateType | netcore3/ViewModelSource.cs:58 | in the model, sealing succeeds iff the type defined a constructor or the base type has a parameterless one. Defined constructors are kept unchanged, and a type without any gets one; nothing else changes. The failure is NotSupportedException, and only when no base constructor is parameterless |
| Constructors.CopiedSignatures | netcore3/ViewModelSource.cs:157-159 | the copies offer the parameter-type lists of the constructors they copy, in the same order |
| Constructors.AllAccessibleSameSignatures | netcore3/ViewModelSource.cs:151-159 | a base type whose constructors are all public or protected gets a subclass with exactly the same constructor signatures |
| Services.BuildGetServiceContainerMethod | netcore3/ViewModelSource.cs:71-86 | the getter is named `Generator.ISupportServices.get_ServiceContainer`. It is private, virtual, final, hide-by-sig and new-slot, returns IServiceContainer, has one local, and its body is the lazy getter |
| Services.ImplementISupportServices | netcore3/ViewModelSource.cs:62-70 | if the base type implements ISupportServices, nothing is added. Otherwise exactly one private `serviceContainer` field and one method are added, and that method is registered as the override of ISupportServices.get_ServiceContainer |
| Services.LazyGet | netcore3/ViewModelSource.cs:89-102 | the result is never null and ends up in the slot. A set slot is returned and nothing changes. An empty slot gets one new ServiceContainer owned by `this`; it is stored and returned, and no other object changes |
| Services.LazyGetStable | netcore3/ViewModelSource.cs:89-102 | after one read, every later read returns the same container and changes nothing |
| Services.LazyGetterLoadsSlot | netcore3/ViewModelSource.cs:89-91 | the first three instructions leave the slot's content twice on the stack |
| Services.LazyGetterWhenSet | netcore3/ViewModelSource.cs:92-102 | when the slot is set, the branch jumps to the return label and the stored container is returned with the heap unchanged |
| Services.LazyGetterFallsThrough | netcore3/ViewModelSource.cs:92-93 | when the slot is empty, the branch is not taken and the null is dropped |
| Services.LazyGetterLoadsOwner | netcore3/ViewModelSource.cs:94-95 | the two loads of `this` put the instance below the new container's owner argument |
| Services.LazyGetterAllocates | netcore3/ViewModelSource.cs:96 | one new container is allocated at a fresh address, owned by `this`, and no existing object changes |
| Services.LazyGetterKeepsCopy | netcore3/ViewModelSource.cs:97-98 | a copy of the new container goes into the local, leaving `this` and the container on the stack |
| Services.LazyGetterStores | netcore3/ViewModelSource.cs:99 | the container is written to the slot of `this` and to no other field or object |
| Services.LazyGetterReturnsCopy | netcore3/ViewModelSource.cs:100-102 | the container kept in the local is returned |
| Services.LazyGetterStoresAndReturns | netcore3/ViewModelSource.cs:97-102 | from the new container on, the getter fills the slot with it and returns it, making no outside call |
| Services.LazyGetterWhenEmpty | netcore3/ViewModelSource.cs:92-102 | with an empty slot the getter returns a new container at a fresh address, owned by `this`, which is now in the slot |
| Services.LazyGetterImplementsLazyGet | netcore3/ViewModelSource.cs:84-102 | for any fuel of at least one step per instruction, running the emitted instructions gives the same result and heap as `LazyGet`, with no outside call |
| ServiceProperties.InterceptingBody | netcore3/ViewModelSource.cs:134-139 | six instructions: load `this`, a virtual call of the ServiceContainer getter, null, the integer 0, a call of GetService<T> (non-virtual as emitted), and a return |
| ServiceProperties.InterceptingBodyCallsOnly | netcore3/ViewModelSource.cs:134-139 | the only methods called are the ServiceContainer getter and GetService<T>, never a base getter; GetService<T> is called at one place; the body returns at its end and only there |
| ServiceProperties.OverrideAccess | netcore3/ViewModelSource.cs:120 | the override is Public iff the base getter is Public; every other visibility becomes Family |
| ServiceProperties.InterceptingGetter | netcore3/ViewModelSource.cs:117-139 | the override getter has the base getter's name, returns the property type, is virtual and hide-by-sig, has the mapped visibility and no locals, and runs the intercepting body |
| ServiceProperties.BuildGetServicePropertyMethod | netcore3/ViewModelSource.cs:117-141 | it fails iff the property type is a value type, with GetService<T>'s constraint violation for that type; otherwise it returns the override getter |
| ServiceProperties.InterceptingGetterGetsContainer | netcore3/ViewModelSource.cs:134-135 | the first two instructions make one virtual call to the ServiceContainer getter on `this` and leave its result on the stack, or fault when it throws |
| ServiceProperties.InterceptingGetterCallsGetService | netcore3/ViewModelSource.cs:136-139 | the rest calls GetService<T> on the container with key null and the integer 0, records that call with its dispatch kind, and returns its result, or faults when it throws |
| ServiceProperties.InterceptingGetterResolves | netcore3/ViewModelSource.cs:126-139 | running an override getter makes at most two outside calls: the ServiceContainer getter on `this`, then GetService<T> on that container with key null and argument 0. It returns GetService's result, never calls the base getter, and faults when either call throws |
| ServiceProperties.FirstViolationUnique | netcore3/ViewModelSource.cs:132 | a failing build fails with one exception only: that of the first value-typed property |
| ServiceProperties.DefineServiceProperties | netcore3/ViewModelSource.cs:110-115 | it succeeds iff every property has a reference type. Then property i gets the i-th new getter method, an override record that points it at the property's own getter, and a property with the same name and type and no index parameters, and nothing else changes. Otherwise it fails with the first value-typed property's error |
| ServiceProperties.InterceptsStep | netcore3/ViewModelSource.cs:110-115 | defining one property's override and then the rest intercepts the whole list in order |
| ServiceProperties.BuildServiceProperties | netcore3/ViewModelSource.cs:108-116 | every instance property, public or not, is intercepted exactly once, in reflection order, unless a property has a value type, in which case the first such property's exception escapes |
| ServiceProperties.InterceptedReadFaults | netcore3/ViewModelSource.cs:138 | as emitted, a property read on a synthesized instance never returns: the non-virtual call of the abstract GetService<T> faults |
| ServiceProperties.DispatchingGetter | netcore3/ViewModelSource.cs:138 | the corrected getter differs from the emitted one only in calling GetService<T> with `callvirt` |
| ServiceProperties.InterceptedRead | netcore3/ViewModelSource.cs:134-139 | with GetService<T> dispatched, reading a property obtains the container through the lazy slot and returns the resolver's value for the property type |
| ServiceProperties.InterceptedReadsShareContainer | netcore3/ViewModelSource.cs:134-139 | with GetService<T> dispatched, two reads on a fresh instance, of any two properties, create one container owned by the instance. Both reads ask that same container, and the second read changes nothing |
| Synthesis.NewGuid | netcore3/ViewModelSource.cs:147 | a GUID token differs from every token drawn before |
| Synthesis.CreateBuilder | netcore3/ViewModelSource.cs:178-183 | a new module is named after a freshly drawn GUID |
| Synthesis.GetModuleBuilder | netcore3/ViewModelSource.cs:175-177 | returns the module cached for the assembly, or creates one with a fresh GUID and caches it. Other assemblies' modules are unchanged |
| Synthesis.GetModuleBuilderTwice | netcore3/ViewModelSource.cs:175-177 | a second request for the same assembly returns the same module and changes nothing |
| Synthesis.CreateTypeBuilder | netcore3/ViewModelSource.cs:145-149 | the type is defined in the assembly's module, is named after the base type and a fresh GUID, derives from the base type, declares ISupportServices and has no members yet |
| Synthesis.BuildSteps | netcore3/ViewModelSource.cs:55-57 | the three build steps succeed iff every property has a reference type, and otherwise fail with the first value-typed property's error |
| Synthesis.BuildStepsCopyAccessible | netcore3/ViewModelSource.cs:55-57 | the later steps keep the constructors, so the result copies exactly the accessible base constructors in order |
| Synthesis.BuildStepsInstallCapability | netcore3/ViewModelSource.cs:55-57 | the result has the slot field and the capability getter as its first method and override exactly when the base type lacks ISupportServices, and no field otherwise |
| Synthesis.BuildStepsInterceptProperties | netcore3/ViewModelSource.cs:56-57 | the property overrides follow the capability getter, one per base property, in order |
| Synthesis.BuildStepsWellBuilt | netcore3/ViewModelSource.cs:54-57 | constructors, then capability, then properties, run on an empty definition, succeed iff every property has a reference type. The result copies the accessible constructors, has the capability exactly when it was missing, and intercepts every property |
| Synthesis.CreateTypeFinishes | netcore3/ViewModelSource.cs:58 | in the model, sealing a built type succeeds iff the base type has an accessible or a parameterless constructor, and then gives a well-synthesized subclass. Otherwise it fails with NotSupportedException |
| Synthesis.SynthesisErrorUnique | netcore3/ViewModelSource.cs:53-59 | a failed synthesis has one exception among those the model raises: the first value-typed property's constraint violation, or else CreateType's NotSupportedException. The runtime's type-load failure when sealing is left out |
| Synthesis.CreateTypeCore | netcore3/ViewModelSource.cs:53-59 | in the model, it succeeds iff every property has a reference type and the base type has an accessible or a parameterless constructor. Then it gives a well-synthesized subclass: copies of the accessible constructors (or the default constructor when there are none), the capability exactly when missing, and every property intercepted. It fails with the first value-typed property's error, or else with NotSupportedException. The assembly's module is cached and the type's GUID drawn whether or not the build fails |
| Synthesis.GetPOCOType | netcore3/ViewModelSource.cs:48-51 | a cached base type returns its type and changes nothing. An uncached one is synthesized, cached and returned; in the model this succeeds iff every property has a reference type and some constructor can be copied or defaulted. A failed build caches nothing and raises the synthesis error, though the GUIDs it drew stay drawn. Other entries are unchanged |
| Synthesis.EmptyValid | netcore3/ViewModelSource.cs:19-21 | a fresh, empty cache satisfies the cache invariant |
| Synthesis.MissKeepsWellSynthesized | netcore3/ViewModelSource.cs:48-51 | caching a well-synthesized type for a new key keeps every cached type well synthesized |
| Synthesis.MissKeepsModules | netcore3/ViewModelSource.cs:48-51 | caching a type in the module now cached for its assembly keeps every cached type in its assembly's module |
| Synthesis.MissKeepsGuidsDrawn | netcore3/ViewModelSource.cs:48-51 | a new type and module whose GUIDs were drawn keep every GUID in use drawn |
| Synthesis.MissKeepsNamesDistinct | netcore3/ViewModelSource.cs:48-51 | a new type whose GUID no cached type uses keeps distinct keys mapped to distinct types |
| Synthesis.FailureKeepsValid | netcore3/ViewModelSource.cs:48-51 | a failed build, which leaves a module cached and GUIDs drawn but no type, keeps the cache invariant |
| Synthesis.GetPOCOTypeValid | netcore3/ViewModelSource.cs:48-51 | the cache invariant is kept on a hit, a build and a failure: every entry is a well-synthesized subclass of its key in its assembly's module, all GUIDs in use were drawn, and distinct keys have distinct types |
| Synthesis.GetPOCOTypeTwice | netcore3/ViewModelSource.cs:48-51 | asking twice for one base type on one cache returns the identical type, and the second request synthesizes nothing; after a failure the second request fails the same way and draws new GUIDs |
| Synthesis.DistinctBasesDistinctTypes | netcore3/ViewModelSource.cs:147 | on a valid cache, two different base types never get the same synthesized type |
| Synthesis.OverridesOf | netcore3/ViewModelSource.cs:69 | the override count is zero iff no override targets the given method |
| Synthesis.CapabilityAccessorOnce | netcore3/ViewModelSource.cs:62-70 | the interface method ISupportServices.get_ServiceContainer gets an override record once when the base type lacks the interface, and none when the base type has it |
| Construction.PublicCtors | netcore3/ViewModelSource.cs:43 | every candidate is a public constructor of the type, and there are no more candidates than constructors |
| Construction.PublicCtorsComplete | netcore3/ViewModelSource.cs:43 | every public constructor of the type is a candidate |
| Construction.SelectionOverPublic | netcore3/ViewModelSource.cs:43 | the binder finds nothing iff no public constructor applies; a selected one is public and applies; an ambiguity means two public constructors apply |
| Construction.GetConstructor | netcore3/ViewModelSource.cs:43 | null iff no public constructor accepts the argument types; a returned constructor is public and accepts them, and is returned exactly when the binder settles on one; otherwise AmbiguousMatchException, with two public constructors applicable |
| Construction.CheckArguments | netcore3/ViewModelSource.cs:44 | finds no argument iff every argument from the start position is reference-assignable to its parameter type; otherwise finds the first one that is not |
| Construction.ExpressionNew | netcore3/ViewModelSource.cs:44 | it succeeds iff the constructor is not null and the arguments fit its parameters by count and by reference assignability; then it calls that constructor with those arguments. A null constructor gives ArgumentNullException, a count mismatch gives ArgumentCountMismatch, and otherwise the first misfitting argument is reported |
| Construction.GetNewExpression | netcore3/ViewModelSource.cs:42-45 | it succeeds iff the binder picks one constructor of the synthesized type for the parameter types of the one called and the arguments fit that constructor by reference. Then the arguments are kept and the call goes to that public constructor. It fails with ArgumentNullException iff no public constructor applies, with AmbiguousMatchException iff the binder is ambiguous, and otherwise with the count error or the first misfitting argument |
| Construction.ObjectParameterTakes | netcore3/ViewModelSource.cs:44 | a constructor with one `object` parameter accepts one reference-typed argument. A value-typed argument is rejected at position 0, and any other number of arguments is a count mismatch |
| Construction.RetargetBody | netcore3/ViewModelSource.cs:31-39 | a `new` or an object initializer succeeds iff its constructor can be rebound and Expression.New accepts its arguments. The initializer keeps its bindings, and any other body raises ArgumentException |
| Construction.GetCtorExpression | netcore3/ViewModelSource.cs:29-40 | the cache is updated exactly as GetPOCOType does, even if the body is then rejected. In the model it succeeds iff synthesis succeeds, the body is a `new` or an object initializer, the binder picks one constructor of the synthesized type, and the arguments fit it. Then the arguments and bindings are kept and the call is retargeted. A failed synthesis, a bad body shape (ArgumentException), a failed lookup and a rejected argument each give their own error |
| Construction.LookupAmongCopies | netcore3/ViewModelSource.cs:43 | with distinct base signatures, looking up a copied constructor's parameter types among the copies finds exactly its own copy |
| Construction.HandedOutWellSynthesized | netcore3/ViewModelSource.cs:30 | in the model, the type fetched from a valid cache exists iff every property has a reference type and some base constructor is accessible or parameterless, and is then a well-synthesized subclass |
| Construction.HandedOutNotSupported | netcore3/ViewModelSource.cs:30 | on a valid cache, a base type whose constructors are all inaccessible and all take parameters fails with NotSupportedException |
| Construction.HandedOutFails | netcore3/ViewModelSource.cs:30 | on a valid cache a value-typed property makes the fetch fail with the constraint violation |
| Construction.AccessibleConstructorRetargeted | netcore3/ViewModelSource.cs:29-45 | `new T(args)` naming an accessible constructor becomes `new` on the copy of that very constructor, with the same arguments, iff those arguments fit its parameters by reference; otherwise Expression.New's ArgumentException. A value-typed property makes it fail instead |
| Construction.RetargetedToCopy | netcore3/ViewModelSource.cs:29-45 | whatever constructor `new T(args)` names, it fails with ArgumentNullException iff T has copied constructors and none accepts its parameter types. It fails with NotSupportedException when T has none. On success it calls the copy of one that accepts them |
| Construction.PrivateOverloadRebound | netcore3/ViewModelSource.cs:42-45 | with a public `T(object)` and a private one-parameter constructor, `new` on the private one with one reference-typed argument is retargeted to the copy of `T(object)`. A value-typed argument is rejected by Expression.New, and a different argument count is a count mismatch |
| Construction.DefaultConstructorRebound | netcore3/ViewModelSource.cs:29-58 | with only an internal `T()`, `new T()` is rewritten to call the default constructor CreateType added. Only the rewrite is stated: running it is left out |
| Construction.RetargetedConstructionForwards | netcore3/ViewModelSource.cs:29-45 | for arguments that fit the accessible constructor named, as Expression.New checked when the caller's tree was built, running the retargeted constructor with values v1..vn calls that base constructor with `this, v1..vn` unchanged and in order, and throws exactly when it does |

## Findings

| source | as written | input that shows it | evidently intended | confidence | as-written member | corrected member |
|---|---|---|---|---|---|---|
| netcore3/ViewModelSource.cs:138 | `gen.Emit(OpCodes.Call, getServiceMethod)` calls the abstract interface method `IServiceContainer.GetService<T>` non-virtually. Such a call does not look up the implementation in the receiver's type (section III.3.19 of ECMA-335), so it cannot reach `ServiceContainer`'s explicit implementation (line 227) | reading any property of a synthesized instance, for example a base type with one property `string Name` | `OpCodes.Callvirt`, which dispatches to the container's implementation | medium; not executed | ServiceProperties.InterceptedReadFaults | ServiceProperties.DispatchingGetter |

`ServiceProperties.InterceptedRead` and `ServiceProperties.InterceptedReadsShareContainer` state the intended behaviour about the corrected getter. The member plans (`InterceptingGetter`, `WellSynthesized`) keep the getter as emitted.

## Left out

- IL byte encoding: each `gen.Emit(op, operand)` is read as the instruction it names. The source passes an `int` operand to the short forms `Ldarg_S` (line 165) and `Ldc_I4_S` (line 137), which `ILGenerator` writes with a 4-byte operand. The model does not look at the bytes this produces.
- Construction.DefaultConstructorRebound: states only the rewrite of `new T()`. The default constructor `CreateType` adds lives in the dynamic module of line 180, and its body calls the base type's parameterless constructor. When that constructor is internal or private to another assembly, running the rewritten lambda in `Create<T>` (line 25) makes the runtime refuse the call with `MethodAccessException`. The model does not check access at run time.
- Constructors.BuildConstructorForwards: holds only for constructors with fewer than 256 parameters. `ldarg.s` reads a one-byte index, so with the 4-byte operand of line 165 the load of argument 256 becomes `ldarg.s 0` followed by the operand's remaining bytes read as instructions. The model reads `Ldarg(i)` for every i.
- Construction.RetargetedConstructionForwards: holds only for base constructors with fewer than 256 parameters, for the same reason.
- Synthesis.CapabilityAccessorOnce: counts only override records of the interface method itself. Suppose a base type implements ISupportServices through a property that reflection returns, either a public `ServiceContainer` or its own private explicit implementation. Then property interception (lines 110-112) also overrides that accessor, through a property-getter record the count leaves out.
- The default binder's by-ref and pointer parameters, `params` arrays, COM objects and the declaring-type depth tie-break: none of these arise for the one-type constructor lists modelled here. Conversions between types and which types are value types are a parameter (`TypeUniverse`), not a class hierarchy.
- Two refinements of `Expression.New`'s argument check: the quoting of a lambda argument passed to a `LambdaExpression`-typed parameter, and the unwrapping of by-ref parameter types. Neither arises for the argument expressions modelled here, which carry only a static type (`Operand`).
- `Expression.MemberInit`'s check of the bindings (line 37): each bound member belongs to the base type, which the synthesized type derives from. The bindings are carried over unchanged.
- The non-virtual call of line 138 faults at the call instruction in the model (`ServiceProperties.Linked`). The runtime may instead reject the method when it compiles it. Either way no value is returned.
- The CLR's checks when `TypeBuilder.CreateType()` seals the type (for example, that each overridden getter is virtual, not final and matches the override's signature; line 112 overrides every property's getter, so a non-virtual or private getter makes the type fail to load), and `ModuleBuilder`/`AssemblyBuilder` creation: these belong to the runtime library. The model keeps the member plan and the default constructor `CreateType` adds (`Constructors.CreateType`).
- Type attributes (`TypeAttributes.Public`, line 148) and GUID text and name formatting (lines 147, 180): names are (base name, token) pairs and modules are tokens.
- `[ThreadStatic]` scoping of both caches (lines 19-21, 170-174): these are ambient per-thread state. One cache is explicit state here.
- `Create<T>` compiling and invoking the rewritten lambda (line 25): this is runtime code execution. The rewrite itself is `GetCtorExpression`, and the `useOnlyParameters` argument is unused in the source.
- `ServiceContainer.GetService` showing a message box (line 228): this is UI. The container's resolution is a parameter (`resolve` in `ServiceProperties.Linked`).
- `ExpressionHelper` (lines 191-215): a reflection lookup utility. The members it finds are constants here: the `get_ServiceContainer` getter and the `ServiceContainer(object)` constructor.
- Write-only properties and indexers: the source does not filter them (line 109), and every property descriptor here carries a parameterless getter, so neither is representable. For a write-only property `GetGetMethod(true)` returns null, and line 111 runs first: `BuildGetServicePropertyMethod` dereferences the null getter at line 120 (`getMethod.IsPublic`) and throws `NullReferenceException`. For an indexer it returns `get_Item`, which takes the index. Line 113 then declares a property without index parameters, and line 123 declares a parameterless override getter for it, which `CreateType` rejects because the signatures differ.
- Static members: reflection is called with `BindingFlags.Instance`, so the descriptor lists instance members only.
- Concurrent first access to one instance's lazy slot: only sequential calls are modelled.

=== FILE: binder.dfy ===
/**
 * The default binder's overload choice (DefaultBinder.SelectMethod), which
 * Type.GetConstructor(Type[]) uses to pick a constructor for a list of
 * argument types. A candidate is a parameter-type list. It applies when every
 * argument type may be passed to the corresponding parameter. Among several
 * that apply, a left-to-right tournament keeps the most specific one. The
 * binder throws AmbiguousMatchException when the last comparison that mattered
 * found no winner.
 */
module Binder {
  import opened Reflection

  /** Same count, and each argument type may be passed to its parameter. */
  predicate Applicable(asg: TypeUniverse, ps: seq<TypeRef>, types: seq<TypeRef>) {
    && |ps| == |types|
    && forall j :: 0 <= j < |types| ==> AssignableTo(asg, types[j], ps[j])
  }

  /**
   * DefaultBinder.FindMostSpecificType: which of two different parameter
   * types is the better fit for the argument type `t`. The result is 1 for
   * `c1`, 2 for `c2`, and 0 when neither is.
   */
  function FindMostSpecificType(asg: TypeUniverse, c1: TypeRef, c2: TypeRef, t: TypeRef): (r: int)
    ensures 0 <= r <= 2
    ensures c1 == c2 ==> r == 0
    // the argument's own type beats any other parameter type
    ensures c1 != c2 && c1 == t ==> r == 1
    ensures c1 != c2 && c2 == t ==> r == 2
    // otherwise the winner is the one that converts to the other, and not back
    ensures r == 1 && c1 != t ==> AssignableTo(asg, c1, c2) && !AssignableTo(asg, c2, c1)
    ensures r == 2 && c2 != t ==> AssignableTo(asg, c2, c1) && !AssignableTo(asg, c1, c2)
  {
    if c1 == c2 then 0
    else if c1 == t then 1
    else if c2 == t then 2
    else
      var c1FromC2 := AssignableTo(asg, c2, c1);
      var c2FromC1 := AssignableTo(asg, c1, c2);
      if c1FromC2 == c2FromC1 then 0
      else if c1FromC2 then 2
      else 1
  }

  /**
   * DefaultBinder.FindMostSpecific over two parameter lists of the argument
   * count. A position where the lists differ but neither type fits better
   * makes the comparison undecided (0). Otherwise a list wins (1 or 2) when
   * it fits better at some position and worse at none.
   */
  function FindMostSpecific(asg: TypeUniverse, p1: seq<TypeRef>, p2: seq<TypeRef>, types: seq<TypeRef>): (r: int)
    requires |p1| == |types| && |p2| == |types|
    ensures 0 <= r <= 2
    ensures p1 == p2 ==> r == 0
    ensures r == 1 ==> exists i :: 0 <= i < |types| && FindMostSpecificType(asg, p1[i], p2[i], types[i]) == 1
    ensures r == 1 ==> forall i :: 0 <= i < |types| ==> FindMostSpecificType(asg, p1[i], p2[i], types[i]) != 2
    ensures r == 2 ==> exists i :: 0 <= i < |types| && FindMostSpecificType(asg, p1[i], p2[i], types[i]) == 2
    ensures r == 2 ==> forall i :: 0 <= i < |types| ==> FindMostSpecificType(asg, p1[i], p2[i], types[i]) != 1
  {
    var undecided := exists i :: 0 <= i < |types| && p1[i] != p2[i] && FindMostSpecificType(asg, p1[i], p2[i], types[i]) == 0;
    var p1Less := exists i :: 0 <= i < |types| && FindMostSpecificType(asg, p1[i], p2[i], types[i]) == 1;
    var p2Less := exists i :: 0 <= i < |types| && FindMostSpecificType(asg, p1[i], p2[i], types[i]) == 2;
    if undecided || p1Less == p2Less then 0
    else if p1Less then 1
    else 2
  }

  /** A list equal to the argument types beats every other list of that length, from either side. */
  lemma {:induction false} ExactMostSpecific(asg: TypeUniverse, p: seq<TypeRef>, types: seq<TypeRef>)
    requires |p| == |types| && p != types
    ensures FindMostSpecific(asg, p, types, types) == 2
    ensures FindMostSpecific(asg, types, p, types) == 1
  {
    var i :| 0 <= i < |types| && p[i] != types[i];
    assert FindMostSpecificType(asg, p[i], types[i], types[i]) == 2;
    assert FindMostSpecificType(asg, types[i], p[i], types[i]) == 1;
    forall j | 0 <= j < |types| && p[j] != types[j]
      ensures FindMostSpecificType(asg, p[j], types[j], types[j]) == 2
      ensures FindMostSpecificType(asg, types[j], p[j], types[j]) == 1
    {
    }
  }

  /** The positions, in increasing order, of the candidates that apply: SelectMethod's first pass. */
  function Matching(asg: TypeUniverse, sigs: seq<seq<TypeRef>>, types: seq<TypeRef>): (r: seq<nat>)
    ensures forall k :: 0 <= k < |r| ==> r[k] < |sigs| && Applicable(asg, sigs[r[k]], types)
    ensures forall i :: 0 <= i < |sigs| && Applicable(asg, sigs[i], types) ==> i in r
    ensures forall a, b :: 0 <= a < b < |r| ==> r[a] < r[b]
  {
    if sigs == [] then []
    else
      var n := |sigs| - 1;
      var rest := Matching(asg, sigs[..n], types);
      assert forall k :: 0 <= k < |rest| ==> sigs[..n][rest[k]] == sigs[rest[k]];
      if Applicable(asg, sigs[n], types) then rest + [n] else rest
  }

  /** The candidates `ms` index all apply and have the argument count. */
  predicate Candidates(sigs: seq<seq<TypeRef>>, types: seq<TypeRef>, ms: seq<nat>) {
    forall k :: 0 <= k < |ms| ==> ms[k] < |sigs| && |sigs[ms[k]]| == |types|
  }

  /**
   * One contest of SelectMethod's tournament: challenger `i` against the
   * leader `currentMin`. A challenger that wins takes the lead and clears
   * `ambig`, an undecided contest sets it, and a lost one changes nothing.
   */
  function Contest(asg: TypeUniverse, sigs: seq<seq<TypeRef>>, types: seq<TypeRef>, ms: seq<nat>,
                   i: nat, currentMin: nat, ambig: bool): (r: (nat, bool))
    requires Candidates(sigs, types, ms) && currentMin < |ms| && i < |ms|
    ensures r.0 == currentMin || r == (i, false)
    ensures r.0 == currentMin ==> r.1 == ambig || r.1
  {
    var newMin := FindMostSpecific(asg, sigs[ms[currentMin]], sigs[ms[i]], types);
    if newMin == 0 then (currentMin, true)
    else if newMin == 2 then (i, false)
    else (currentMin, ambig)
  }

  /**
   * The tournament of SelectMethod from position `i` on: `currentMin` is the
   * candidate in the lead, `ambig` whether a contest it has not since won
   * was undecided.
   */
  function Tournament(asg: TypeUniverse, sigs: seq<seq<TypeRef>>, types: seq<TypeRef>, ms: seq<nat>,
                      i: nat, currentMin: nat, ambig: bool): (r: (nat, bool))
    requires Candidates(sigs, types, ms) && currentMin < |ms|
    ensures r.0 < |ms|
    decreases |ms| - i
  {
    if i >= |ms| then (currentMin, ambig)
    else
      var (lead, tie) := Contest(asg, sigs, types, ms, i, currentMin, ambig);
      Tournament(asg, sigs, types, ms, i + 1, lead, tie)
  }

  /** Candidate `p` is the only one whose parameter types are exactly the argument types. */
  predicate OnlyExactAt(sigs: seq<seq<TypeRef>>, types: seq<TypeRef>, ms: seq<nat>, p: nat)
    requires Candidates(sigs, types, ms)
  {
    && p < |ms| && sigs[ms[p]] == types
    && forall k :: 0 <= k < |ms| && k != p ==> sigs[ms[k]] != types
  }

  /** The exact candidate wins every contest it takes part in, as leader or as challenger. */
  lemma {:induction false} ExactWinsContest(asg: TypeUniverse, sigs: seq<seq<TypeRef>>, types: seq<TypeRef>, ms: seq<nat>,
                                            i: nat, currentMin: nat, ambig: bool, p: nat)
    requires Candidates(sigs, types, ms) && currentMin < |ms| && i < |ms|
    requires OnlyExactAt(sigs, types, ms, p)
    requires currentMin == p || i == p
    requires currentMin != i
    ensures currentMin == p && !ambig ==> Contest(asg, sigs, types, ms, i, currentMin, ambig) == (p, false)
    ensures i == p ==> Contest(asg, sigs, types, ms, i, currentMin, ambig) == (p, false)
  {
    if currentMin == p {
      ExactMostSpecific(asg, sigs[ms[i]], types);
    } else {
      ExactMostSpecific(asg, sigs[ms[currentMin]], types);
    }
  }

  /** The binder's answer: no candidate, the position of the chosen one, or a tie. */
  datatype Selection = NoMatch | Selected(index: nat) | Ambiguous

  /**
   * DefaultBinder.SelectMethod: nothing when no candidate applies, the only
   * one when one applies, else the tournament's winner, or Ambiguous.
   */
  function SelectMethod(asg: TypeUniverse, sigs: seq<seq<TypeRef>>, types: seq<TypeRef>): (r: Selection)
    ensures r.NoMatch? <==> forall i :: 0 <= i < |sigs| ==> !Applicable(asg, sigs[i], types)
    ensures r.Selected? ==> r.index < |sigs| && Applicable(asg, sigs[r.index], types)
    ensures r.Ambiguous? ==>
              exists i, j :: 0 <= i < j < |sigs| && Applicable(asg, sigs[i], types) && Applicable(asg, sigs[j], types)
  {
    var ms := Matching(asg, sigs, types);
    if |ms| == 0 then NoMatch
    else if |ms| == 1 then Selected(ms[0])
    else
      var (m, ambig) := Tournament(asg, sigs, types, ms, 1, 0, false);
      if ambig then
        assert ms[0] < ms[1];
        Ambiguous
      else Selected(ms[m])
  }

  /** No two candidates share a parameter-type list. */
  predicate DistinctSigs(sigs: seq<seq<TypeRef>>) {
    forall i, j :: 0 <= i < |sigs| && 0 <= j < |sigs| && i != j ==> sigs[i] != sigs[j]
  }

  /** When exactly one candidate applies, the binder picks it. */
  lemma {:induction false} SoleCandidateSelected(asg: TypeUniverse, sigs: seq<seq<TypeRef>>, types: seq<TypeRef>, k: nat)
    requires k < |sigs| && Applicable(asg, sigs[k], types)
    requires forall i :: 0 <= i < |sigs| && Applicable(asg, sigs[i], types) ==> i == k
    ensures SelectMethod(asg, sigs, types) == Selected(k)
  {
    var ms := Matching(asg, sigs, types);
    assert k in ms;
  }

  /** Once the exact candidate leads, every later contest keeps it in the lead, decided. */
  lemma {:induction false} TournamentKeepsExact(asg: TypeUniverse, sigs: seq<seq<TypeRef>>, types: seq<TypeRef>, ms: seq<nat>, i: nat, p: nat)
    requires Candidates(sigs, types, ms) && OnlyExactAt(sigs, types, ms, p) && p < i
    ensures Tournament(asg, sigs, types, ms, i, p, false) == (p, false)
    decreases |ms| - i
  {
    if i < |ms| {
      ExactWinsContest(asg, sigs, types, ms, i, p, false, p);
      TournamentKeepsExact(asg, sigs, types, ms, i + 1, p);
    }
  }

  /** Before the exact candidate is reached, whoever leads, it takes the lead when reached and keeps it. */
  lemma {:induction false} TournamentFindsExact(asg: TypeUniverse, sigs: seq<seq<TypeRef>>, types: seq<TypeRef>, ms: seq<nat>,
                                                i: nat, currentMin: nat, ambig: bool, p: nat)
    requires Candidates(sigs, types, ms) && OnlyExactAt(sigs, types, ms, p) && currentMin < i <= p
    ensures Tournament(asg, sigs, types, ms, i, currentMin, ambig) == (p, false)
    decreases |ms| - i
  {
    if i == p {
      ExactTakesLead(asg, sigs, types, ms, currentMin, ambig, p);
    } else {
      var (lead, tie) := Contest(asg, sigs, types, ms, i, currentMin, ambig);
      TournamentFindsExact(asg, sigs, types, ms, i + 1, lead, tie, p);
    }
  }

  /** The contest in which the exact candidate challenges the leader, and every one after it. */
  lemma {:induction false} ExactTakesLead(asg: TypeUniverse, sigs: seq<seq<TypeRef>>, types: seq<TypeRef>, ms: seq<nat>,
                                          currentMin: nat, ambig: bool, p: nat)
    requires Candidates(sigs, types, ms) && OnlyExactAt(sigs, types, ms, p) && currentMin < p
    ensures Tournament(asg, sigs, types, ms, p, currentMin, ambig) == (p, false)
  {
    ExactWinsContest(asg, sigs, types, ms, p, currentMin, ambig, p);
    TournamentKeepsExact(asg, sigs, types, ms, p + 1, p);
  }

  /**
   * A candidate whose parameter types are exactly the argument types is
   * chosen, whatever else applies, when no two candidates share a list.
   */
  lemma {:induction false} ExactMatchSelected(asg: TypeUniverse, sigs: seq<seq<TypeRef>>, types: seq<TypeRef>, e: nat)
    requires e < |sigs| && sigs[e] == types
    requires DistinctSigs(sigs)
    ensures SelectMethod(asg, sigs, types) == Selected(e)
  {
    var ms := Matching(asg, sigs, types);
    assert Applicable(asg, sigs[e], types);
    assert e in ms;
    var p :| 0 <= p < |ms| && ms[p] == e;
    ExactOnlyOnce(asg, sigs, types, ms, p);
    TournamentSelectsExact(asg, sigs, types, ms, p);
  }

  /** With distinct lists, the exact candidate occurs once among those that apply. */
  lemma {:induction false} ExactOnlyOnce(asg: TypeUniverse, sigs: seq<seq<TypeRef>>, types: seq<TypeRef>, ms: seq<nat>, p: nat)
    requires ms == Matching(asg, sigs, types) && p < |ms| && sigs[ms[p]] == types
    requires DistinctSigs(sigs)
    ensures Candidates(sigs, types, ms) && OnlyExactAt(sigs, types, ms, p)
  {
    forall k | 0 <= k < |ms| && k != p
      ensures sigs[ms[k]] != types
    {
      assert ms[k] != ms[p] by {
        if k < p { assert ms[k] < ms[p]; } else { assert ms[p] < ms[k]; }
      }
    }
  }

  /** When the exact candidate occurs once among those that apply, SelectMethod returns it. */
  lemma {:induction false} TournamentSelectsExact(asg: TypeUniverse, sigs: seq<seq<TypeRef>>, types: seq<TypeRef>, ms: seq<nat>, p: nat)
    requires ms == Matching(asg, sigs, types)
    requires Candidates(sigs, types, ms) && OnlyExactAt(sigs, types, ms, p)
    ensures SelectMethod(asg, sigs, types) == Selected(ms[p])
  {
    if |ms| >= 2 {
      if p == 0 {
        TournamentKeepsExact(asg, sigs, types, ms, 1, 0);
      } else {
        TournamentFindsExact(asg, sigs, types, ms, 1, 0, false, p);
      }
    }
  }

}

=== FILE: construction.dfy ===
/**
 * ViewModelSource.GetCtorExpression and ViewModelSource.GetNewExpression:
 * a caller's `() => new T(args)` or `() => new T(args) { bindings }` is
 * retargeted to the matching constructor of the synthesized descendant of T.
 * Compiling and invoking the rewritten lambda is not part of this model.
 */
module Construction {
  import opened Wrappers
  import opened Reflection
  import opened Il
  import opened TypeDefs
  import opened Constructors
  import opened Binder
  import opened ServiceProperties
  import opened Synthesis

  /**
   * An argument or binding expression: its text is kept opaque and copied,
   * never inspected; `exprType` is its static type (Expression.Type), which
   * Expression.New checks against the parameter it is passed to.
   */
  datatype Operand = Operand(text: string, exprType: TypeRef)

  /** The constructor a NewExpression calls: one of the base type, or one of a synthesized type. */
  datatype CtorRef = OfBase(baseCtor: Constructor) | OfSynthesized(owner: TypeName, ctor: CtorDef)

  datatype NewExpr = NewExpr(ctor: CtorRef, arguments: seq<Operand>)

  /** A member assignment of an object initializer. */
  datatype Binding = Binding(member: string, value: Operand)

  /** The body of the caller's construction lambda. */
  datatype Body =
    | New(newExpr: NewExpr)
    | MemberInit(newExpr: NewExpr, bindings: seq<Binding>)
    | OtherBody(nodeType: string)

  /** The parameter-type list of the constructor a reference names. */
  function CtorParameterTypes(c: CtorRef): seq<TypeRef> {
    ParameterTypes(CtorParameters(c))
  }

  /** The parameter list of the constructor a reference names. */
  function CtorParameters(c: CtorRef): seq<Parameter> {
    match c
    case OfBase(b) => b.parameters
    case OfSynthesized(_, d) => d.parameters
  }

  /** As many arguments as parameter types, each reference-assignable to its parameter's type. */
  predicate ArgumentsFit(asg: TypeUniverse, ps: seq<TypeRef>, args: seq<Operand>) {
    |args| == |ps| && forall i :: 0 <= i < |ps| ==> ReferenceAssignable(asg, args[i].exprType, ps[i])
  }

  /** `args[k]` is the first argument that is not reference-assignable to its parameter type in `ps`. */
  predicate FirstMisfit(asg: TypeUniverse, ps: seq<TypeRef>, args: seq<Operand>, k: nat) {
    && k < |ps| && k < |args| && !ReferenceAssignable(asg, args[k].exprType, ps[k])
    && forall i :: 0 <= i < k ==> ReferenceAssignable(asg, args[i].exprType, ps[i])
  }

  /** Expression.New's loop over the arguments from position `from` on: the first that does not fit, if any. */
  function CheckArguments(asg: TypeUniverse, ps: seq<TypeRef>, args: seq<Operand>, from: nat): (r: Option<nat>)
    requires |args| == |ps| && from <= |ps|
    ensures r.None? <==> forall i :: from <= i < |ps| ==> ReferenceAssignable(asg, args[i].exprType, ps[i])
    ensures r.Some? ==>
              && from <= r.value < |ps| && !ReferenceAssignable(asg, args[r.value].exprType, ps[r.value])
              && forall i :: from <= i < r.value ==> ReferenceAssignable(asg, args[i].exprType, ps[i])
    decreases |ps| - from
  {
    if from == |ps| then None
    else if !ReferenceAssignable(asg, args[from].exprType, ps[from]) then Some(from)
    else CheckArguments(asg, ps, args, from + 1)
  }

  /**
   * Expression.New(constructor, arguments) for a constructor of the type
   * `owner`: ArgumentNullException for a null constructor; ArgumentException
   * when the argument count is not the parameter count, and otherwise for
   * the first argument whose type is not reference-assignable to its
   * parameter's type.
   */
  function ExpressionNew(asg: TypeUniverse, owner: TypeName, ctor: Option<CtorDef>, args: seq<Operand>): (r: Result<NewExpr, Error>)
    ensures r.Ok? <==> ctor.Some? && ArgumentsFit(asg, ParameterTypes(ctor.value.parameters), args)
    ensures r.Ok? ==> r.value == NewExpr(OfSynthesized(owner, ctor.value), args)
    ensures r == Err(ArgumentNullException("constructor")) <==> ctor.None?
    ensures r == Err(ArgumentCountMismatch) <==> ctor.Some? && |args| != |ctor.value.parameters|
    ensures r.Err? && r.error.ArgumentTypeMismatch? ==>
              ctor.Some? && FirstMisfit(asg, ParameterTypes(ctor.value.parameters), args, r.error.index)
    ensures r.Err? ==> r.error == ArgumentNullException("constructor") || r.error == ArgumentCountMismatch || r.error.ArgumentTypeMismatch?
  {
    match ctor
    case None => Err(ArgumentNullException("constructor"))
    case Some(c) =>
      if |args| != |c.parameters| then Err(ArgumentCountMismatch)
      else
        match CheckArguments(asg, ParameterTypes(c.parameters), args, 0)
        case None => Ok(NewExpr(OfSynthesized(owner, c), args))
        case Some(k) => Err(ArgumentTypeMismatch(k))
  }

  /** The public constructors among `ds`, in order: the candidates of Type.GetConstructor(Type[]). */
  function PublicCtors(ds: seq<CtorDef>): (r: seq<CtorDef>)
    ensures |r| <= |ds|
    // every candidate is a public constructor of `ds` (`PublicCtorsComplete` gives the converse)
    ensures forall k :: 0 <= k < |r| ==> r[k] in ds && r[k].access == Public
  {
    if ds == [] then []
    else
      var rest := PublicCtors(ds[1..]);
      assert forall d :: d in ds <==> d == ds[0] || d in ds[1..];
      if ds[0].access == Public then [ds[0]] + rest else rest
  }

  /** Every public constructor of `ds` is a candidate. */
  lemma {:induction false} PublicCtorsComplete(ds: seq<CtorDef>)
    ensures forall i :: 0 <= i < |ds| && ds[i].access == Public ==> ds[i] in PublicCtors(ds)
  {
    if ds != [] {
      PublicCtorsComplete(ds[1..]);
      forall i | 0 < i < |ds| && ds[i].access == Public
        ensures ds[i] in PublicCtors(ds)
      {
        assert ds[i] == ds[1..][i - 1];
      }
    }
  }

  /** When every constructor is public, all are candidates, in order. */
  lemma {:induction false} PublicKeepsAll(ds: seq<CtorDef>)
    requires forall i :: 0 <= i < |ds| ==> ds[i].access == Public
    ensures PublicCtors(ds) == ds
  {
    if ds != [] {
      PublicKeepsAll(ds[1..]);
      assert [ds[0]] + ds[1..] == ds;
    }
  }

  /** No public constructor of `ds` accepts arguments of the types `types`. */
  predicate NoneApplicable(asg: TypeUniverse, ds: seq<CtorDef>, types: seq<TypeRef>) {
    forall d :: d in ds && d.access == Public ==> !Applicable(asg, ParameterTypes(d.parameters), types)
  }

  /** At least two of `cs`, at different positions, accept arguments of the types `types`. */
  predicate TwoApplicable(asg: TypeUniverse, cs: seq<CtorDef>, types: seq<TypeRef>) {
    exists i, j :: 0 <= i < j < |cs| && Applicable(asg, ParameterTypes(cs[i].parameters), types)
                                     && Applicable(asg, ParameterTypes(cs[j].parameters), types)
  }

  /** What the binder's answer over the public constructors' signatures says about the constructors themselves. */
  lemma {:induction false} SelectionOverPublic(asg: TypeUniverse, ds: seq<CtorDef>, types: seq<TypeRef>)
    ensures var pub := PublicCtors(ds);
            var sel := SelectMethod(asg, Signatures(pub), types);
            && (sel.NoMatch? <==> NoneApplicable(asg, ds, types))
            && (sel.Selected? ==> sel.index < |pub| && pub[sel.index] in ds && pub[sel.index].access == Public
                                  && Applicable(asg, ParameterTypes(pub[sel.index].parameters), types))
            && (sel.Ambiguous? ==> TwoApplicable(asg, pub, types))
  {
    NoMatchOverPublic(asg, ds, types);
    var pub := PublicCtors(ds);
    var sigs := Signatures(pub);
    var sel := SelectMethod(asg, sigs, types);
    if sel.Selected? {
      assert pub[sel.index] in pub;
    } else if sel.Ambiguous? {
      AmbiguousOverPublic(asg, pub, types);
    }
  }

  /** An ambiguous answer over the public signatures means two public constructors apply. */
  lemma AmbiguousOverPublic(asg: TypeUniverse, pub: seq<CtorDef>, types: seq<TypeRef>)
    requires SelectMethod(asg, Signatures(pub), types).Ambiguous?
    ensures TwoApplicable(asg, pub, types)
  {
    var sigs := Signatures(pub);
    var i, j :| 0 <= i < j < |sigs| && Applicable(asg, sigs[i], types) && Applicable(asg, sigs[j], types);
    assert sigs[i] == ParameterTypes(pub[i].parameters) && sigs[j] == ParameterTypes(pub[j].parameters);
  }

  /** The binder finds nothing among the public signatures exactly when no public constructor applies. */
  lemma NoMatchOverPublic(asg: TypeUniverse, ds: seq<CtorDef>, types: seq<TypeRef>)
    ensures SelectMethod(asg, Signatures(PublicCtors(ds)), types).NoMatch? <==> NoneApplicable(asg, ds, types)
  {
    var pub := PublicCtors(ds);
    var sigs := Signatures(pub);
    if SelectMethod(asg, sigs, types).NoMatch? {
      PublicCtorsComplete(ds);
      forall d | d in ds && d.access == Public
        ensures !Applicable(asg, ParameterTypes(d.parameters), types)
      {
        var j :| 0 <= j < |ds| && ds[j] == d;
        var i :| 0 <= i < |pub| && pub[i] == d;
        assert sigs[i] == ParameterTypes(d.parameters);
      }
    }
    if NoneApplicable(asg, ds, types) {
      forall i | 0 <= i < |sigs|
        ensures !Applicable(asg, sigs[i], types)
      {
        assert pub[i] in pub;
      }
    }
  }

  /**
   * Type.GetConstructor(types): among the public instance constructors, the
   * default binder's choice for the argument types `types`. Null when none
   * applies; AmbiguousMatchException when the binder finds no single best one.
   */
  function GetConstructor(asg: TypeUniverse, ds: seq<CtorDef>, types: seq<TypeRef>): (r: Result<Option<CtorDef>, Error>)
    ensures r == Ok(None) <==> NoneApplicable(asg, ds, types)
    ensures r.Ok? && r.value.Some? ==>
              && r.value.value in ds && r.value.value.access == Public
              && Applicable(asg, ParameterTypes(r.value.value.parameters), types)
    ensures r.Err? ==> r.error == AmbiguousMatchException && TwoApplicable(asg, PublicCtors(ds), types)
    // a constructor is returned exactly when the binder settles on a single one
    ensures r.Ok? && r.value.Some? <==> SelectMethod(asg, Signatures(PublicCtors(ds)), types).Selected?
  {
    var pub := PublicCtors(ds);
    SelectionOverPublic(asg, ds, types);
    match SelectMethod(asg, Signatures(pub), types)
    case NoMatch => Ok(None)
    case Selected(k) => Ok(Some(pub[k]))
    case Ambiguous => Err(AmbiguousMatchException)
  }

  /** The binder picks a single constructor of `d` for the parameter types of the one `n` calls. */
  predicate Rebindable(asg: TypeUniverse, d: TypeDef, n: NewExpr) {
    SelectMethod(asg, Signatures(PublicCtors(d.ctors)), CtorParameterTypes(n.ctor)).Selected?
  }

  /** The constructor of `d` the binder picks for the parameter types of the one `n` calls. */
  function BoundConstructor(asg: TypeUniverse, d: TypeDef, n: NewExpr): (c: CtorDef)
    requires Rebindable(asg, d, n)
    ensures GetConstructor(asg, d.ctors, CtorParameterTypes(n.ctor)) == Ok(Some(c))
  {
    var pub := PublicCtors(d.ctors);
    var k := SelectMethod(asg, Signatures(pub), CtorParameterTypes(n.ctor)).index;
    GetConstructorSelected(asg, d.ctors, CtorParameterTypes(n.ctor), k);
    pub[k]
  }

  /** The binder picks a single constructor of `d` for `n`, and Expression.New accepts `n`'s arguments for it. */
  predicate Accepted(asg: TypeUniverse, d: TypeDef, n: NewExpr) {
    Rebindable(asg, d, n) && ArgumentsFit(asg, ParameterTypes(BoundConstructor(asg, d, n).parameters), n.arguments)
  }

  /** The exceptions retargeting a `new` can raise: GetConstructor's ambiguity and Expression.New's. */
  predicate NewExpressionError(e: Error) {
    e == ArgumentNullException("constructor") || e == AmbiguousMatchException || e == ArgumentCountMismatch || e.ArgumentTypeMismatch?
  }

  /**
   * GetNewExpression: the same arguments, now passed to the constructor of
   * `d` that Type.GetConstructor picks for the parameter types of the one `n`
   * calls. When it picks none, Expression.New receives null and throws
   * ArgumentNullException; an ambiguity propagates; and Expression.New
   * rejects arguments the picked constructor's parameters do not take by
   * reference assignment.
   */
  function GetNewExpression(asg: TypeUniverse, d: TypeDef, n: NewExpr): (r: Result<NewExpr, Error>)
    ensures r.Ok? <==> Accepted(asg, d, n)
    ensures r.Ok? ==> Retargeted(asg, n, r.value, d) && r.value.ctor.ctor == BoundConstructor(asg, d, n)
    ensures r == Err(ArgumentNullException("constructor")) <==> NoneApplicable(asg, d.ctors, CtorParameterTypes(n.ctor))
    ensures r == Err(AmbiguousMatchException) <==> SelectMethod(asg, Signatures(PublicCtors(d.ctors)), CtorParameterTypes(n.ctor)).Ambiguous?
    ensures r == Err(ArgumentCountMismatch) <==> Rebindable(asg, d, n) && |n.arguments| != |BoundConstructor(asg, d, n).parameters|
    ensures r.Err? && r.error.ArgumentTypeMismatch? ==>
              Rebindable(asg, d, n) && FirstMisfit(asg, ParameterTypes(BoundConstructor(asg, d, n).parameters), n.arguments, r.error.index)
    ensures r.Err? ==> NewExpressionError(r.error)
  {
    match GetConstructor(asg, d.ctors, CtorParameterTypes(n.ctor))
    case Ok(actual) => ExpressionNew(asg, d.name, actual, n.arguments)
    case Err(e) => Err(e)
  }

  /**
   * `n'` passes the arguments of `n` to a public constructor of `d` that
   * accepts the parameter types of the one `n` called, and whose parameters
   * take those arguments by reference assignment.
   */
  predicate Retargeted(asg: TypeUniverse, n: NewExpr, n': NewExpr, d: TypeDef) {
    && n'.arguments == n.arguments
    && n'.ctor.OfSynthesized? && n'.ctor.owner == d.name
    && n'.ctor.ctor in d.ctors && n'.ctor.ctor.access == Public
    && Applicable(asg, CtorParameterTypes(n'.ctor), CtorParameterTypes(n.ctor))
    && ArgumentsFit(asg, CtorParameterTypes(n'.ctor), n'.arguments)
  }

  /**
   * GetCtorExpression: the synthesized type is obtained from the cache first
   * (so the cache is populated, or the synthesis fails, even when the body is
   * then rejected); a `new` is retargeted; an object initializer keeps its
   * bindings around the retargeted `new`; any other body raises
   * ArgumentException.
   */
  function GetCtorExpression(asg: TypeUniverse, ctx: Ctx, body: Body, resultType: BaseType): (r: (Ctx, Result<Body, Error>))
    // the cache effect is exactly that of GetPOCOType
    ensures r.0 == GetPOCOType(ctx, resultType).1
    // success: a synthesized type, a `new` body, a single constructor of that type for its parameter types, and arguments that fit it
    ensures var synthesized := GetPOCOType(ctx, resultType).0;
            r.1.Ok? <==> synthesized.Ok? && !body.OtherBody? && Accepted(asg, synthesized.value, body.newExpr)
    ensures var synthesized := GetPOCOType(ctx, resultType).0;
            synthesized.Err? ==> r.1 == Err(synthesized.error)
    ensures GetPOCOType(ctx, resultType).0.Ok? && body.OtherBody? ==> r.1 == Err(ArgumentException("constructorExpression"))
    ensures body.New? && r.1.Ok? ==>
              && r.1.value.New?
              && Retargeted(asg, body.newExpr, r.1.value.newExpr, r.0.types[resultType])
    ensures body.MemberInit? && r.1.Ok? ==>
              && r.1.value.MemberInit?
              && r.1.value.bindings == body.bindings
              && Retargeted(asg, body.newExpr, r.1.value.newExpr, r.0.types[resultType])
    ensures GetPOCOType(ctx, resultType).0.Ok? && !body.OtherBody? && r.1.Err? ==> NewExpressionError(r.1.error)
  {
    var (synthesized, ctx') := GetPOCOType(ctx, resultType);
    match synthesized
    case Err(e) => (ctx', Err(e))
    case Ok(d) => (ctx', RetargetBody(asg, d, body))
  }

  /** The body handed back once the synthesized type `d` is known: a `new` or an object initializer is retargeted to `d`. */
  function RetargetBody(asg: TypeUniverse, d: TypeDef, body: Body): (r: Result<Body, Error>)
    ensures r.Ok? <==> !body.OtherBody? && Accepted(asg, d, body.newExpr)
    ensures body.OtherBody? ==> r == Err(ArgumentException("constructorExpression"))
    ensures body.New? && r.Ok? ==> r.value.New? && Retargeted(asg, body.newExpr, r.value.newExpr, d)
    ensures body.MemberInit? && r.Ok? ==>
              && r.value.MemberInit?
              && r.value.bindings == body.bindings
              && Retargeted(asg, body.newExpr, r.value.newExpr, d)
    ensures !body.OtherBody? && r.Err? ==> NewExpressionError(r.error)
  {
    match body
    case New(n) =>
      (match GetNewExpression(asg, d, n)
       case Ok(n') => Ok(New(n'))
       case Err(e) => Err(e))
    case MemberInit(n, bindings) =>
      (match GetNewExpression(asg, d, n)
       case Ok(n') => Ok(MemberInit(n', bindings))
       case Err(e) => Err(e))
    case OtherBody(_) => Err(ArgumentException("constructorExpression"))
  }

  /** No two constructors of a CLR type share a parameter-type list. */
  predicate DistinctSignatures(cs: seq<Constructor>) {
    DistinctSigs(seq(|cs|, i requires 0 <= i < |cs| => ParameterTypes(cs[i].parameters)))
  }

  /** Distinct signatures, position by position. */
  lemma DistinctSignaturesAt(cs: seq<Constructor>)
    ensures DistinctSignatures(cs) <==>
      forall i, j :: 0 <= i < |cs| && 0 <= j < |cs| && i != j ==>
        ParameterTypes(cs[i].parameters) != ParameterTypes(cs[j].parameters)
  {
    var sigs := seq(|cs|, i requires 0 <= i < |cs| => ParameterTypes(cs[i].parameters));
    assert forall i :: 0 <= i < |cs| ==> sigs[i] == ParameterTypes(cs[i].parameters);
  }

  /** Filtering keeps the parameter-type lists distinct. */
  lemma {:induction false} AccessibleDistinct(cs: seq<Constructor>)
    requires DistinctSignatures(cs)
    ensures DistinctSignatures(Accessible(cs))
  {
    if cs != [] {
      TailDistinct(cs);
      AccessibleDistinct(cs[1..]);
      if CanAccessFromDescendant(cs[0].access) {
        HeadDiffers(cs);
        ConsDistinct(cs[0], Accessible(cs[1..]));
      }
    }
  }

  lemma TailDistinct(cs: seq<Constructor>)
    requires cs != [] && DistinctSignatures(cs)
    ensures DistinctSignatures(cs[1..])
  {
    DistinctSignaturesAt(cs);
    DistinctSignaturesAt(cs[1..]);
    forall i, j | 0 <= i < |cs[1..]| && 0 <= j < |cs[1..]| && i != j
      ensures ParameterTypes(cs[1..][i].parameters) != ParameterTypes(cs[1..][j].parameters)
    {
      assert cs[1..][i] == cs[i + 1] && cs[1..][j] == cs[j + 1];
    }
  }

  lemma HeadDiffers(cs: seq<Constructor>)
    requires cs != [] && DistinctSignatures(cs)
    ensures forall y :: y in cs[1..] ==> ParameterTypes(y.parameters) != ParameterTypes(cs[0].parameters)
  {
    DistinctSignaturesAt(cs);
    forall y | y in cs[1..]
      ensures ParameterTypes(y.parameters) != ParameterTypes(cs[0].parameters)
    {
      var k :| 0 <= k < |cs[1..]| && cs[1..][k] == y;
      assert cs[k + 1] == y;
    }
  }

  lemma ConsDistinct(x: Constructor, rest: seq<Constructor>)
    requires DistinctSignatures(rest)
    requires forall y :: y in rest ==> ParameterTypes(y.parameters) != ParameterTypes(x.parameters)
    ensures DistinctSignatures([x] + rest)
  {
    var r := [x] + rest;
    DistinctSignaturesAt(rest);
    DistinctSignaturesAt(r);
    forall i, j | 0 <= i < |r| && 0 <= j < |r| && i != j
      ensures ParameterTypes(r[i].parameters) != ParameterTypes(r[j].parameters)
    {
      if i == 0 {
        assert r[j] == rest[j - 1];
      } else if j == 0 {
        assert r[i] == rest[i - 1];
      } else {
        assert r[i] == rest[i - 1] && r[j] == rest[j - 1];
      }
    }
  }

  /**
   * Looking up the parameter types of a copied constructor among the copies
   * finds the copy of exactly that constructor, whatever else the binder
   * could pass them to.
   */
  lemma {:induction false} LookupAmongCopies(asg: TypeUniverse, cs: seq<Constructor>, ds: seq<CtorDef>, k: nat)
    requires |ds| == |cs| && forall i :: 0 <= i < |cs| ==> ds[i] == BuildConstructor(cs[i])
    requires DistinctSignatures(cs) && k < |cs|
    ensures GetConstructor(asg, ds, ParameterTypes(cs[k].parameters)) == Ok(Some(BuildConstructor(cs[k])))
  {
    var types := ParameterTypes(cs[k].parameters);
    PublicKeepsAll(ds);
    CopiesDistinct(cs, ds);
    ExactMatchSelected(asg, Signatures(ds), types, k);
    GetConstructorSelected(asg, ds, types, k);
  }

  /** When the binder selects position `k` among the public constructors, GetConstructor returns that constructor. */
  lemma GetConstructorSelected(asg: TypeUniverse, ds: seq<CtorDef>, types: seq<TypeRef>, k: nat)
    requires SelectMethod(asg, Signatures(PublicCtors(ds)), types) == Selected(k)
    ensures k < |PublicCtors(ds)| && GetConstructor(asg, ds, types) == Ok(Some(PublicCtors(ds)[k]))
  {
  }

  /** The copies of constructors with distinct parameter-type lists have distinct signatures. */
  lemma {:induction false} CopiesDistinct(cs: seq<Constructor>, ds: seq<CtorDef>)
    requires |ds| == |cs| && forall i :: 0 <= i < |cs| ==> ds[i] == BuildConstructor(cs[i])
    requires DistinctSignatures(cs)
    ensures DistinctSigs(Signatures(ds))
  {
    var sigs := Signatures(ds);
    DistinctSignaturesAt(cs);
    forall i, j | 0 <= i < |sigs| && 0 <= j < |sigs| && i != j
      ensures sigs[i] != sigs[j]
    {
      assert sigs[i] == ParameterTypes(cs[i].parameters) && sigs[j] == ParameterTypes(cs[j].parameters);
    }
  }

  /**
   * The type GetPOCOType hands out, from a valid cache, is a well-synthesized
   * descendant; it fails exactly when a property is value-typed or the
   * finished type would have no constructor.
   */
  lemma HandedOutWellSynthesized(ctx: Ctx, t: BaseType)
    requires Valid(ctx)
    ensures var r := GetPOCOType(ctx, t).0;
            && (r.Ok? <==> Synthesizable(t))
            && (r.Ok? ==> WellSynthesized(t, r.value))
  {
    if t in ctx.types {
      assert WellSynthesized(t, ctx.types[t]);
    }
  }

  /** On a valid cache, a synthesizable base type gets a type whose constructors are the copies of its copied ones. */
  lemma HandedOutCopies(ctx: Ctx, t: BaseType)
    requires Valid(ctx) && Synthesizable(t)
    ensures var (r, ctx') := GetPOCOType(ctx, t);
            r.Ok? && ReproducesConstructors(t, r.value) && t in ctx'.types && ctx'.types[t] == r.value
  {
    HandedOutWellSynthesized(ctx, t);
  }

  /** On a valid cache, a base type with a value-typed property fails to synthesize, with MakeGenericMethod's exception. */
  lemma HandedOutFails(ctx: Ctx, t: BaseType)
    requires Valid(ctx) && !ReferenceTyped(t.properties)
    ensures var r := GetPOCOType(ctx, t).0;
            r.Err? && r.error.ConstraintViolation?
  {
    HandedOutWellSynthesized(ctx, t);
    assert FirstViolation(t.properties, GetPOCOType(ctx, t).0.error);
  }

  /**
   * On a valid cache, a base type without value-typed properties whose
   * constructors are all inaccessible and all take parameters fails at
   * CreateType, which finds no parent constructor for the default one.
   */
  lemma HandedOutNotSupported(ctx: Ctx, t: BaseType)
    requires Valid(ctx) && ReferenceTyped(t.properties)
    requires forall i :: 0 <= i < |t.constructors| ==>
               !CanAccessFromDescendant(t.constructors[i].access) && t.constructors[i].parameters != []
    ensures GetPOCOType(ctx, t).0 == Err(NotSupportedException)
  {
    CopiedConstructorsOfBase(t);
    HandedOutWellSynthesized(ctx, t);
  }

  /** Among the copies of the accessible constructors, the binder picks the copy of `c` for `c`'s own parameter types. */
  lemma {:induction false} AccessibleCopyChosen(asg: TypeUniverse, t: BaseType, d: TypeDef, c: Constructor)
    requires c in t.constructors && CanAccessFromDescendant(c.access)
    requires DistinctSignatures(t.constructors)
    requires ReproducesConstructors(t, d)
    ensures GetConstructor(asg, d.ctors, ParameterTypes(c.parameters)) == Ok(Some(BuildConstructor(c)))
  {
    var cs := AccessibleConstructors(t);
    AccessibleComplete(t.constructors);
    var j :| 0 <= j < |t.constructors| && t.constructors[j] == c;
    assert c in cs;
    CopiedConstructorsOfBase(t);
    var k :| 0 <= k < |cs| && cs[k] == c;
    AccessibleDistinct(t.constructors);
    LookupAmongCopies(asg, cs, d.ctors, k);
  }

  /** A base constructor a descendant may call makes the base type's copied constructors its accessible ones. */
  lemma AccessibleCopied(t: BaseType, c: Constructor)
    requires c in t.constructors && CanAccessFromDescendant(c.access)
    ensures CopiedConstructors(t) == AccessibleConstructors(t) != []
  {
    AccessibleComplete(t.constructors);
    var j :| 0 <= j < |t.constructors| && t.constructors[j] == c;
    assert c in AccessibleConstructors(t);
  }

  /**
   * A `new T(args)` calling a constructor a descendant may call is retargeted
   * to the copy of exactly that constructor, which forwards to it, and the
   * copy takes the arguments exactly when the called constructor did. When a
   * property of T has a value type, synthesis fails instead.
   */
  lemma {:induction false} AccessibleConstructorRetargeted(asg: TypeUniverse, ctx: Ctx, t: BaseType, c: Constructor, args: seq<Operand>)
    requires Valid(ctx)
    requires c in t.constructors && CanAccessFromDescendant(c.access)
    requires DistinctSignatures(t.constructors)
    ensures var (ctx', r) := GetCtorExpression(asg, ctx, New(NewExpr(OfBase(c), args)), t);
            && (ReferenceTyped(t.properties) && ArgumentsFit(asg, ParameterTypes(c.parameters), args) ==>
                  t in ctx'.types && r == Ok(New(NewExpr(OfSynthesized(ctx'.types[t].name, BuildConstructor(c)), args))))
            && (ReferenceTyped(t.properties) && !ArgumentsFit(asg, ParameterTypes(c.parameters), args) ==>
                  r.Err? && (r.error == ArgumentCountMismatch || r.error.ArgumentTypeMismatch?))
            && (!ReferenceTyped(t.properties) ==> r.Err? && r.error.ConstraintViolation?)
  {
    var n := NewExpr(OfBase(c), args);
    if ReferenceTyped(t.properties) {
      AccessibleCopied(t, c);
      HandedOutCopies(ctx, t);
      var d := GetPOCOType(ctx, t).0.value;
      AccessibleCopyChosen(asg, t, d, c);
      RetargetNew(asg, ctx, t, n, d, BuildConstructor(c));
    } else {
      HandedOutFails(ctx, t);
    }
  }

  /** With the synthesized type `d` in hand, a `new` body fares as GetNewExpression does on `d`. */
  lemma NewBodyOutcome(asg: TypeUniverse, ctx: Ctx, t: BaseType, n: NewExpr, d: TypeDef)
    requires GetPOCOType(ctx, t).0 == Ok(d)
    ensures var r := GetCtorExpression(asg, ctx, New(n), t).1;
            var g := GetNewExpression(asg, d, n);
            && (g.Ok? ==> r == Ok(New(g.value)))
            && (g.Err? ==> r == Err(g.error))
  {
  }

  /**
   * A `new` body whose constructor the binder finds in the synthesized type
   * `d` fares as Expression.New does on that constructor and the body's
   * arguments.
   */
  lemma RetargetNew(asg: TypeUniverse, ctx: Ctx, t: BaseType, n: NewExpr, d: TypeDef, x: CtorDef)
    requires GetPOCOType(ctx, t).0 == Ok(d)
    requires GetConstructor(asg, d.ctors, CtorParameterTypes(n.ctor)) == Ok(Some(x))
    ensures var (ctx', r) := GetCtorExpression(asg, ctx, New(n), t);
            var g := ExpressionNew(asg, d.name, Some(x), n.arguments);
            && ctx' == GetPOCOType(ctx, t).1
            && (g.Ok? ==> r == Ok(New(g.value)))
            && (g.Err? ==> r == Err(g.error))
  {
    NewBodyOutcome(asg, ctx, t, n, d);
  }

  /**
   * Over the copies of `cs`, no public constructor applies exactly when none
   * of `cs` does, and every copy is the copy of one of `cs`.
   */
  lemma {:induction false} CopiesApplicable(asg: TypeUniverse, cs: seq<Constructor>, ds: seq<CtorDef>, types: seq<TypeRef>)
    requires |ds| == |cs| && forall i :: 0 <= i < |cs| ==> ds[i] == BuildConstructor(cs[i])
    ensures NoneApplicable(asg, ds, types) <==> forall x :: x in cs ==> !Applicable(asg, ParameterTypes(x.parameters), types)
    ensures forall y :: y in ds ==> exists x :: x in cs && y == BuildConstructor(x)
  {
    forall y | y in ds
      ensures exists x :: x in cs && y == BuildConstructor(x)
    {
      var i :| 0 <= i < |ds| && ds[i] == y;
      assert cs[i] in cs;
    }
    if NoneApplicable(asg, ds, types) {
      forall x | x in cs
        ensures !Applicable(asg, ParameterTypes(x.parameters), types)
      {
        var i :| 0 <= i < |cs| && cs[i] == x;
        assert ds[i] in ds;
      }
    }
  }

  /**
   * Whatever constructor a `new T(args)` calls, accessible or not, the
   * retargeted expression calls the copy of a copied base constructor that
   * accepts its parameter types: an accessible one, or the parameterless
   * one behind the default constructor (`CopiedConstructorsOfBase`). It
   * fails with ArgumentNullException exactly when T has copied constructors
   * and none of them accepts those types, and with NotSupportedException
   * when T has none.
   */
  lemma {:induction false} RetargetedToCopy(asg: TypeUniverse, ctx: Ctx, t: BaseType, n: NewExpr)
    requires Valid(ctx) && ReferenceTyped(t.properties)
    ensures var r := GetCtorExpression(asg, ctx, New(n), t).1;
            && (CopiedConstructors(t) == [] ==> r == Err(NotSupportedException))
            && (r == Err(ArgumentNullException("constructor")) <==>
                  CopiedConstructors(t) != [] && NoCopiedApplies(asg, t, CtorParameterTypes(n.ctor)))
            && (r.Ok? ==> r.value.New? && CallsCopyOfApplicable(asg, t, CtorParameterTypes(n.ctor), r.value.newExpr))
  {
    HandedOutWellSynthesized(ctx, t);
    if Synthesizable(t) {
      HandedOutCopies(ctx, t);
      RetargetedAmongCopies(asg, ctx, t, n, GetPOCOType(ctx, t).0.value);
    }
  }

  lemma RetargetedAmongCopies(asg: TypeUniverse, ctx: Ctx, t: BaseType, n: NewExpr, d: TypeDef)
    requires GetPOCOType(ctx, t).0 == Ok(d) && ReproducesConstructors(t, d)
    ensures var r := GetCtorExpression(asg, ctx, New(n), t).1;
            && (r == Err(ArgumentNullException("constructor")) <==> NoCopiedApplies(asg, t, CtorParameterTypes(n.ctor)))
            && (r.Ok? ==> r.value.New? && CallsCopyOfApplicable(asg, t, CtorParameterTypes(n.ctor), r.value.newExpr))
  {
    CopiesOutcome(asg, t, d, n);
    NewBodyOutcome(asg, ctx, t, n, d);
  }

  /** No copied constructor of `t` accepts arguments of the types `types`. */
  predicate NoCopiedApplies(asg: TypeUniverse, t: BaseType, types: seq<TypeRef>) {
    forall x :: x in CopiedConstructors(t) ==> !Applicable(asg, ParameterTypes(x.parameters), types)
  }

  /** `e` calls the copy of a copied constructor of `t` that accepts arguments of the types `types`. */
  predicate CallsCopyOfApplicable(asg: TypeUniverse, t: BaseType, types: seq<TypeRef>, e: NewExpr) {
    && e.ctor.OfSynthesized?
    && exists x :: && x in CopiedConstructors(t)
                   && Applicable(asg, ParameterTypes(x.parameters), types)
                   && e.ctor.ctor == BuildConstructor(x)
  }

  /** GetNewExpression over the copies of the copied constructors, stated in terms of the base constructors. */
  lemma {:induction false} CopiesOutcome(asg: TypeUniverse, t: BaseType, d: TypeDef, n: NewExpr)
    requires ReproducesConstructors(t, d)
    ensures var g := GetNewExpression(asg, d, n);
            && (g == Err(ArgumentNullException("constructor")) <==> NoCopiedApplies(asg, t, CtorParameterTypes(n.ctor)))
            && (g.Ok? ==> CallsCopyOfApplicable(asg, t, CtorParameterTypes(n.ctor), g.value))
  {
    CopiesApplicable(asg, CopiedConstructors(t), d.ctors, CtorParameterTypes(n.ctor));
    if GetNewExpression(asg, d, n).Ok? {
      CopyCalledApplies(asg, t, d, n);
    }
  }

  /** The constructor GetNewExpression picks among the copies is the copy of a copied base constructor that applies. */
  lemma {:induction false} CopyCalledApplies(asg: TypeUniverse, t: BaseType, d: TypeDef, n: NewExpr)
    requires ReproducesConstructors(t, d)
    requires GetNewExpression(asg, d, n).Ok?
    ensures CallsCopyOfApplicable(asg, t, CtorParameterTypes(n.ctor), GetNewExpression(asg, d, n).value)
  {
    var cs := CopiedConstructors(t);
    var e := GetNewExpression(asg, d, n).value;
    var i :| 0 <= i < |d.ctors| && d.ctors[i] == e.ctor.ctor;
    var x := cs[i];
    assert e.ctor.ctor == BuildConstructor(x);
    assert x in cs;
  }

  /**
   * A base type with a public constructor taking `object` and an
   * inaccessible one taking one argument (say a private `T(string)` or
   * `T(int)`): `new T(a)`, which calls the inaccessible constructor, is
   * rebound to the copy of the public one, the inaccessible constructor
   * having no copy. Expression.New then accepts the argument only when its
   * type is a reference type: a value-typed argument (an `int`) fails, since
   * boxing is not reference assignment.
   */
  lemma {:induction false} PrivateOverloadRebound(asg: TypeUniverse, ctx: Ctx, t: BaseType,
                                                  byObject: Constructor, other: Constructor, args: seq<Operand>)
    requires Valid(ctx) && ReferenceTyped(t.properties)
    requires byObject.access == Public && |byObject.parameters| == 1 && byObject.parameters[0].paramType == ObjectName
    requires !CanAccessFromDescendant(other.access) && |other.parameters| == 1
    requires t.constructors == [byObject, other]
    ensures var (ctx', r) := GetCtorExpression(asg, ctx, New(NewExpr(OfBase(other), args)), t);
            && (|args| == 1 && !IsValueType(asg, args[0].exprType) ==>
                  t in ctx'.types && r == Ok(New(NewExpr(OfSynthesized(ctx'.types[t].name, BuildConstructor(byObject)), args))))
            && (|args| == 1 && IsValueType(asg, args[0].exprType) ==> r == Err(ArgumentTypeMismatch(0)))
            && (|args| != 1 ==> r == Err(ArgumentCountMismatch))
  {
    AccessibleCopied(t, byObject);
    HandedOutCopies(ctx, t);
    RetargetToObject(asg, ctx, t, byObject, other, args, GetPOCOType(ctx, t).0.value);
  }

  /** With the synthesized type `d` in hand: `new` on `other` is rebound to the copy of `byObject`, for one reference-typed argument only. */
  lemma {:induction false} RetargetToObject(asg: TypeUniverse, ctx: Ctx, t: BaseType,
                                            byObject: Constructor, other: Constructor, args: seq<Operand>, d: TypeDef)
    requires byObject.access == Public && |byObject.parameters| == 1 && byObject.parameters[0].paramType == ObjectName
    requires !CanAccessFromDescendant(other.access) && |other.parameters| == 1
    requires t.constructors == [byObject, other]
    requires GetPOCOType(ctx, t).0 == Ok(d) && ReproducesConstructors(t, d)
    ensures var (ctx', r) := GetCtorExpression(asg, ctx, New(NewExpr(OfBase(other), args)), t);
            && (|args| == 1 && !IsValueType(asg, args[0].exprType) ==>
                  t in ctx'.types && r == Ok(New(NewExpr(OfSynthesized(ctx'.types[t].name, BuildConstructor(byObject)), args))))
            && (|args| == 1 && IsValueType(asg, args[0].exprType) ==> r == Err(ArgumentTypeMismatch(0)))
            && (|args| != 1 ==> r == Err(ArgumentCountMismatch))
  {
    ObjectOverloadChosen(asg, t, d, byObject, other);
    var n := NewExpr(OfBase(other), args);
    ObjectNewOutcome(asg, d, n, BuildConstructor(byObject));
    NewBodyOutcome(asg, ctx, t, n, d);
  }

  /** GetNewExpression bound to a constructor `x` with one `object` parameter: one reference-typed argument only. */
  lemma ObjectNewOutcome(asg: TypeUniverse, d: TypeDef, n: NewExpr, x: CtorDef)
    requires GetConstructor(asg, d.ctors, CtorParameterTypes(n.ctor)) == Ok(Some(x))
    requires |x.parameters| == 1 && x.parameters[0].paramType == ObjectName
    ensures var g := GetNewExpression(asg, d, n);
            var args := n.arguments;
            && (|args| == 1 && !IsValueType(asg, args[0].exprType) ==> g == Ok(NewExpr(OfSynthesized(d.name, x), args)))
            && (|args| == 1 && IsValueType(asg, args[0].exprType) ==> g == Err(ArgumentTypeMismatch(0)))
            && (|args| != 1 ==> g == Err(ArgumentCountMismatch))
  {
    assert ParameterTypes(x.parameters) == [ObjectName];
    ObjectParameterTakes(asg, d.name, x, n.arguments);
  }

  /**
   * Expression.New on a constructor with one `object` parameter takes
   * exactly one argument of a reference type.
   */
  lemma ObjectParameterTakes(asg: TypeUniverse, owner: TypeName, x: CtorDef, args: seq<Operand>)
    requires ParameterTypes(x.parameters) == [ObjectName]
    ensures var g := ExpressionNew(asg, owner, Some(x), args);
            && (|args| == 1 && !IsValueType(asg, args[0].exprType) ==> g == Ok(NewExpr(OfSynthesized(owner, x), args)))
            && (|args| == 1 && IsValueType(asg, args[0].exprType) ==> g == Err(ArgumentTypeMismatch(0)))
            && (|args| != 1 ==> g == Err(ArgumentCountMismatch))
  {
    var g := ExpressionNew(asg, owner, Some(x), args);
    if g.Err? && g.error.ArgumentTypeMismatch? {
      assert FirstMisfit(asg, [ObjectName], args, g.error.index);
    }
  }

  /** Among the copies of [byObject, other], the binder picks the copy of byObject for other's parameter types. */
  lemma {:induction false} ObjectOverloadChosen(asg: TypeUniverse, t: BaseType, d: TypeDef, byObject: Constructor, other: Constructor)
    requires byObject.access == Public && |byObject.parameters| == 1 && byObject.parameters[0].paramType == ObjectName
    requires !CanAccessFromDescendant(other.access) && |other.parameters| == 1
    requires t.constructors == [byObject, other]
    requires ReproducesConstructors(t, d)
    ensures GetConstructor(asg, d.ctors, ParameterTypes(other.parameters)) == Ok(Some(BuildConstructor(byObject)))
  {
    AccessibleOfPair(byObject, other);
    assert d.ctors == [BuildConstructor(byObject)];
    SoleCopyChosen(asg, byObject, ParameterTypes(other.parameters));
  }

  /** Of an accessible constructor followed by an inaccessible one, only the first is kept. */
  lemma {:induction false} AccessibleOfPair(a: Constructor, b: Constructor)
    requires CanAccessFromDescendant(a.access) && !CanAccessFromDescendant(b.access)
    ensures Accessible([a, b]) == [a]
  {
    assert [a, b][1..] == [b];
    assert [b][1..] == [];
  }

  /** The copy that is the only constructor is the binder's choice for any argument types it accepts. */
  lemma {:induction false} SoleCopyChosen(asg: TypeUniverse, x: Constructor, types: seq<TypeRef>)
    requires Applicable(asg, ParameterTypes(x.parameters), types)
    ensures GetConstructor(asg, [BuildConstructor(x)], types) == Ok(Some(BuildConstructor(x)))
  {
    var ds := [BuildConstructor(x)];
    PublicKeepsAll(ds);
    var sigs := Signatures(ds);
    assert sigs[0] == ParameterTypes(x.parameters);
    SoleCandidateSelected(asg, sigs, types, 0);
    GetConstructorSelected(asg, ds, types, 0);
  }

  /**
   * A base type whose only constructor is a parameterless one a descendant
   * may not call (an internal `T()`): no constructor is copied, CreateType
   * adds the public default constructor, and `new T()` is retargeted to it.
   * Only the rewrite is stated: the added constructor's call of the internal
   * base constructor crosses assemblies, which is checked only when it runs.
   */
  lemma {:induction false} DefaultConstructorRebound(asg: TypeUniverse, ctx: Ctx, t: BaseType, c: Constructor)
    requires Valid(ctx) && ReferenceTyped(t.properties)
    requires t.constructors == [c] && !CanAccessFromDescendant(c.access) && c.parameters == []
    ensures var (ctx', r) := GetCtorExpression(asg, ctx, New(NewExpr(OfBase(c), [])), t);
            t in ctx'.types && r == Ok(New(NewExpr(OfSynthesized(ctx'.types[t].name, DefaultConstructor(c)), [])))
  {
    OnlyDefaultCopied(t, c);
    HandedOutCopies(ctx, t);
    RetargetToDefault(asg, ctx, t, c, GetPOCOType(ctx, t).0.value);
  }

  /** A base type whose only constructor is an inaccessible parameterless one has that one as its only copied constructor. */
  lemma OnlyDefaultCopied(t: BaseType, c: Constructor)
    requires t.constructors == [c] && !CanAccessFromDescendant(c.access) && c.parameters == []
    ensures CopiedConstructors(t) == [c]
  {
    assert [c][1..] == [];
    assert AccessibleConstructors(t) == [];
  }

  /** With the synthesized type `d` in hand, whose only copied constructor is `c`, `new T()` is retargeted to the default constructor. */
  lemma {:induction false} RetargetToDefault(asg: TypeUniverse, ctx: Ctx, t: BaseType, c: Constructor, d: TypeDef)
    requires GetPOCOType(ctx, t).0 == Ok(d) && ReproducesConstructors(t, d)
    requires c.parameters == [] && CopiedConstructors(t) == [c]
    ensures var (ctx', r) := GetCtorExpression(asg, ctx, New(NewExpr(OfBase(c), [])), t);
            t in ctx'.types && r == Ok(New(NewExpr(OfSynthesized(ctx'.types[t].name, DefaultConstructor(c)), [])))
  {
    assert d.ctors == [BuildConstructor(c)];
    DefaultIsCopy(c);
    assert Applicable(asg, ParameterTypes(c.parameters), ParameterTypes(c.parameters));
    SoleCopyChosen(asg, c, ParameterTypes(c.parameters));
    RetargetNew(asg, ctx, t, NewExpr(OfBase(c), []), d, BuildConstructor(c));
    assert ArgumentsFit(asg, ParameterTypes(BuildConstructor(c).parameters), []);
  }

  /**
   * End to end: constructing through the retargeted expression with argument
   * values v1..vn runs the base constructor the caller named, with `this`
   * and v1..vn unchanged and in order, and fails exactly when it throws.
   * The caller's arguments fit that constructor's parameters, as
   * Expression.New checked when the caller's expression tree was built.
   */
  lemma {:induction false} RetargetedConstructionForwards(
    asg: TypeUniverse, ctx: Ctx, t: BaseType, c: Constructor, args: seq<Operand>,
    self: Value, values: seq<Value>, rt: Runtime, heap: Heap)
    requires Valid(ctx) && ReferenceTyped(t.properties)
    requires c in t.constructors && CanAccessFromDescendant(c.access)
    requires DistinctSignatures(t.constructors)
    requires ArgumentsFit(asg, ParameterTypes(c.parameters), args)
    requires |values| == |c.parameters|
    ensures var r := GetCtorExpression(asg, ctx, New(NewExpr(OfBase(c), args)), t).1;
            && r.Ok? && r.value.New? && r.value.newExpr.ctor.OfSynthesized?
            && var body := r.value.newExpr.ctor.ctor.body;
            && var run := Run(body, [self] + values, rt, Entry(0, heap), |c.parameters| + 3);
            match rt(false, BaseConstructor(c), [self] + values, heap)
            case Returns(_, heap') => run == Returned([], heap', [Invoked(false, BaseConstructor(c), [self] + values)])
            case Throws => run == Faulted
  {
    AccessibleConstructorRetargeted(asg, ctx, t, c, args);
    BuildConstructorForwards(c, self, values, rt, heap);
  }
}

=== FILE: constructors.dfy ===
/**
 * BuilderType.BuildConstructors and BuilderType.BuildConstructor:
 * one public constructor per accessible base constructor, with the same
 * parameter list, whose body passes `this` and every argument, in order, to
 * the base constructor.
 */
module Constructors {
  import opened Wrappers
  import opened Reflection
  import opened Il
  import opened TypeDefs

  /** The loads `ldarg.s 1 … ldarg.s n` the forwarding loop emits. */
  function ArgLoads(n: nat): (r: seq<Instr>)
    ensures |r| == n
    ensures forall i :: 0 <= i < n ==> r[i] == Ldarg(i + 1)
  {
    if n == 0 then [] else ArgLoads(n - 1) + [Ldarg(n)]
  }

  /** `ldarg.0; ldarg.s 1 … ldarg.s n; call base; ret`. */
  function ForwardingBody(c: Constructor): (r: seq<Instr>)
    ensures |r| == |c.parameters| + 3
    // `this` first, then every argument in order, each loaded once
    ensures forall i :: 0 <= i <= |c.parameters| ==> r[i] == Ldarg(i)
    // one non-virtual call, to the base constructor copied, and then return
    ensures r[|c.parameters| + 1] == Call(BaseConstructor(c)) && r[|c.parameters| + 2] == Ret
  {
    [Ldarg(0)] + ArgLoads(|c.parameters|) + [Call(BaseConstructor(c)), Ret]
  }

  /** BuildConstructor: the copy of one base constructor. */
  function BuildConstructor(c: Constructor): (d: CtorDef)
    ensures d.access == Public
    ensures d.parameters == c.parameters
    ensures ParameterTypes(d.parameters) == ParameterTypes(c.parameters)
    ensures |d.body| == |c.parameters| + 3
  {
    CtorDef(Public, c.parameters, ForwardingBody(c))
  }

  /** The frame of a copied constructor once `this` and the first k arguments are loaded. */
  function Loaded(args: seq<Value>, heap: Heap, k: nat): Frame
    requires k < |args|
  {
    Frame(1 + k, args[..1 + k], [], heap, [])
  }

  /** Load k+1 pushes argument k+1 on top of `this` and the first k arguments. */
  lemma {:induction false} ForwardingLoad(body: seq<Instr>, n: nat, args: seq<Value>, rt: Runtime, heap: Heap, k: nat, fuel: nat)
    requires |body| > n && forall i :: 0 <= i <= n ==> body[i] == Ldarg(i)
    requires |args| == n + 1
    requires k < n
    ensures Run(body, args, rt, Loaded(args, heap, k), fuel + 1) == Run(body, args, rt, Loaded(args, heap, k + 1), fuel)
  {
    var fr := Loaded(args, heap, k);
    assert body[fr.pc] == Ldarg(k + 1);
    RunLdarg(body, args, rt, fr, k + 1, fuel);
    assert args[..1 + k] + [args[k + 1]] == args[..2 + k];
    assert Push(fr, args[k + 1]) == Loaded(args, heap, k + 1);
  }

  /** The loads leave `this` and the first `k` arguments on the stack, in order. */
  lemma {:induction false} ForwardingLoads(body: seq<Instr>, n: nat, args: seq<Value>, rt: Runtime, heap: Heap, k: nat, fuel: nat)
    requires |body| > n && forall i :: 0 <= i <= n ==> body[i] == Ldarg(i)
    requires |args| == n + 1
    requires k <= n
    ensures Run(body, args, rt, Loaded(args, heap, 0), fuel + k) == Run(body, args, rt, Loaded(args, heap, k), fuel)
  {
    var run := (j: nat, f: nat) => Run(body, args, rt, Loaded(args, heap, if j <= n then j else 0), f);
    forall j: nat, f: nat | j < k && 0 < f
      ensures run(j, f) == run(j + 1, f - 1)
    {
      ForwardingLoad(body, n, args, rt, heap, j, f - 1);
    }
    StepsCompose(run, k, fuel);
  }

  /**
   * With `this` and every argument loaded, `call base; ret` makes the one
   * call and returns, or faults when the base constructor throws.
   */
  lemma {:induction false} ForwardingCall(c: Constructor, args: seq<Value>, rt: Runtime, heap: Heap, fuel: nat)
    requires |args| == |c.parameters| + 1
    ensures var body := ForwardingBody(c);
            var r := Run(body, args, rt, Frame(1 + |c.parameters|, args, [], heap, []), fuel + 2);
            match rt(false, BaseConstructor(c), args, heap)
            case Returns(_, heap') => r == Returned([], heap', [Invoked(false, BaseConstructor(c), args)])
            case Throws => r == Faulted
  {
    var n := |c.parameters|;
    var body := ForwardingBody(c);
    var f := Frame(1 + n, args, [], heap, []);
    assert body[1 + n] == Call(BaseConstructor(c));
    assert args[|args| - Arity(BaseConstructor(c))..] == args;
    match rt(false, BaseConstructor(c), args, heap)
    case Throws =>
      RunInvokeThrows(body, args, rt, f, false, BaseConstructor(c), fuel + 1);
    case Returns(_, heap') =>
      RunInvoke(body, args, rt, f, false, BaseConstructor(c), fuel + 1);
      assert args[..|args| - Arity(BaseConstructor(c))] == [];
      var f' := Frame(2 + n, [], [], heap', [Invoked(false, BaseConstructor(c), args)]);
      assert Invoke(false, BaseConstructor(c), rt, f).frame == f';
      RunRet(body, args, rt, f', fuel);
  }

  /**
   * Running a copied constructor with `this` and arguments a1..an makes
   * exactly one call, to the base constructor it was copied from, with
   * `this, a1, …, an` unchanged and in order, and then returns; if the base
   * constructor throws, so does the copy.
   */
  lemma {:induction false} BuildConstructorForwards(c: Constructor, self: Value, actuals: seq<Value>, rt: Runtime, heap: Heap)
    requires |actuals| == |c.parameters|
    ensures var args := [self] + actuals;
            var r := Run(BuildConstructor(c).body, args, rt, Entry(0, heap), |c.parameters| + 3);
            match rt(false, BaseConstructor(c), args, heap)
            case Returns(_, heap') => r == Returned([], heap', [Invoked(false, BaseConstructor(c), args)])
            case Throws => r == Faulted
  {
    var n := |c.parameters|;
    var body := ForwardingBody(c);
    var args := [self] + actuals;
    var f0 := Frame(0, [], [], heap, []);
    assert Entry(0, heap) == f0;
    RunLdarg(body, args, rt, f0, 0, n + 2);
    var f1 := Frame(1, [self], [], heap, []);
    assert Push(f0, self) == f1 == Loaded(args, heap, 0);
    ForwardingLoads(body, n, args, rt, heap, n, 2);
    assert args[..1 + n] == args;
    assert Loaded(args, heap, n) == Frame(1 + n, args, [], heap, []);
    ForwardingCall(c, args, rt, heap, 0);
  }

  /** DefineConstructor: append one constructor. */
  function DefineConstructor(tb: TypeDef, d: CtorDef): TypeDef {
    tb.(ctors := tb.ctors + [d])
  }

  /** From position `base` on, `ds` holds the copy of each of `cs`, in order. */
  ghost predicate CopiesFrom(ds: seq<CtorDef>, base: nat, cs: seq<Constructor>) {
    base + |cs| <= |ds| && forall i :: 0 <= i < |cs| ==> ds[base + i] == BuildConstructor(cs[i])
  }

  /** The foreach of BuildConstructors: copy each of `cs`, in order. */
  function DefineConstructors(tb: TypeDef, cs: seq<Constructor>): (r: TypeDef)
    ensures SameExceptCtors(tb, r)
    ensures |r.ctors| == |tb.ctors| + |cs|
    ensures r.ctors[..|tb.ctors|] == tb.ctors
    ensures CopiesFrom(r.ctors, |tb.ctors|, cs)
    decreases |cs|
  {
    if cs == [] then tb
    else
      var tb' := DefineConstructor(tb, BuildConstructor(cs[0]));
      var r := DefineConstructors(tb', cs[1..]);
      CopiesFollow(tb.ctors, tb'.ctors, cs, r.ctors);
      r
  }

  /** The copy of the first constructor, then the copies of the rest: the copies of all. */
  lemma {:induction false} CopiesFollow(ds: seq<CtorDef>, ds': seq<CtorDef>, cs: seq<Constructor>, out: seq<CtorDef>)
    requires cs != [] && ds' == ds + [BuildConstructor(cs[0])]
    requires |out| == |ds'| + |cs[1..]| && out[..|ds'|] == ds'
    requires CopiesFrom(out, |ds'|, cs[1..])
    ensures |out| == |ds| + |cs|
    ensures out[..|ds|] == ds
    ensures CopiesFrom(out, |ds|, cs)
  {
    var n := |ds|;
    assert out[..n] == out[..n + 1][..n];
    assert out[n] == out[..n + 1][n];
    ShiftedPositions(out, cs, n, 0, (k: nat, c: Constructor) => BuildConstructor(c));
  }

  /**
   * BuildConstructors: the new constructors correspond one-to-one and in
   * order to the base constructors a descendant may call; nothing else of the
   * type changes.
   */
  function BuildConstructors(t: BaseType, tb: TypeDef): (r: TypeDef)
    ensures SameExceptCtors(tb, r)
    ensures |r.ctors| == |tb.ctors| + |AccessibleConstructors(t)|
    ensures r.ctors[..|tb.ctors|] == tb.ctors
    ensures forall i :: 0 <= i < |AccessibleConstructors(t)| ==>
              r.ctors[|tb.ctors| + i] == BuildConstructor(AccessibleConstructors(t)[i])
  {
    DefineConstructors(tb, AccessibleConstructors(t))
  }

  /**
   * Type.GetConstructor(Instance | Public | NonPublic, Type.EmptyTypes) on
   * the base type: its parameterless constructor, whatever its access. A CLR
   * type has at most one, so the first found is the one.
   */
  function ParameterlessConstructor(cs: seq<Constructor>): (r: Option<Constructor>)
    ensures r.Some? ==> r.value in cs && r.value.parameters == []
    ensures r.None? ==> forall i :: 0 <= i < |cs| ==> cs[i].parameters != []
  {
    if cs == [] then None
    else if cs[0].parameters == [] then Some(cs[0])
    else
      var rest := ParameterlessConstructor(cs[1..]);
      assert forall i :: 1 <= i < |cs| ==> cs[i] == cs[1..][i - 1];
      rest
  }

  /**
   * TypeBuilder.DefineDefaultConstructor(MethodAttributes.Public), which
   * CreateType runs for a type that defines no constructor: a public
   * parameterless constructor whose body is `ldarg.0; call c; ret`.
   */
  function DefaultConstructor(c: Constructor): CtorDef {
    CtorDef(Public, [], [Ldarg(0), Call(BaseConstructor(c)), Ret])
  }

  /** The default constructor over a parameterless base constructor is the copy BuildConstructor would make of it. */
  lemma DefaultIsCopy(c: Constructor)
    requires c.parameters == []
    ensures DefaultConstructor(c) == BuildConstructor(c)
  {
    assert ArgLoads(0) == [];
    assert [Ldarg(0)] + ArgLoads(0) + [Call(BaseConstructor(c)), Ret] == [Ldarg(0), Call(BaseConstructor(c)), Ret];
  }

  /**
   * The base constructors a finished descendant of `t` has copies of: the
   * accessible ones, or, when there are none, the parameterless one (of any
   * access) that CreateType's default constructor calls.
   */
  function CopiedConstructors(t: BaseType): seq<Constructor> {
    var cs := AccessibleConstructors(t);
    if cs != [] then cs
    else match ParameterlessConstructor(t.constructors)
         case Some(c) => [c]
         case None => []
  }

  /**
   * The copied constructors are base constructors that a descendant may
   * call or that take no parameters. There are none exactly when no base
   * constructor is accessible and none is parameterless.
   */
  lemma CopiedConstructorsOfBase(t: BaseType)
    ensures forall x :: x in CopiedConstructors(t) ==>
              x in t.constructors && (CanAccessFromDescendant(x.access) || x.parameters == [])
    ensures CopiedConstructors(t) == [] <==>
              forall i :: 0 <= i < |t.constructors| ==>
                !CanAccessFromDescendant(t.constructors[i].access) && t.constructors[i].parameters != []
    ensures AccessibleConstructors(t) != [] ==> CopiedConstructors(t) == AccessibleConstructors(t)
  {
    AccessibleComplete(t.constructors);
    forall x | x in AccessibleConstructors(t)
      ensures x in t.constructors && CanAccessFromDescendant(x.access)
    {
      var k :| 0 <= k < |AccessibleConstructors(t)| && AccessibleConstructors(t)[k] == x;
    }
    if AccessibleConstructors(t) != [] {
      var x := AccessibleConstructors(t)[0];
      var j :| 0 <= j < |t.constructors| && t.constructors[j] == x;
    } else if ParameterlessConstructor(t.constructors).Some? {
      var x := ParameterlessConstructor(t.constructors).value;
      var j :| 0 <= j < |t.constructors| && t.constructors[j] == x;
    } else {
      forall i | 0 <= i < |t.constructors|
        ensures !CanAccessFromDescendant(t.constructors[i].access)
      {
      }
    }
  }

  /**
   * TypeBuilder.CreateType(): a type that defines no constructor gets the
   * public default constructor, which needs a parameterless base
   * constructor; without one CreateType throws NotSupportedException.
   * Nothing else of the type changes.
   */
  function CreateType(tb: TypeDef): (r: Result<TypeDef, Error>)
    ensures r.Ok? <==> tb.ctors != [] || ParameterlessConstructor(tb.parent.constructors).Some?
    ensures r.Ok? ==> SameExceptCtors(tb, r.value) && r.value.ctors != []
    // defined constructors are kept as they are
    ensures tb.ctors != [] ==> r == Ok(tb)
    ensures r.Err? ==> r.error == NotSupportedException && forall i :: 0 <= i < |tb.parent.constructors| ==> tb.parent.constructors[i].parameters != []
  {
    if tb.ctors != [] then Ok(tb)
    else match ParameterlessConstructor(tb.parent.constructors)
         case Some(c) => Ok(DefineConstructor(tb, DefaultConstructor(c)))
         case None => Err(NotSupportedException)
  }

  /** The parameter-type lists a list of constructor definitions offers. */
  function Signatures(ds: seq<CtorDef>): (r: seq<seq<TypeRef>>)
    ensures |r| == |ds|
    ensures forall i :: 0 <= i < |ds| ==> r[i] == ParameterTypes(ds[i].parameters)
  {
    seq(|ds|, i requires 0 <= i < |ds| => ParameterTypes(ds[i].parameters))
  }

  /** The copies offer the parameter-type lists of the constructors they copy, in order. */
  lemma CopiedSignatures(tb: TypeDef, cs: seq<Constructor>)
    requires tb.ctors == []
    ensures var sigs := Signatures(DefineConstructors(tb, cs).ctors);
            && |sigs| == |cs|
            && forall i :: 0 <= i < |cs| ==> sigs[i] == ParameterTypes(cs[i].parameters)
  {
    var r := DefineConstructors(tb, cs);
    var sigs := Signatures(r.ctors);
    forall i | 0 <= i < |cs|
      ensures sigs[i] == ParameterTypes(cs[i].parameters)
    {
      assert r.ctors[|tb.ctors| + i] == BuildConstructor(cs[i]);
    }
  }

  /**
   * A base type whose constructors are all public, protected or
   * protected-internal gets a descendant with exactly the same constructor
   * signatures, in the same order.
   */
  lemma AllAccessibleSameSignatures(t: BaseType, tb: TypeDef)
    requires tb.ctors == []
    requires forall i :: 0 <= i < |t.constructors| ==> CanAccessFromDescendant(t.constructors[i].access)
    ensures var sigs := Signatures(BuildConstructors(t, tb).ctors);
            && |sigs| == |t.constructors|
            && forall i :: 0 <= i < |t.constructors| ==> sigs[i] == ParameterTypes(t.constructors[i].parameters)
  {
    AccessibleKeepsAll(t.constructors);
    CopiedSignatures(tb, t.constructors);
  }
}

=== FILE: il.dfy ===
/**
 * An instruction-level model of the method bodies the synthesizer emits.
 * Each `gen.Emit(...)` call of the source is one `Instr`; labels are resolved
 * to instruction indices. `Run` gives these bodies a meaning on a small heap,
 * so that what a body does can be stated and proved rather than read off.
 */
module Il {
  import opened Reflection

  /** A value on the evaluation stack, in a local or in a field. */
  datatype Value = Null | Ref(addr: nat) | I4(n: int)

  /** The condition `brtrue` tests: a non-null reference or a non-zero integer. */
  predicate Truthy(v: Value) {
    v.Ref? || (v.I4? && v.n != 0)
  }

  /** Heap objects: an instance of the synthesized type, or a ServiceContainer with its owner. */
  datatype Object = Instance(fields: map<string, Value>) | Container(owner: Value)

  /** The managed heap: allocated objects and the next free address. */
  datatype Heap = Heap(objects: map<nat, Object>, next: nat) {
    /** Every allocated address lies below the allocation pointer. */
    ghost predicate Valid() {
      forall a :: a in objects ==> a < next
    }
  }

  /** Methods an emitted body calls but does not itself define. */
  datatype Callee =
    | BaseConstructor(ctor: Constructor)
    | ServiceContainerGetter
    | GetService(serviceType: TypeRef)

  /** Arguments a call pops, receiver included. */
  function Arity(c: Callee): nat {
    match c
    case BaseConstructor(ctor) => 1 + |ctor.parameters|
    case ServiceContainerGetter => 1
    case GetService(_) => 3
  }

  /** Constructors are void; the two getters return a value. */
  predicate ReturnsValue(c: Callee) {
    !c.BaseConstructor?
  }

  datatype Instr =
    | Ldarg(index: nat)
    | Ldfld(field: string)
    | Stfld(field: string)
    | Dup
    | Pop
    | Ldnull
    | LdcI4(value: int)
    | Brtrue(target: nat)
    | Stloc(slot: nat)
    | Ldloc(slot: nat)
    | NewContainer           // newobj ServiceContainer::.ctor(object), whose body is empty
    | Call(callee: Callee)
    | Callvirt(callee: Callee)
    | Ret

  /** One call to an outside method, as observed by the caller. */
  datatype Event = Invoked(isVirtual: bool, callee: Callee, args: seq<Value>)

  /** What one outside call does: return a value with the heap after the call, or throw. */
  datatype Outcome = Returns(value: Value, heap: Heap) | Throws

  /**
   * What outside methods do, given whether the call dispatches virtually
   * (`callvirt`) or names the method itself (`call`), the callee, and the
   * arguments, receiver first.
   */
  type Runtime = (bool, Callee, seq<Value>, Heap) -> Outcome

  datatype Frame = Frame(pc: nat, stack: seq<Value>, locals: seq<Value>, heap: Heap, trace: seq<Event>)

  datatype Status =
    | Running(frame: Frame)
    | Returned(stack: seq<Value>, heap: Heap, trace: seq<Event>)
    | Faulted

  /** The frame a method body starts in: no stack, `nlocals` null locals. */
  function Entry(nlocals: nat, heap: Heap): Frame {
    Frame(0, [], seq(nlocals, _ => Null), heap, [])
  }

  function Push(fr: Frame, v: Value): Frame {
    fr.(pc := fr.pc + 1, stack := fr.stack + [v])
  }

  /** One instruction. A stack underflow, a bad address or a missing field faults. */
  function Step(body: seq<Instr>, args: seq<Value>, rt: Runtime, fr: Frame): Status {
    if fr.pc >= |body| then Faulted
    else
      var st := fr.stack;
      var n := |st|;
      match body[fr.pc]
      case Ldarg(i) =>
        if i < |args| then Running(Push(fr, args[i])) else Faulted
      case Ldfld(f) =>
        if n >= 1 && st[n - 1].Ref? && st[n - 1].addr in fr.heap.objects
           && fr.heap.objects[st[n - 1].addr].Instance?
           && f in fr.heap.objects[st[n - 1].addr].fields
        then Running(Push(fr.(stack := st[..n - 1]), fr.heap.objects[st[n - 1].addr].fields[f]))
        else Faulted
      case Stfld(f) =>
        if n >= 2 && st[n - 2].Ref? && st[n - 2].addr in fr.heap.objects
           && fr.heap.objects[st[n - 2].addr].Instance?
           && f in fr.heap.objects[st[n - 2].addr].fields
        then
          var a := st[n - 2].addr;
          var fields := fr.heap.objects[a].fields[f := st[n - 1]];
          Running(fr.(pc := fr.pc + 1, stack := st[..n - 2],
                      heap := fr.heap.(objects := fr.heap.objects[a := Instance(fields)])))
        else Faulted
      case Dup =>
        if n >= 1 then Running(Push(fr, st[n - 1])) else Faulted
      case Pop =>
        if n >= 1 then Running(fr.(pc := fr.pc + 1, stack := st[..n - 1])) else Faulted
      case Ldnull => Running(Push(fr, Null))
      case LdcI4(v) => Running(Push(fr, I4(v)))
      case Brtrue(t) =>
        if n >= 1 then
          Running(fr.(pc := if Truthy(st[n - 1]) then t else fr.pc + 1, stack := st[..n - 1]))
        else Faulted
      case Stloc(i) =>
        if n >= 1 && i < |fr.locals| then
          Running(fr.(pc := fr.pc + 1, stack := st[..n - 1], locals := fr.locals[i := st[n - 1]]))
        else Faulted
      case Ldloc(i) =>
        if i < |fr.locals| then Running(Push(fr, fr.locals[i])) else Faulted
      case NewContainer =>
        if n >= 1 then
          var a := fr.heap.next;
          var heap := Heap(fr.heap.objects[a := Container(st[n - 1])], a + 1);
          Running(fr.(pc := fr.pc + 1, stack := st[..n - 1] + [Ref(a)], heap := heap))
        else Faulted
      case Call(c) => Invoke(false, c, rt, fr)
      case Callvirt(c) => Invoke(true, c, rt, fr)
      case Ret => Returned(st, fr.heap, fr.trace)
  }

  /**
   * A call: pop the arguments and let the runtime run the callee. If it
   * returns, push its result unless it is void; if it throws, the body faults.
   */
  function Invoke(isVirtual: bool, c: Callee, rt: Runtime, fr: Frame): Status {
    var n := |fr.stack|;
    var k := Arity(c);
    if n < k then Faulted
    else
      var callArgs := fr.stack[n - k..];
      match rt(isVirtual, c, callArgs, fr.heap)
      case Throws => Faulted
      case Returns(v, heap) =>
        var rest := fr.stack[..n - k];
        Running(fr.(pc := fr.pc + 1,
                    stack := if ReturnsValue(c) then rest + [v] else rest,
                    heap := heap,
                    trace := fr.trace + [Invoked(isVirtual, c, callArgs)]))
  }

  /** Run a body for at most `fuel` steps; a `Running` result means the fuel ran out. */
  function Run(body: seq<Instr>, args: seq<Value>, rt: Runtime, fr: Frame, fuel: nat): Status
    decreases fuel
  {
    if fuel == 0 then Running(fr)
    else
      match Step(body, args, rt, fr)
      case Running(next) => Run(body, args, rt, next, fuel - 1)
      case done => done
  }

  /** Unfold one step of `Run`. */
  lemma RunStep(body: seq<Instr>, args: seq<Value>, rt: Runtime, fr: Frame, next: Frame, fuel: nat)
    requires Step(body, args, rt, fr) == Running(next)
    ensures Run(body, args, rt, fr, fuel + 1) == Run(body, args, rt, next, fuel)
  {
  }

  /** A body that has reached `ret` is finished whatever fuel is left. */
  lemma RunRet(body: seq<Instr>, args: seq<Value>, rt: Runtime, fr: Frame, fuel: nat)
    requires fr.pc < |body| && body[fr.pc] == Ret
    ensures Run(body, args, rt, fr, fuel + 1) == Returned(fr.stack, fr.heap, fr.trace)
  {
  }

  /** `ldarg i` pushes argument i. */
  lemma RunLdarg(body: seq<Instr>, args: seq<Value>, rt: Runtime, fr: Frame, i: nat, fuel: nat)
    requires fr.pc < |body| && body[fr.pc] == Ldarg(i) && i < |args|
    ensures Run(body, args, rt, fr, fuel + 1) == Run(body, args, rt, Push(fr, args[i]), fuel)
  {
    StepLdarg(body, args, rt, fr, i);
    RunStep(body, args, rt, fr, Push(fr, args[i]), fuel);
  }

  /** `dup` pushes a copy of the top. */
  lemma RunDup(body: seq<Instr>, args: seq<Value>, rt: Runtime, fr: Frame, fuel: nat)
    requires fr.pc < |body| && body[fr.pc] == Dup && |fr.stack| >= 1
    ensures Run(body, args, rt, fr, fuel + 1) == Run(body, args, rt, Push(fr, fr.stack[|fr.stack| - 1]), fuel)
  {
    StepDup(body, args, rt, fr);
    RunStep(body, args, rt, fr, Push(fr, fr.stack[|fr.stack| - 1]), fuel);
  }

  /** `pop` drops the top. */
  lemma RunPop(body: seq<Instr>, args: seq<Value>, rt: Runtime, fr: Frame, fuel: nat)
    requires fr.pc < |body| && body[fr.pc] == Pop && |fr.stack| >= 1
    ensures Run(body, args, rt, fr, fuel + 1)
         == Run(body, args, rt, fr.(pc := fr.pc + 1, stack := fr.stack[..|fr.stack| - 1]), fuel)
  {
    StepPop(body, args, rt, fr);
    RunStep(body, args, rt, fr, fr.(pc := fr.pc + 1, stack := fr.stack[..|fr.stack| - 1]), fuel);
  }

  /** `ldnull` pushes null. */
  lemma RunLdnull(body: seq<Instr>, args: seq<Value>, rt: Runtime, fr: Frame, fuel: nat)
    requires fr.pc < |body| && body[fr.pc] == Ldnull
    ensures Run(body, args, rt, fr, fuel + 1) == Run(body, args, rt, Push(fr, Null), fuel)
  {
    StepLdnull(body, args, rt, fr);
    RunStep(body, args, rt, fr, Push(fr, Null), fuel);
  }

  /** `ldc.i4 v` pushes the integer v. */
  lemma RunLdcI4(body: seq<Instr>, args: seq<Value>, rt: Runtime, fr: Frame, v: int, fuel: nat)
    requires fr.pc < |body| && body[fr.pc] == LdcI4(v)
    ensures Run(body, args, rt, fr, fuel + 1) == Run(body, args, rt, Push(fr, I4(v)), fuel)
  {
    StepLdcI4(body, args, rt, fr, v);
    RunStep(body, args, rt, fr, Push(fr, I4(v)), fuel);
  }

  /** `brtrue t` pops the top and jumps to t when it is truthy. */
  lemma RunBrtrue(body: seq<Instr>, args: seq<Value>, rt: Runtime, fr: Frame, t: nat, fuel: nat)
    requires fr.pc < |body| && body[fr.pc] == Brtrue(t) && |fr.stack| >= 1
    ensures var top := fr.stack[|fr.stack| - 1];
            Run(body, args, rt, fr, fuel + 1)
              == Run(body, args, rt, fr.(pc := if Truthy(top) then t else fr.pc + 1, stack := fr.stack[..|fr.stack| - 1]), fuel)
  {
    StepBrtrue(body, args, rt, fr, t);
    RunStep(body, args, rt, fr, fr.(pc := if Truthy(fr.stack[|fr.stack| - 1]) then t else fr.pc + 1, stack := fr.stack[..|fr.stack| - 1]), fuel);
  }

  /** `stloc i` pops the top into local i. */
  lemma RunStloc(body: seq<Instr>, args: seq<Value>, rt: Runtime, fr: Frame, i: nat, fuel: nat)
    requires fr.pc < |body| && body[fr.pc] == Stloc(i) && |fr.stack| >= 1 && i < |fr.locals|
    ensures var n := |fr.stack|;
            Run(body, args, rt, fr, fuel + 1)
              == Run(body, args, rt, fr.(pc := fr.pc + 1, stack := fr.stack[..n - 1], locals := fr.locals[i := fr.stack[n - 1]]), fuel)
  {
    StepStloc(body, args, rt, fr, i);
    RunStep(body, args, rt, fr, fr.(pc := fr.pc + 1, stack := fr.stack[..|fr.stack| - 1], locals := fr.locals[i := fr.stack[|fr.stack| - 1]]), fuel);
  }

  /** `ldloc i` pushes local i. */
  lemma RunLdloc(body: seq<Instr>, args: seq<Value>, rt: Runtime, fr: Frame, i: nat, fuel: nat)
    requires fr.pc < |body| && body[fr.pc] == Ldloc(i) && i < |fr.locals|
    ensures Run(body, args, rt, fr, fuel + 1) == Run(body, args, rt, Push(fr, fr.locals[i]), fuel)
  {
    StepLdloc(body, args, rt, fr, i);
    RunStep(body, args, rt, fr, Push(fr, fr.locals[i]), fuel);
  }

  /** `ldfld f` replaces an instance reference on top by the value of its field f. */
  lemma RunLdfld(body: seq<Instr>, args: seq<Value>, rt: Runtime, fr: Frame, f: string, fuel: nat)
    requires fr.pc < |body| && body[fr.pc] == Ldfld(f) && |fr.stack| >= 1
    requires var top := fr.stack[|fr.stack| - 1];
             top.Ref? && top.addr in fr.heap.objects && fr.heap.objects[top.addr].Instance?
             && f in fr.heap.objects[top.addr].fields
    ensures var n := |fr.stack|;
            var v := fr.heap.objects[fr.stack[n - 1].addr].fields[f];
            Run(body, args, rt, fr, fuel + 1) == Run(body, args, rt, Push(fr.(stack := fr.stack[..n - 1]), v), fuel)
  {
    StepLdfld(body, args, rt, fr, f);
    RunStep(body, args, rt, fr, Push(fr.(stack := fr.stack[..|fr.stack| - 1]), fr.heap.objects[fr.stack[|fr.stack| - 1].addr].fields[f]), fuel);
  }

  /** `stfld f` pops a value and an instance reference and stores the value in field f. */
  lemma RunStfld(body: seq<Instr>, args: seq<Value>, rt: Runtime, fr: Frame, f: string, fuel: nat)
    requires fr.pc < |body| && body[fr.pc] == Stfld(f) && |fr.stack| >= 2
    requires var obj := fr.stack[|fr.stack| - 2];
             obj.Ref? && obj.addr in fr.heap.objects && fr.heap.objects[obj.addr].Instance?
             && f in fr.heap.objects[obj.addr].fields
    ensures var n := |fr.stack|;
            var a := fr.stack[n - 2].addr;
            var fields := fr.heap.objects[a].fields[f := fr.stack[n - 1]];
            Run(body, args, rt, fr, fuel + 1)
              == Run(body, args, rt, fr.(pc := fr.pc + 1, stack := fr.stack[..n - 2],
                                          heap := fr.heap.(objects := fr.heap.objects[a := Instance(fields)])), fuel)
  {
    StepStfld(body, args, rt, fr, f);
    RunStep(body, args, rt, fr, fr.(pc := fr.pc + 1, stack := fr.stack[..|fr.stack| - 2],
                       heap := fr.heap.(objects := fr.heap.objects[fr.stack[|fr.stack| - 2].addr :=
                         Instance(fr.heap.objects[fr.stack[|fr.stack| - 2].addr].fields[f := fr.stack[|fr.stack| - 1]])])), fuel);
  }

  /** The frame `ldarg i` leads to. */
  lemma StepLdarg(body: seq<Instr>, args: seq<Value>, rt: Runtime, fr: Frame, i: nat)
    requires fr.pc < |body| && body[fr.pc] == Ldarg(i) && i < |args|
    ensures Step(body, args, rt, fr) == Running(Push(fr, args[i]))
  {
  }

  /** The frame `dup` leads to. */
  lemma StepDup(body: seq<Instr>, args: seq<Value>, rt: Runtime, fr: Frame)
    requires fr.pc < |body| && body[fr.pc] == Dup && |fr.stack| >= 1
    ensures Step(body, args, rt, fr) == Running(Push(fr, fr.stack[|fr.stack| - 1]))
  {
  }

  /** The frame `pop` leads to. */
  lemma StepPop(body: seq<Instr>, args: seq<Value>, rt: Runtime, fr: Frame)
    requires fr.pc < |body| && body[fr.pc] == Pop && |fr.stack| >= 1
    ensures Step(body, args, rt, fr) == Running(fr.(pc := fr.pc + 1, stack := fr.stack[..|fr.stack| - 1]))
  {
  }

  /** The frame `ldnull` leads to. */
  lemma StepLdnull(body: seq<Instr>, args: seq<Value>, rt: Runtime, fr: Frame)
    requires fr.pc < |body| && body[fr.pc] == Ldnull
    ensures Step(body, args, rt, fr) == Running(Push(fr, Null))
  {
  }

  /** The frame `ldc.i4 v` leads to. */
  lemma StepLdcI4(body: seq<Instr>, args: seq<Value>, rt: Runtime, fr: Frame, v: int)
    requires fr.pc < |body| && body[fr.pc] == LdcI4(v)
    ensures Step(body, args, rt, fr) == Running(Push(fr, I4(v)))
  {
  }

  /** The frame `brtrue t` leads to. */
  lemma StepBrtrue(body: seq<Instr>, args: seq<Value>, rt: Runtime, fr: Frame, t: nat)
    requires fr.pc < |body| && body[fr.pc] == Brtrue(t) && |fr.stack| >= 1
    ensures Step(body, args, rt, fr) == Running(fr.(pc := if Truthy(fr.stack[|fr.stack| - 1]) then t else fr.pc + 1, stack := fr.stack[..|fr.stack| - 1]))
  {
  }

  /** The frame `stloc i` leads to. */
  lemma StepStloc(body: seq<Instr>, args: seq<Value>, rt: Runtime, fr: Frame, i: nat)
    requires fr.pc < |body| && body[fr.pc] == Stloc(i) && |fr.stack| >= 1 && i < |fr.locals|
    ensures Step(body, args, rt, fr) == Running(fr.(pc := fr.pc + 1, stack := fr.stack[..|fr.stack| - 1], locals := fr.locals[i := fr.stack[|fr.stack| - 1]]))
  {
  }

  /** The frame `ldloc i` leads to. */
  lemma StepLdloc(body: seq<Instr>, args: seq<Value>, rt: Runtime, fr: Frame, i: nat)
    requires fr.pc < |body| && body[fr.pc] == Ldloc(i) && i < |fr.locals|
    ensures Step(body, args, rt, fr) == Running(Push(fr, fr.locals[i]))
  {
  }

  /** `newobj ServiceContainer(object)` replaces the owner on top by a new container it owns. */
  lemma RunNewContainer(body: seq<Instr>, args: seq<Value>, rt: Runtime, fr: Frame, fuel: nat)
    requires fr.pc < |body| && body[fr.pc] == NewContainer && |fr.stack| >= 1
    ensures var n := |fr.stack|;
            var a := fr.heap.next;
            var heap := Heap(fr.heap.objects[a := Container(fr.stack[n - 1])], a + 1);
            Run(body, args, rt, fr, fuel + 1)
              == Run(body, args, rt, fr.(pc := fr.pc + 1, stack := fr.stack[..n - 1] + [Ref(a)], heap := heap), fuel)
  {
    StepNewContainer(body, args, rt, fr);
    RunStep(body, args, rt, fr, fr.(pc := fr.pc + 1, stack := fr.stack[..|fr.stack| - 1] + [Ref(fr.heap.next)],
                                     heap := Heap(fr.heap.objects[fr.heap.next := Container(fr.stack[|fr.stack| - 1])], fr.heap.next + 1)), fuel);
  }

  /** The frame `ldfld f` leads to. */
  lemma StepLdfld(body: seq<Instr>, args: seq<Value>, rt: Runtime, fr: Frame, f: string)
    requires fr.pc < |body| && body[fr.pc] == Ldfld(f) && |fr.stack| >= 1
    requires var top := fr.stack[|fr.stack| - 1];
             top.Ref? && top.addr in fr.heap.objects && fr.heap.objects[top.addr].Instance?
             && f in fr.heap.objects[top.addr].fields
    ensures Step(body, args, rt, fr) == Running(Push(fr.(stack := fr.stack[..|fr.stack| - 1]), fr.heap.objects[fr.stack[|fr.stack| - 1].addr].fields[f]))
  {
  }

  /** The frame `stfld f` leads to. */
  lemma StepStfld(body: seq<Instr>, args: seq<Value>, rt: Runtime, fr: Frame, f: string)
    requires fr.pc < |body| && body[fr.pc] == Stfld(f) && |fr.stack| >= 2
    requires var obj := fr.stack[|fr.stack| - 2];
             obj.Ref? && obj.addr in fr.heap.objects && fr.heap.objects[obj.addr].Instance?
             && f in fr.heap.objects[obj.addr].fields
    ensures Step(body, args, rt, fr) == Running(fr.(pc := fr.pc + 1, stack := fr.stack[..|fr.stack| - 2],
                     heap := fr.heap.(objects := fr.heap.objects[fr.stack[|fr.stack| - 2].addr :=
                       Instance(fr.heap.objects[fr.stack[|fr.stack| - 2].addr].fields[f := fr.stack[|fr.stack| - 1]])])))
  {
  }

  /** The frame `newobj ServiceContainer(object)` leads to. */
  lemma StepNewContainer(body: seq<Instr>, args: seq<Value>, rt: Runtime, fr: Frame)
    requires fr.pc < |body| && body[fr.pc] == NewContainer && |fr.stack| >= 1
    ensures Step(body, args, rt, fr)
         == Running(fr.(pc := fr.pc + 1, stack := fr.stack[..|fr.stack| - 1] + [Ref(fr.heap.next)],
                        heap := Heap(fr.heap.objects[fr.heap.next := Container(fr.stack[|fr.stack| - 1])], fr.heap.next + 1)))
  {
  }

  /** `call c` / `callvirt c` hands the top Arity(c) values to the runtime and, when it returns, records the call. */
  lemma RunInvoke(body: seq<Instr>, args: seq<Value>, rt: Runtime, fr: Frame, isVirtual: bool, c: Callee, fuel: nat)
    requires fr.pc < |body| && body[fr.pc] == (if isVirtual then Callvirt(c) else Call(c))
    requires |fr.stack| >= Arity(c)
    requires rt(isVirtual, c, fr.stack[|fr.stack| - Arity(c)..], fr.heap).Returns?
    ensures Invoke(isVirtual, c, rt, fr).Running?
    ensures Run(body, args, rt, fr, fuel + 1) == Run(body, args, rt, Invoke(isVirtual, c, rt, fr).frame, fuel)
  {
  }

  /** A call whose callee throws ends the body in a fault, whatever fuel is left. */
  lemma RunInvokeThrows(body: seq<Instr>, args: seq<Value>, rt: Runtime, fr: Frame, isVirtual: bool, c: Callee, fuel: nat)
    requires fr.pc < |body| && body[fr.pc] == (if isVirtual then Callvirt(c) else Call(c))
    requires |fr.stack| >= Arity(c)
    requires rt(isVirtual, c, fr.stack[|fr.stack| - Arity(c)..], fr.heap) == Throws
    ensures Run(body, args, rt, fr, fuel + 1) == Faulted
  {
  }

  /**
   * Steps that each take one unit of fuel compose: if `run(j, f)` equals
   * `run(j + 1, f - 1)` for every position j before k, then k units of fuel
   * lead from position 0 to position k.
   */
  lemma {:induction false} StepsCompose<S>(run: (nat, nat) -> S, k: nat, fuel: nat)
    requires forall j: nat, f: nat :: j < k && 0 < f ==> run(j, f) == run(j + 1, f - 1)
    ensures run(0, fuel + k) == run(k, fuel)
  {
    if k > 0 {
      StepsCompose(run, k - 1, fuel + 1);
      assert run(k - 1, fuel + 1) == run(k, fuel);
      assert (fuel + 1) + (k - 1) == fuel + k;
    }
  }
}

=== FILE: memo.dfy ===
/**
 * DictionaryExtensions.GetOrAdd: a get-or-insert on a dictionary whose value
 * factory is only run when the key is missing.
 *
 * The factory of the source is a closure with side effects (it may draw fresh
 * GUIDs and fill other caches) that may also throw; here it is a pure function
 * over an explicit state `S` that returns a value or an error, so "the factory
 * was not invoked" reads as "the state is unchanged". An error propagates out
 * of GetOrAdd before anything is stored, but the factory's effects on `S`
 * have already happened.
 */
module Memo {
  import opened Wrappers

  /** The dictionary after the call, the value returned (or the factory's error), and the factory state after the call. */
  datatype Added<K, V, E, S> = Added(dict: map<K, V>, value: Result<V, E>, state: S)

  function GetOrAdd<K, V, E, S>(dict: map<K, V>, key: K, state: S, create: S -> (Result<V, E>, S)): (r: Added<K, V, E, S>)
    // whichever branch ran, a returned value is the one the key now maps to
    ensures r.value.Ok? ==> r.dict == dict[key := r.value.value]
    // a failed factory stores nothing
    ensures r.value.Err? ==> r.dict == dict
    // a present key: stored value returned, factory not run, dictionary unchanged
    ensures key in dict ==> r == Added(dict, Ok(dict[key]), state)
    // an absent key: the factory ran exactly once and its outcome is returned
    ensures key !in dict ==> (r.value, r.state) == create(state)
    // every other key is untouched
    ensures r.dict.Keys - {key} == dict.Keys - {key}
    ensures forall k :: k in dict && k != key ==> r.dict[k] == dict[k]
  {
    if key in dict then
      Added(dict, Ok(dict[key]), state)
    else
      var (v, s') := create(state);
      match v
      case Ok(x) => Added(dict[key := x], v, s')
      case Err(_) => Added(dict, v, s')
  }

  /**
   * Asking again for a key just added returns the same value, leaves the
   * dictionary alone and does not run the (possibly different) factory.
   * After a failure nothing was stored, so a second call runs its factory.
   */
  lemma GetOrAddTwice<K, V, E, S>(dict: map<K, V>, key: K, state: S,
                                  create: S -> (Result<V, E>, S), create': S -> (Result<V, E>, S))
    ensures var first := GetOrAdd(dict, key, state, create);
            var second := GetOrAdd(first.dict, key, first.state, create');
            && (first.value.Ok? ==> second == first)
            && (first.value.Err? ==> (second.value, second.state) == create'(first.state))
  {
  }
}

=== FILE: properties.dfy ===
/**
 * ViewModelSource.BuildServiceProperties and
 * ViewModelSource.BuildGetServicePropertyMethod: every instance property of the base type
 * gets an override getter that asks the instance's service container for a
 * value of the property's type instead of running the base getter.
 */
module ServiceProperties {
  import opened Wrappers
  import opened Reflection
  import opened Il
  import opened TypeDefs
  import Services

  /**
   * The body BuildGetServicePropertyMethod emits:
   * `this.ServiceContainer.GetService<T>(null, 0)`, then return. `dispatch`
   * is the opcode for GetService<T>: `call` (false) as emitted at line 138,
   * or `callvirt` (true), the corrected form.
   */
  function InterceptingBody(t: TypeRef, dispatch: bool): (r: seq<Instr>)
    ensures |r| == 6
    // the container comes from a virtual call of the ServiceContainer getter on `this`
    ensures r[0] == Ldarg(0) && r[1] == Callvirt(ServiceContainerGetter)
    // GetService<T> is called on it with (null, 0), virtually exactly when `dispatch`, and its result returned
    ensures r[2] == Ldnull && r[3] == LdcI4(0)
    ensures r[4] == (if dispatch then Callvirt(GetService(t)) else Call(GetService(t)))
    ensures r[5] == Ret
  {
    [Ldarg(0), Callvirt(ServiceContainerGetter), Ldnull, LdcI4(0),
     if dispatch then Callvirt(GetService(t)) else Call(GetService(t)), Ret]
  }

  /**
   * The only methods an override getter calls are the ServiceContainer
   * getter and GetService<T>, never a base getter; GetService<T> is called
   * at one place; and the body returns at its end and only there.
   */
  lemma InterceptingBodyCallsOnly(t: TypeRef, dispatch: bool)
    ensures var r := InterceptingBody(t, dispatch);
            && (forall i :: 0 <= i < |r| && (r[i].Call? || r[i].Callvirt?) ==>
                  r[i].callee == ServiceContainerGetter || r[i].callee == GetService(t))
            && (forall i :: 0 <= i < |r| && i != 4 ==> r[i] != Call(GetService(t)) && r[i] != Callvirt(GetService(t)))
            && (forall i :: 0 <= i < |r| ==> (r[i] == Ret <==> i == 5))
  {
  }

  /** Public getters stay public; every other getter becomes protected (Family). */
  function OverrideAccess(a: Access): (r: Access)
    ensures r == Public <==> a == Public
    ensures r == Public || r == Family
  {
    if a == Public then Public else Family
  }

  /** The virtual override getter of one property, once GetService<T> is instantiated at its type. */
  function InterceptingGetter(p: Property): (m: MethodDef)
    ensures m.name == p.getterName
    ensures m.returnType == p.propertyType
    ensures m.access == OverrideAccess(p.getterAccess)
    ensures m.flags == {Virtual, HideBySig}
    ensures m.locals == []
    ensures m.body == InterceptingBody(p.propertyType, false)
  {
    MethodDef(p.getterName, OverrideAccess(p.getterAccess), {Virtual, HideBySig}, p.propertyType, [],
              InterceptingBody(p.propertyType, false))
  }

  /**
   * BuildGetServicePropertyMethod. MakeGenericMethod instantiates
   * GetService<T>, whose `where T : class` rejects a value-typed property
   * with an ArgumentException; otherwise the result is the override getter.
   */
  function BuildGetServicePropertyMethod(p: Property): (r: Result<MethodDef, Error>)
    ensures r.Err? <==> p.valueTyped
    ensures r.Err? ==> r.error == ConstraintViolation(p.propertyType)
    ensures r.Ok? ==> r.value == InterceptingGetter(p)
  {
    if p.valueTyped then Err(ConstraintViolation(p.propertyType))
    else Ok(InterceptingGetter(p))
  }

  /** The first half of an override getter: `ldarg.0; callvirt get_ServiceContainer`. */
  lemma {:induction false} InterceptingGetterGetsContainer(t: TypeRef, dispatch: bool, self: Value, rt: Runtime, h: Heap, fuel: nat)
    ensures var body := InterceptingBody(t, dispatch);
            var r := Run(body, [self], rt, Frame(0, [], [], h, []), fuel + 2);
            match rt(true, ServiceContainerGetter, [self], h)
            case Throws => r == Faulted
            case Returns(c, h1) =>
              r == Run(body, [self], rt, Frame(2, [c], [], h1, [Invoked(true, ServiceContainerGetter, [self])]), fuel)
  {
    GetsContainerIn(InterceptingBody(t, dispatch), self, rt, h, fuel);
  }

  /** `ldarg.0; callvirt get_ServiceContainer` at the start of any body. */
  lemma {:induction false} GetsContainerIn(body: seq<Instr>, self: Value, rt: Runtime, h: Heap, fuel: nat)
    requires |body| >= 2 && body[0] == Ldarg(0) && body[1] == Callvirt(ServiceContainerGetter)
    ensures var r := Run(body, [self], rt, Frame(0, [], [], h, []), fuel + 2);
            match rt(true, ServiceContainerGetter, [self], h)
            case Throws => r == Faulted
            case Returns(c, h1) =>
              r == Run(body, [self], rt, Frame(2, [c], [], h1, [Invoked(true, ServiceContainerGetter, [self])]), fuel)
  {
    var args := [self];
    var f0 := Frame(0, [], [], h, []);
    RunLdarg(body, args, rt, f0, 0, fuel + 1);
    var f1 := Frame(1, [self], [], h, []);
    assert Push(f0, self) == f1;
    assert f1.stack[1 - 1..] == [self];
    match rt(true, ServiceContainerGetter, [self], h)
    case Throws =>
      RunInvokeThrows(body, args, rt, f1, true, ServiceContainerGetter, fuel);
    case Returns(c, h1) =>
      RunInvoke(body, args, rt, f1, true, ServiceContainerGetter, fuel);
      assert f1.stack[..1 - 1] == [];
      assert Invoke(true, ServiceContainerGetter, rt, f1).frame
          == Frame(2, [c], [], h1, [Invoked(true, ServiceContainerGetter, [self])]);
  }

  /** The second half of an override getter: `ldnull; ldc.i4.s 0; call(virt) GetService<T>; ret`. */
  lemma {:induction false} InterceptingGetterCallsGetService(t: TypeRef, dispatch: bool, args: seq<Value>, rt: Runtime,
                                                             c: Value, h1: Heap, e1: Event, fuel: nat)
    ensures var body := InterceptingBody(t, dispatch);
            var r := Run(body, args, rt, Frame(2, [c], [], h1, [e1]), fuel + 4);
            match rt(dispatch, GetService(t), [c, Null, I4(0)], h1)
            case Throws => r == Faulted
            case Returns(v, h2) => r == Returned([v], h2, [e1, Invoked(dispatch, GetService(t), [c, Null, I4(0)])])
  {
    CallsGetServiceIn(InterceptingBody(t, dispatch), t, dispatch, args, rt, c, h1, e1, fuel);
  }

  /** `ldnull; ldc.i4.s 0; call(virt) GetService<T>; ret` from position 2 of any body. */
  lemma {:induction false} CallsGetServiceIn(body: seq<Instr>, t: TypeRef, dispatch: bool, args: seq<Value>, rt: Runtime,
                                             c: Value, h1: Heap, e1: Event, fuel: nat)
    requires |body| >= 6 && body[2] == Ldnull && body[3] == LdcI4(0) && body[5] == Ret
    requires body[4] == if dispatch then Callvirt(GetService(t)) else Call(GetService(t))
    ensures var r := Run(body, args, rt, Frame(2, [c], [], h1, [e1]), fuel + 4);
            match rt(dispatch, GetService(t), [c, Null, I4(0)], h1)
            case Throws => r == Faulted
            case Returns(v, h2) => r == Returned([v], h2, [e1, Invoked(dispatch, GetService(t), [c, Null, I4(0)])])
  {
    LoadsNullAndZero(body, args, rt, c, h1, e1, fuel + 2);
    InvokesGetServiceAndReturns(body, t, dispatch, args, rt, c, h1, e1, fuel);
  }

  /** `ldnull; ldc.i4.s 0` at positions 2 and 3 complete the arguments of GetService<T>. */
  lemma {:induction false} LoadsNullAndZero(body: seq<Instr>, args: seq<Value>, rt: Runtime, c: Value, h1: Heap, e1: Event, fuel: nat)
    requires |body| >= 4 && body[2] == Ldnull && body[3] == LdcI4(0)
    ensures Run(body, args, rt, Frame(2, [c], [], h1, [e1]), fuel + 2)
         == Run(body, args, rt, Frame(4, [c, Null, I4(0)], [], h1, [e1]), fuel)
  {
    var f2 := Frame(2, [c], [], h1, [e1]);
    RunLdnull(body, args, rt, f2, fuel + 1);
    var f3 := Push(f2, Null);
    assert f3 == Frame(3, [c, Null], [], h1, [e1]);
    RunLdcI4(body, args, rt, f3, 0, fuel);
    assert Push(f3, I4(0)) == Frame(4, [c, Null, I4(0)], [], h1, [e1]);
  }

  /** The GetService<T> call at position 4 and the `ret` after it. */
  lemma {:induction false} InvokesGetServiceAndReturns(body: seq<Instr>, t: TypeRef, dispatch: bool, args: seq<Value>, rt: Runtime,
                                                       c: Value, h1: Heap, e1: Event, fuel: nat)
    requires |body| >= 6 && body[5] == Ret
    requires body[4] == if dispatch then Callvirt(GetService(t)) else Call(GetService(t))
    ensures var r := Run(body, args, rt, Frame(4, [c, Null, I4(0)], [], h1, [e1]), fuel + 2);
            match rt(dispatch, GetService(t), [c, Null, I4(0)], h1)
            case Throws => r == Faulted
            case Returns(v, h2) => r == Returned([v], h2, [e1, Invoked(dispatch, GetService(t), [c, Null, I4(0)])])
  {
    var f4 := Frame(4, [c, Null, I4(0)], [], h1, [e1]);
    assert f4.stack[3 - 3..] == [c, Null, I4(0)];
    match rt(dispatch, GetService(t), [c, Null, I4(0)], h1)
    case Throws =>
      RunInvokeThrows(body, args, rt, f4, dispatch, GetService(t), fuel + 1);
    case Returns(v, h2) =>
      RunInvoke(body, args, rt, f4, dispatch, GetService(t), fuel + 1);
      var f5 := Frame(5, [v], [], h2, [e1, Invoked(dispatch, GetService(t), [c, Null, I4(0)])]);
      assert f4.stack[..3 - 3] == [];
      assert Invoke(dispatch, GetService(t), rt, f4).frame == f5;
      RunRet(body, args, rt, f5, fuel);
  }

  /**
   * What an override getter is meant to do, stated on the runtime alone:
   * call the ServiceContainer getter on `this`, then GetService<T> on the
   * container with (null, 0), and return the latter's result; a throwing
   * call ends it.
   */
  function ResolvedRead(t: TypeRef, dispatch: bool, self: Value, rt: Runtime, h: Heap): Status {
    match rt(true, ServiceContainerGetter, [self], h)
    case Throws => Faulted
    case Returns(c, h1) =>
      match rt(dispatch, GetService(t), [c, Null, I4(0)], h1)
      case Throws => Faulted
      case Returns(v, h2) =>
        Returned([v], h2, [Invoked(true, ServiceContainerGetter, [self]),
                           Invoked(dispatch, GetService(t), [c, Null, I4(0)])])
  }

  /**
   * Running an override getter makes at most two outside calls: the
   * ServiceContainer getter on `this`, then GetService<T> on that container
   * with a null key and the integer 0. It returns what GetService returned,
   * never calls the base getter, and changes the heap only through those two
   * calls; if either call throws, so does the getter. Any fuel of at least
   * one step per instruction suffices.
   */
  lemma {:induction false} InterceptingGetterResolves(t: TypeRef, dispatch: bool, self: Value, rt: Runtime, h: Heap, fuel: nat)
    requires fuel >= 6
    ensures Run(InterceptingBody(t, dispatch), [self], rt, Entry(0, h), fuel) == ResolvedRead(t, dispatch, self, rt, h)
  {
    assert Entry(0, h) == Frame(0, [], [], h, []);
    ResolvesIn(InterceptingBody(t, dispatch), t, dispatch, self, rt, h, fuel - 6);
  }

  /** InterceptingGetterResolves for any body that starts with the six instructions of an intercepting getter. */
  lemma {:induction false} ResolvesIn(body: seq<Instr>, t: TypeRef, dispatch: bool, self: Value, rt: Runtime, h: Heap, k: nat)
    requires |body| >= 6 && body[0] == Ldarg(0) && body[1] == Callvirt(ServiceContainerGetter)
    requires body[2] == Ldnull && body[3] == LdcI4(0) && body[5] == Ret
    requires body[4] == if dispatch then Callvirt(GetService(t)) else Call(GetService(t))
    ensures Run(body, [self], rt, Frame(0, [], [], h, []), k + 6) == ResolvedRead(t, dispatch, self, rt, h)
  {
    GetsContainerIn(body, self, rt, h, k + 4);
    match rt(true, ServiceContainerGetter, [self], h)
    case Throws =>
    case Returns(c, h1) =>
      var e1 := Invoked(true, ServiceContainerGetter, [self]);
      assert Run(body, [self], rt, Frame(0, [], [], h, []), k + 6) == Run(body, [self], rt, Frame(2, [c], [], h1, [e1]), k + 4);
      CallsGetServiceIn(body, t, dispatch, [self], rt, c, h1, e1, k);
  }

  /** Define one property's override getter `m`, its override record and the property itself. */
  function DefineServiceProperty(tb: TypeDef, p: Property, m: MethodDef): TypeDef {
    var index := |tb.methods|;
    tb.(methods := tb.methods + [m],
        overrides := tb.overrides + [OverrideDef(index, PropertyGetter(p))],
        properties := tb.properties + [PropertyDef(p.name, p.propertyType, [], index)])
  }

  /**
   * The i-th property of `ps` is intercepted by the i-th of the definitions
   * appended to `tb` to give `r`: a getter method at a fresh index, an override
   * record that points that method at the property's original getter, and a
   * property of the same name and type, without index parameters, whose getter
   * is that method. Nothing else is added or changed.
   */
  ghost predicate Intercepts(tb: TypeDef, ps: seq<Property>, r: TypeDef) {
    InterceptsShape(tb, ps, r) && InterceptsEach(tb, ps, r)
  }

  /** `r` extends `tb` by one method, override and property per element of `ps`, and by nothing else. */
  ghost predicate InterceptsShape(tb: TypeDef, ps: seq<Property>, r: TypeDef) {
    var m := |tb.methods|;
    var o := |tb.overrides|;
    var q := |tb.properties|;
    && r.name == tb.name && r.moduleRef == tb.moduleRef && r.parent == tb.parent
    && r.interfaces == tb.interfaces && r.ctors == tb.ctors && r.fields == tb.fields
    && |r.methods| == m + |ps| && r.methods[..m] == tb.methods
    && |r.overrides| == o + |ps| && r.overrides[..o] == tb.overrides
    && |r.properties| == q + |ps| && r.properties[..q] == tb.properties
  }

  /** The definitions `r` appends to `tb` intercept the elements of `ps`, position by position. */
  ghost predicate InterceptsEach(tb: TypeDef, ps: seq<Property>, r: TypeDef) {
    var m := |tb.methods|;
    && GettersFrom(r.methods, m, ps)
    && OverridesFrom(r.overrides, |tb.overrides|, m, ps)
    && PropertiesFrom(r.properties, |tb.properties|, m, ps)
  }

  /** From position `m` on, `ms` holds one intercepting getter per element of `ps`. */
  ghost predicate GettersFrom(ms: seq<MethodDef>, m: nat, ps: seq<Property>) {
    m + |ps| <= |ms| && forall i :: 0 <= i < |ps| ==> ms[m + i] == InterceptingGetter(ps[i])
  }

  /** From position `o` on, `os` points the getters from method index `m` on at the getters of `ps`. */
  ghost predicate OverridesFrom(os: seq<OverrideDef>, o: nat, m: nat, ps: seq<Property>) {
    o + |ps| <= |os| && forall i :: 0 <= i < |ps| ==> os[o + i] == OverrideDef(m + i, PropertyGetter(ps[i]))
  }

  /** From position `q` on, `qs` redeclares the properties of `ps` with the getters from method index `m` on. */
  ghost predicate PropertiesFrom(qs: seq<PropertyDef>, q: nat, m: nat, ps: seq<Property>) {
    q + |ps| <= |qs| && forall i :: 0 <= i < |ps| ==> qs[q + i] == PropertyDef(ps[i].name, ps[i].propertyType, [], m + i)
  }

  /** Every property has a reference type, as GetService<T>'s `where T : class` demands. */
  predicate ReferenceTyped(ps: seq<Property>) {
    forall i :: 0 <= i < |ps| ==> !ps[i].valueTyped
  }

  /** `e` is the error MakeGenericMethod raises for the first value-typed property of `ps`. */
  predicate FirstViolation(ps: seq<Property>, e: Error) {
    exists i :: 0 <= i < |ps| && ps[i].valueTyped && ReferenceTyped(ps[..i]) && e == ConstraintViolation(ps[i].propertyType)
  }

  /** There is only one first violation: a failing build always fails with the same exception. */
  lemma {:induction false} FirstViolationUnique(ps: seq<Property>, e1: Error, e2: Error)
    requires FirstViolation(ps, e1) && FirstViolation(ps, e2)
    ensures e1 == e2
  {
    var i :| 0 <= i < |ps| && ps[i].valueTyped && ReferenceTyped(ps[..i]) && e1 == ConstraintViolation(ps[i].propertyType);
    var j :| 0 <= j < |ps| && ps[j].valueTyped && ReferenceTyped(ps[..j]) && e2 == ConstraintViolation(ps[j].propertyType);
    PrefixReferenceTyped(ps, i);
    PrefixReferenceTyped(ps, j);
  }

  /** A reference-typed prefix of length `n`: none of the first `n` properties is value-typed. */
  lemma PrefixReferenceTyped(ps: seq<Property>, n: nat)
    requires n <= |ps| && ReferenceTyped(ps[..n])
    ensures forall k :: 0 <= k < n ==> !ps[k].valueTyped
  {
    forall k | 0 <= k < n
      ensures !ps[k].valueTyped
    {
      assert ps[..n][k] == ps[k];
    }
  }

  /**
   * The foreach of BuildServiceProperties over `ps`, in order. The first
   * value-typed property stops it with MakeGenericMethod's exception.
   */
  function DefineServiceProperties(tb: TypeDef, ps: seq<Property>): (r: Result<TypeDef, Error>)
    ensures r.Ok? <==> ReferenceTyped(ps)
    ensures r.Ok? ==> Intercepts(tb, ps, r.value)
    ensures r.Err? ==> FirstViolation(ps, r.error)
    decreases |ps|
  {
    if ps == [] then Ok(tb)
    else
      match BuildGetServicePropertyMethod(ps[0])
      case Err(e) =>
        assert ReferenceTyped(ps[..0]);
        Err(e)
      case Ok(m) =>
        var tb' := DefineServiceProperty(tb, ps[0], m);
        var r := DefineServiceProperties(tb', ps[1..]);
        ReferenceTypedStep(ps);
        if r.Ok? then
          InterceptsStep(tb, ps, tb', r.value);
          r
        else
          FirstViolationStep(ps, r.error);
          r
  }

  /** The properties are reference-typed iff the first one and the rest are. */
  lemma ReferenceTypedStep(ps: seq<Property>)
    requires ps != []
    ensures ReferenceTyped(ps) <==> !ps[0].valueTyped && ReferenceTyped(ps[1..])
  {
    if !ps[0].valueTyped && ReferenceTyped(ps[1..]) {
      forall i | 0 <= i < |ps|
        ensures !ps[i].valueTyped
      {
        if i > 0 {
          assert ps[i] == ps[1..][i - 1];
        }
      }
    }
  }

  /** A first violation in the rest, after a reference-typed first property, is the first violation overall. */
  lemma {:induction false} FirstViolationStep(ps: seq<Property>, e: Error)
    requires ps != [] && !ps[0].valueTyped
    requires FirstViolation(ps[1..], e)
    ensures FirstViolation(ps, e)
  {
    var j :| 0 <= j < |ps[1..]| && ps[1..][j].valueTyped && ReferenceTyped(ps[1..][..j])
              && e == ConstraintViolation(ps[1..][j].propertyType);
    assert ps[j + 1] == ps[1..][j];
    var pre := ps[..j + 1];
    var rest := ps[1..][..j];
    forall k | 0 <= k < |pre|
      ensures !pre[k].valueTyped
    {
      if k > 0 {
        assert pre[k] == rest[k - 1];
      }
    }
    assert ReferenceTyped(pre);
  }

  /** One property defined, then the rest: together, all of them. */
  lemma {:induction false} InterceptsStep(tb: TypeDef, ps: seq<Property>, tb': TypeDef, r: TypeDef)
    requires ps != []
    requires tb' == DefineServiceProperty(tb, ps[0], InterceptingGetter(ps[0]))
    requires Intercepts(tb', ps[1..], r)
    ensures Intercepts(tb, ps, r)
  {
    InterceptsShapeStep(tb, ps, tb', r);
    InterceptsHead(tb, ps, tb', r);
    InterceptsEachStep(tb, ps, tb', r);
  }

  /** The shape of one definition followed by the rest is the shape of all of them. */
  lemma {:induction false} InterceptsShapeStep(tb: TypeDef, ps: seq<Property>, tb': TypeDef, r: TypeDef)
    requires ps != []
    requires tb' == DefineServiceProperty(tb, ps[0], InterceptingGetter(ps[0]))
    requires InterceptsShape(tb', ps[1..], r)
    ensures InterceptsShape(tb, ps, r)
  {
    var m := |tb.methods|;
    var o := |tb.overrides|;
    var q := |tb.properties|;
    assert r.methods[..m] == r.methods[..m + 1][..m];
    assert r.overrides[..o] == r.overrides[..o + 1][..o];
    assert r.properties[..q] == r.properties[..q + 1][..q];
  }

  /** The first property is intercepted by the first definitions, the rest by the ones after. */
  lemma {:induction false} InterceptsEachStep(tb: TypeDef, ps: seq<Property>, tb': TypeDef, r: TypeDef)
    requires ps != []
    requires |tb'.methods| == |tb.methods| + 1 && |tb'.overrides| == |tb.overrides| + 1
    requires |tb'.properties| == |tb.properties| + 1
    requires |r.methods| > |tb.methods| && |r.overrides| > |tb.overrides| && |r.properties| > |tb.properties|
    requires r.methods[|tb.methods|] == InterceptingGetter(ps[0])
    requires r.overrides[|tb.overrides|] == OverrideDef(|tb.methods|, PropertyGetter(ps[0]))
    requires r.properties[|tb.properties|] == PropertyDef(ps[0].name, ps[0].propertyType, [], |tb.methods|)
    requires InterceptsEach(tb', ps[1..], r)
    ensures InterceptsEach(tb, ps, r)
  {
    var m := |tb.methods|;
    GettersStep(r.methods, m, ps);
    OverridesStep(r.overrides, |tb.overrides|, m, ps);
    PropertiesStep(r.properties, |tb.properties|, m, ps);
  }

  /** The definitions one step appends sit, unchanged, at the front of what the rest of the steps give. */
  lemma {:induction false} InterceptsHead(tb: TypeDef, ps: seq<Property>, tb': TypeDef, r: TypeDef)
    requires ps != []
    requires tb' == DefineServiceProperty(tb, ps[0], InterceptingGetter(ps[0]))
    requires InterceptsShape(tb', ps[1..], r)
    ensures |r.methods| > |tb.methods| && |r.overrides| > |tb.overrides| && |r.properties| > |tb.properties|
    ensures r.methods[|tb.methods|] == InterceptingGetter(ps[0])
    ensures r.overrides[|tb.overrides|] == OverrideDef(|tb.methods|, PropertyGetter(ps[0]))
    ensures r.properties[|tb.properties|] == PropertyDef(ps[0].name, ps[0].propertyType, [], |tb.methods|)
    ensures |tb'.methods| == |tb.methods| + 1 && |tb'.overrides| == |tb.overrides| + 1
    ensures |tb'.properties| == |tb.properties| + 1
  {
    var m := |tb.methods|;
    var o := |tb.overrides|;
    var q := |tb.properties|;
    assert r.methods[m] == r.methods[..m + 1][m] == tb'.methods[m];
    assert r.overrides[o] == r.overrides[..o + 1][o] == tb'.overrides[o];
    assert r.properties[q] == r.properties[..q + 1][q] == tb'.properties[q];
  }

  /** The getter for the first property, then the getters for the rest: the getters for all. */
  lemma {:induction false} GettersStep(ms: seq<MethodDef>, m: nat, ps: seq<Property>)
    requires ps != [] && m < |ms| && ms[m] == InterceptingGetter(ps[0])
    requires GettersFrom(ms, m + 1, ps[1..])
    ensures GettersFrom(ms, m, ps)
  {
    ShiftedPositions(ms, ps, m, m, (k: nat, p: Property) => InterceptingGetter(p));
  }

  /** The override for the first property, then the overrides for the rest: the overrides for all. */
  lemma {:induction false} OverridesStep(os: seq<OverrideDef>, o: nat, m: nat, ps: seq<Property>)
    requires ps != [] && o < |os| && os[o] == OverrideDef(m, PropertyGetter(ps[0]))
    requires OverridesFrom(os, o + 1, m + 1, ps[1..])
    ensures OverridesFrom(os, o, m, ps)
  {
    ShiftedPositions(os, ps, o, m, (k: nat, p: Property) => OverrideDef(k, PropertyGetter(p)));
  }

  /** The first property redeclared, then the rest: all of them. */
  lemma {:induction false} PropertiesStep(qs: seq<PropertyDef>, q: nat, m: nat, ps: seq<Property>)
    requires ps != [] && q < |qs| && qs[q] == PropertyDef(ps[0].name, ps[0].propertyType, [], m)
    requires PropertiesFrom(qs, q + 1, m + 1, ps[1..])
    ensures PropertiesFrom(qs, q, m, ps)
  {
    ShiftedPositions(qs, ps, q, m, (k: nat, p: Property) => PropertyDef(p.name, p.propertyType, [], k));
  }

  /**
   * BuildServiceProperties: every instance property of the base type, public
   * or not, is intercepted exactly once, in reflection order; a value-typed
   * property makes it throw instead.
   */
  function BuildServiceProperties(t: BaseType, tb: TypeDef): (r: Result<TypeDef, Error>)
    ensures r.Ok? <==> ReferenceTyped(t.properties)
    ensures r.Ok? ==> Intercepts(tb, t.properties, r.value)
    ensures r.Err? ==> FirstViolation(t.properties, r.error)
  {
    DefineServiceProperties(tb, t.properties)
  }

  /**
   * The runtime of a synthesized instance that installed the lazy slot.
   * A `callvirt` of the ServiceContainer getter runs the explicit getter; a
   * `callvirt` of GetService<T> asks the outside resolver (and changes
   * nothing); base constructors change nothing. A non-virtual `call` of
   * either interface method names an abstract method with no body, which
   * the runtime refuses (section III.3.19 of ECMA-335): the call throws.
   */
  ghost function Linked(resolve: (TypeRef, Value) -> Value): Runtime {
    (isVirtual: bool, c: Callee, args: seq<Value>, h: Heap) =>
      match c
      case ServiceContainerGetter =>
        if !isVirtual then Throws
        else if |args| == 1 && args[0].Ref? && h.Valid() && Services.SlotReady(h, args[0].addr)
        then Returns(Services.LazyGet(h, args[0].addr).0, Services.LazyGet(h, args[0].addr).1)
        else Returns(Null, h)
      case GetService(t) =>
        if !isVirtual then Throws
        else if |args| == 3 then Returns(resolve(t, args[0]), h)
        else Returns(Null, h)
      case BaseConstructor(_) => Returns(Null, h)
  }

  /**
   * As emitted, an intercepted read on a synthesized instance never returns
   * a value: GetService<T> is named with `call`, and the runtime refuses it.
   */
  lemma {:induction false} InterceptedReadFaults(p: Property, self: nat, h: Heap, resolve: (TypeRef, Value) -> Value, fuel: nat)
    requires h.Valid() && Services.SlotReady(h, self)
    requires fuel >= 6
    ensures Run(InterceptingGetter(p).body, [Ref(self)], Linked(resolve), Entry(0, h), fuel) == Faulted
  {
    var rt := Linked(resolve);
    var (c, h1) := Services.LazyGet(h, self);
    assert rt(true, ServiceContainerGetter, [Ref(self)], h) == Returns(c, h1);
    assert rt(false, GetService(p.propertyType), [c, Null, I4(0)], h1) == Throws;
    InterceptingGetterResolves(p.propertyType, false, Ref(self), rt, h, fuel);
  }

  /** The override getter with GetService<T> dispatched by `callvirt`: the corrected form of line 138. */
  function DispatchingGetter(p: Property): (m: MethodDef)
    // only the GetService<T> instruction differs from the emitted getter
    ensures m == InterceptingGetter(p).(body := m.body)
    ensures |m.body| == |InterceptingGetter(p).body|
    ensures m.body[4] == Callvirt(GetService(p.propertyType))
    ensures forall i :: 0 <= i < |m.body| && i != 4 ==> m.body[i] == InterceptingGetter(p).body[i]
  {
    InterceptingGetter(p).(body := InterceptingBody(p.propertyType, true))
  }

  /**
   * With GetService<T> dispatched, an intercepted read on a synthesized
   * instance obtains the container through the lazy slot, and its value is
   * whatever the resolver supplies for the property's type from that container.
   */
  lemma {:induction false} InterceptedRead(p: Property, self: nat, h: Heap, resolve: (TypeRef, Value) -> Value, fuel: nat)
    requires h.Valid() && Services.SlotReady(h, self)
    requires fuel >= 6
    ensures var (c, h1) := Services.LazyGet(h, self);
            Run(DispatchingGetter(p).body, [Ref(self)], Linked(resolve), Entry(0, h), fuel)
              == Returned([resolve(p.propertyType, c)], h1,
                          [Invoked(true, ServiceContainerGetter, [Ref(self)]),
                           Invoked(true, GetService(p.propertyType), [c, Null, I4(0)])])
  {
    var rt := Linked(resolve);
    var (c, h1) := Services.LazyGet(h, self);
    assert rt(true, ServiceContainerGetter, [Ref(self)], h) == Returns(c, h1);
    assert rt(true, GetService(p.propertyType), [c, Null, I4(0)], h1) == Returns(resolve(p.propertyType, c), h1);
    InterceptingGetterResolves(p.propertyType, true, Ref(self), rt, h, fuel);
  }

  /**
   * With GetService<T> dispatched, two intercepted reads on a fresh instance
   * (empty slot), of any two properties: the first creates one container
   * owned by the instance, and both ask that same container for their value;
   * the second read changes nothing.
   */
  lemma {:induction false} InterceptedReadsShareContainer(p: Property, q: Property, self: nat, h: Heap, resolve: (TypeRef, Value) -> Value, fuel: nat)
    requires h.Valid() && Services.SlotReady(h, self) && Services.Slot(h, self) == Null
    requires fuel >= 6
    ensures var rt := Linked(resolve);
            var first := Run(DispatchingGetter(p).body, [Ref(self)], rt, Entry(0, h), fuel);
            && first.Returned? && |first.trace| == 2 && |first.trace[1].args| == 3
            && var second := Run(DispatchingGetter(q).body, [Ref(self)], rt, Entry(0, first.heap), fuel);
            && second.Returned? && |second.trace| == 2 && |second.trace[1].args| == 3
            && first.trace[1].args[0] == second.trace[1].args[0] == Ref(h.next)
            && h.next in first.heap.objects && first.heap.objects[h.next] == Container(Ref(self))
            && second.heap == first.heap
  {
    var rt := Linked(resolve);
    var (c, h1) := Services.LazyGet(h, self);
    InterceptedRead(p, self, h, resolve, fuel);
    var first := Run(DispatchingGetter(p).body, [Ref(self)], rt, Entry(0, h), fuel);
    assert first.Returned? && first.heap == h1 && first.trace[1].args[0] == c;
    Services.LazyGetStable(h, self);
    assert Services.LazyGet(h1, self) == (c, h1);
    InterceptedRead(q, self, h1, resolve, fuel);
    var second := Run(DispatchingGetter(q).body, [Ref(self)], rt, Entry(0, h1), fuel);
    assert second.Returned? && second.heap == h1 && second.trace[1].args[0] == c;
  }
}

=== FILE: reflection.dfy ===
/**
 * An abstract descriptor of a CLR base type, and BuilderCommon.CanAccessFromDescendant:
 * the accessibility rule that decides which of its constructors a descendant may call.
 */
module Reflection {

  /** The member-access part of MethodAttributes (MemberAccessMask). */
  datatype Access =
    | PrivateScope
    | Private
    | FamilyAndAssembly
    | Assembly
    | Family
    | FamilyOrAssembly
    | Public

  /** A type used as a parameter or property type, identified by its full name. */
  type TypeRef = string

  /** A formal parameter: name, type and ParameterAttributes (kept opaque). */
  datatype Parameter = Parameter(name: string, paramType: TypeRef, attributes: nat)

  /** An instance constructor of the base type. */
  datatype Constructor = Constructor(access: Access, parameters: seq<Parameter>)

  /**
   * An instance property of the base type together with its getter method.
   * `valueTyped` says whether the property type is a value type (a struct,
   * an enum or a primitive). Every property carries a getter: write-only
   * properties and indexers are not representable in this model.
   */
  datatype Property = Property(
    name: string,
    propertyType: TypeRef,
    valueTyped: bool,
    getterName: string,
    getterAccess: Access)

  /**
   * The base type as reflection sees it: its instance constructors in
   * declaration order, its instance properties (public and non-public) in the
   * order reflection returns them, and whether it already implements
   * ISupportServices. `fullName` is the assembly-qualified name, which
   * identifies the Type object: `Foo<int>` and `Foo<string>` differ in it even
   * where `name` (Type.Name, "Foo`1") and every member agree.
   */
  datatype BaseType = BaseType(
    fullName: string,
    name: string,
    assembly: string,
    constructors: seq<Constructor>,
    properties: seq<Property>,
    supportsServices: bool)

  /** The ordered parameter-type list of a parameter list. */
  function ParameterTypes(ps: seq<Parameter>): (ts: seq<TypeRef>)
    ensures |ts| == |ps|
    ensures forall i :: 0 <= i < |ps| ==> ts[i] == ps[i].paramType
  {
    seq(|ps|, i requires 0 <= i < |ps| => ps[i].paramType)
  }

  /** A descendant may call a base member that is public, protected or protected-internal. */
  function CanAccessFromDescendant(a: Access): (r: bool)
    // what is refused: private, internal, private-protected and compiler-controlled members
    ensures !r <==> a in {PrivateScope, Private, FamilyAndAssembly, Assembly}
  {
    a == Public || a == Family || a == FamilyOrAssembly
  }

  /** typeof(object).FullName: every argument type may be passed to an `object` parameter. */
  const ObjectName: TypeRef := "System.Object"

  /**
   * The type universe, a parameter: the model does not fix a class
   * hierarchy. `convertible(from, to)` says whether a value of type `from`
   * may be passed where `to` is expected, by reference or boxing conversion
   * (Type.IsAssignableFrom) or by primitive widening; between two reference
   * types it is Type.IsAssignableFrom. `valueType` says which types are
   * value types (structs, enums and primitives).
   */
  datatype TypeUniverse = TypeUniverse(convertible: (TypeRef, TypeRef) -> bool, valueType: TypeRef -> bool)

  /** `from` may be passed to a parameter of type `to`: the same type, `object`, or a conversion. */
  predicate AssignableTo(asg: TypeUniverse, from: TypeRef, to: TypeRef) {
    from == to || to == ObjectName || asg.convertible(from, to)
  }

  /** `t` is a value type; `object` never is. */
  predicate IsValueType(asg: TypeUniverse, t: TypeRef) {
    t != ObjectName && asg.valueType(t)
  }

  /**
   * TypeUtils.AreReferenceAssignable(to, from), the test Expression.New puts
   * each argument to: the same type, or two reference types with `to`
   * assignable from `from`. Boxing and widening do not count.
   */
  predicate ReferenceAssignable(asg: TypeUniverse, from: TypeRef, to: TypeRef) {
    from == to || (!IsValueType(asg, from) && !IsValueType(asg, to) && AssignableTo(asg, from, to))
  }

  /** The exceptions the modelled code lets escape. */
  datatype Error =
    | ArgumentException(message: string)
    | ArgumentNullException(paramName: string)
    | AmbiguousMatchException
    /** MakeGenericMethod's ArgumentException: the type argument violates `where T : class`. */
    | ConstraintViolation(typeArgument: TypeRef)
    /** Expression.New's ArgumentException: "Incorrect number of arguments for constructor". */
    | ArgumentCountMismatch
    /** Expression.New's ArgumentException for `arguments[index]`, whose type does not fit its parameter. */
    | ArgumentTypeMismatch(index: nat)
    /** TypeBuilder.CreateType's NotSupportedException: no parent constructor for the default constructor to call. */
    | NotSupportedException

  /** The constructors of `cs` a descendant may call, in their original order. */
  function Accessible(cs: seq<Constructor>): (r: seq<Constructor>)
    ensures |r| <= |cs|
    // every kept constructor is one of `cs` a descendant may call (`AccessibleComplete` gives the converse)
    ensures forall k :: 0 <= k < |r| ==> r[k] in cs && CanAccessFromDescendant(r[k].access)
  {
    if cs == [] then []
    else
      var rest := Accessible(cs[1..]);
      assert forall c :: c in cs <==> c == cs[0] || c in cs[1..];
      if CanAccessFromDescendant(cs[0].access) then [cs[0]] + rest else rest
  }

  /** Every constructor of `cs` a descendant may call is kept. */
  lemma {:induction false} AccessibleComplete(cs: seq<Constructor>)
    ensures forall i :: 0 <= i < |cs| && CanAccessFromDescendant(cs[i].access) ==> cs[i] in Accessible(cs)
  {
    if cs != [] {
      AccessibleComplete(cs[1..]);
      forall i | 0 < i < |cs| && CanAccessFromDescendant(cs[i].access)
        ensures cs[i] in Accessible(cs)
      {
        assert cs[i] == cs[1..][i - 1];
      }
    }
  }

  /** The constructors of `t` a synthesized descendant reproduces. */
  function AccessibleConstructors(t: BaseType): seq<Constructor> {
    Accessible(t.constructors)
  }

  /** Filtering distributes over concatenation: the relative order of the kept constructors is preserved. */
  lemma {:induction false} AccessibleAppend(a: seq<Constructor>, b: seq<Constructor>)
    ensures Accessible(a + b) == Accessible(a) + Accessible(b)
  {
    if a == [] {
      assert a + b == b;
    } else {
      assert (a + b)[0] == a[0];
      assert (a + b)[1..] == a[1..] + b;
      AccessibleAppend(a[1..], b);
    }
  }

  /** Filtering twice is filtering once. */
  lemma {:induction false} AccessibleIdempotent(cs: seq<Constructor>)
    ensures Accessible(Accessible(cs)) == Accessible(cs)
  {
    if cs != [] {
      AccessibleIdempotent(cs[1..]);
      if CanAccessFromDescendant(cs[0].access) {
        var rest := Accessible(cs[1..]);
        assert ([cs[0]] + rest)[0] == cs[0];
        assert ([cs[0]] + rest)[1..] == rest;
      }
    }
  }

  /** When every constructor is accessible nothing is dropped. */
  lemma {:induction false} AccessibleKeepsAll(cs: seq<Constructor>)
    requires forall i :: 0 <= i < |cs| ==> CanAccessFromDescendant(cs[i].access)
    ensures Accessible(cs) == cs
  {
    if cs != [] {
      AccessibleKeepsAll(cs[1..]);
      assert [cs[0]] + cs[1..] == cs;
    }
  }
}

=== FILE: services.dfy ===
/**
 * ViewModelSource.ImplementISupportServices and
 * ViewModelSource.BuildGetServiceContainerMethod: a private `serviceContainer` slot and an
 * explicit ISupportServices.ServiceContainer getter that creates the
 * container on first read and returns the stored one afterwards.
 */
module Services {
  import opened Reflection
  import opened Il
  import opened TypeDefs

  /** The name of the private backing field. */
  const SlotName: string := "serviceContainer"

  /** The name of the getter of ISupportServices.ServiceContainer. */
  const ServiceContainerGetterName: string := "get_ServiceContainer"

  /** DefineField("serviceContainer", typeof(IServiceContainer), FieldAttributes.Private). */
  const SlotField: FieldDef := FieldDef(SlotName, IServiceContainerName, Private)

  /** The method ISupportServices.get_ServiceContainer that the explicit getter overrides. */
  const InterfaceServiceContainerGetter: Overridden :=
    InterfaceGetter(ISupportServicesName, ServiceContainerGetterName)

  /** The index of `returnLabel`: it is marked just before the final `ret`. */
  const ReturnLabel: nat := 12

  /** The body BuildGetServiceContainerMethod emits, one instruction per Emit call. */
  const LazyGetterBody: seq<Instr> := [
    Ldarg(0),
    Ldfld(SlotName),
    Dup,
    Brtrue(ReturnLabel),
    Pop,
    Ldarg(0),
    Ldarg(0),
    NewContainer,
    Dup,
    Stloc(0),
    Stfld(SlotName),
    Ldloc(0),
    Ret
  ]

  /** The private, final, new-slot virtual method that implements the interface getter explicitly. */
  function BuildGetServiceContainerMethod(getterName: string): (m: MethodDef)
    ensures m.name == ISupportServicesName + "." + getterName
    ensures m.access == Private && m.flags == {Virtual, Final, HideBySig, NewSlot}
    ensures m.returnType == IServiceContainerName && m.locals == [IServiceContainerName]
    ensures m.body == LazyGetterBody
  {
    MethodDef(ISupportServicesName + "." + getterName, Private, {Virtual, Final, HideBySig, NewSlot},
              IServiceContainerName, [IServiceContainerName], LazyGetterBody)
  }

  /**
   * ImplementISupportServices: nothing when the base type already implements
   * ISupportServices; otherwise exactly one private slot field and exactly one
   * method, registered as the override of ISupportServices.get_ServiceContainer.
   */
  function ImplementISupportServices(t: BaseType, tb: TypeDef): (r: TypeDef)
    ensures t.supportsServices ==> r == tb
    ensures !t.supportsServices ==>
              && r.fields == tb.fields + [SlotField]
              && r.methods == tb.methods + [BuildGetServiceContainerMethod(ServiceContainerGetterName)]
              && r.overrides == tb.overrides + [OverrideDef(|tb.methods|, InterfaceServiceContainerGetter)]
              && r == tb.(fields := r.fields, methods := r.methods, overrides := r.overrides)
  {
    if t.supportsServices then tb
    else
      var withField := tb.(fields := tb.fields + [SlotField]);
      var m := BuildGetServiceContainerMethod(ServiceContainerGetterName);
      var withMethod := withField.(methods := withField.methods + [m]);
      withMethod.(overrides := withMethod.overrides + [OverrideDef(|tb.methods|, InterfaceServiceContainerGetter)])
  }

  /** `self` is an instance whose slot field exists and holds null or a reference. */
  predicate SlotReady(h: Heap, self: nat) {
    && self in h.objects
    && h.objects[self].Instance?
    && SlotName in h.objects[self].fields
    && !h.objects[self].fields[SlotName].I4?
  }

  /** The current content of the slot of `self`. */
  function Slot(h: Heap, self: nat): Value
    requires SlotReady(h, self)
  {
    h.objects[self].fields[SlotName]
  }

  /**
   * The lazy slot as a two-state machine. Set: return the stored container
   * and change nothing. Empty: allocate one container owned by `self`, store
   * it in the slot and return it; no other object changes.
   */
  function LazyGet(h: Heap, self: nat): (r: (Value, Heap))
    requires h.Valid() && SlotReady(h, self)
    ensures r.0.Ref?
    ensures r.1.Valid() && SlotReady(r.1, self) && Slot(r.1, self) == r.0
    ensures Slot(h, self) != Null ==> r == (Slot(h, self), h)
    ensures Slot(h, self) == Null ==>
              && r.0 == Ref(h.next)
              && h.next !in h.objects
              && r.1.objects.Keys == h.objects.Keys + {h.next}
              && r.1.objects[h.next] == Container(Ref(self))
              && r.1.objects[self] == Instance(h.objects[self].fields[SlotName := r.0])
              && (forall a :: a in h.objects && a != self ==> r.1.objects[a] == h.objects[a])
  {
    var current := Slot(h, self);
    if current != Null then (current, h)
    else
      var c := Ref(h.next);
      var fields := h.objects[self].fields[SlotName := c];
      (c, Heap(h.objects[h.next := Container(Ref(self))][self := Instance(fields)], h.next + 1))
  }

  /**
   * Once the getter has run, every later run returns the same container and
   * changes nothing.
   */
  lemma LazyGetStable(h: Heap, self: nat)
    requires h.Valid() && SlotReady(h, self)
    ensures var (c, h') := LazyGet(h, self);
            LazyGet(h', self) == (c, h')
  {
  }

  /** The first three instructions load the slot twice: `this.serviceContainer; dup`. */
  lemma {:induction false} LazyGetterLoadsSlot(h: Heap, self: nat, rt: Runtime, fuel: nat)
    requires SlotReady(h, self)
    ensures var v := Slot(h, self);
            Run(LazyGetterBody, [Ref(self)], rt, Frame(0, [], [Null], h, []), fuel + 3)
              == Run(LazyGetterBody, [Ref(self)], rt, Frame(3, [v, v], [Null], h, []), fuel)
  {
    LoadsSlotIn(LazyGetterBody, h, self, rt, fuel);
  }

  /** `ldarg.0; ldfld; dup` at the start of any body. */
  lemma {:induction false} LoadsSlotIn(body: seq<Instr>, h: Heap, self: nat, rt: Runtime, fuel: nat)
    requires |body| >= 3 && body[0] == Ldarg(0) && body[1] == Ldfld(SlotName) && body[2] == Dup
    requires SlotReady(h, self)
    ensures var v := Slot(h, self);
            Run(body, [Ref(self)], rt, Frame(0, [], [Null], h, []), fuel + 3)
              == Run(body, [Ref(self)], rt, Frame(3, [v, v], [Null], h, []), fuel)
  {
    var me := Ref(self);
    var args := [me];
    var v := Slot(h, self);
    var f0 := Frame(0, [], [Null], h, []);
    RunLdarg(body, args, rt, f0, 0, fuel + 2);
    var f1 := Frame(1, [me], [Null], h, []);
    assert Push(f0, me) == f1;
    RunLdfld(body, args, rt, f1, SlotName, fuel + 1);
    var f2 := Frame(2, [v], [Null], h, []);
    assert f1.stack[..0] == [];
    assert Push(f1.(stack := f1.stack[..0]), v) == f2;
    RunDup(body, args, rt, f2, fuel);
    assert Push(f2, v) == Frame(3, [v, v], [Null], h, []);
  }

  /** Slot set: `brtrue` jumps to the label and the loaded container is returned. */
  lemma {:induction false} LazyGetterWhenSet(h: Heap, v: Value, args: seq<Value>, rt: Runtime, fuel: nat)
    requires Truthy(v)
    ensures Run(LazyGetterBody, args, rt, Frame(3, [v, v], [Null], h, []), fuel + 2) == Returned([v], h, [])
  {
    var body := LazyGetterBody;
    var f3 := Frame(3, [v, v], [Null], h, []);
    RunBrtrue(body, args, rt, f3, ReturnLabel, fuel + 1);
    var f4 := Frame(ReturnLabel, [v], [Null], h, []);
    assert f3.stack[..1] == [v];
    RunRet(body, args, rt, f4, fuel);
  }

  /** Slot empty: `brtrue` falls through and `pop` drops the null. */
  lemma {:induction false} LazyGetterFallsThrough(h: Heap, args: seq<Value>, rt: Runtime, fuel: nat)
    ensures Run(LazyGetterBody, args, rt, Frame(3, [Null, Null], [Null], h, []), fuel + 2)
         == Run(LazyGetterBody, args, rt, Frame(5, [], [Null], h, []), fuel)
  {
    var body := LazyGetterBody;
    var f3 := Frame(3, [Null, Null], [Null], h, []);
    RunBrtrue(body, args, rt, f3, ReturnLabel, fuel + 1);
    var f4 := Frame(4, [Null], [Null], h, []);
    assert f3.stack[..1] == [Null];
    RunPop(body, args, rt, f4, fuel);
    assert f4.stack[..0] == [];
    assert f4.(pc := 5, stack := f4.stack[..0]) == Frame(5, [], [Null], h, []);
  }

  /** Slot empty: `ldarg.0; ldarg.0` loads `this` twice. */
  lemma {:induction false} LazyGetterLoadsOwner(h: Heap, self: nat, rt: Runtime, fuel: nat)
    ensures var me := Ref(self);
            Run(LazyGetterBody, [me], rt, Frame(5, [], [Null], h, []), fuel + 2)
              == Run(LazyGetterBody, [me], rt, Frame(7, [me, me], [Null], h, []), fuel)
  {
    var body := LazyGetterBody;
    var me := Ref(self);
    var args := [me];
    var f5 := Frame(5, [], [Null], h, []);
    RunLdarg(body, args, rt, f5, 0, fuel + 1);
    var f6 := Frame(6, [me], [Null], h, []);
    assert Push(f5, me) == f6;
    RunLdarg(body, args, rt, f6, 0, fuel);
    assert Push(f6, me) == Frame(7, [me, me], [Null], h, []);
  }

  /** Slot empty: `newobj ServiceContainer(this)` allocates the container owned by `this`. */
  lemma {:induction false} LazyGetterAllocates(h: Heap, self: nat, rt: Runtime, fuel: nat)
    ensures var me := Ref(self);
            var h1 := Heap(h.objects[h.next := Container(me)], h.next + 1);
            Run(LazyGetterBody, [me], rt, Frame(7, [me, me], [Null], h, []), fuel + 1)
              == Run(LazyGetterBody, [me], rt, Frame(8, [me, Ref(h.next)], [Null], h1, []), fuel)
  {
    var me := Ref(self);
    var f7 := Frame(7, [me, me], [Null], h, []);
    RunNewContainer(LazyGetterBody, [me], rt, f7, fuel);
    assert f7.stack[..1] + [Ref(h.next)] == [me, Ref(h.next)];
  }

  /** Slot empty: `dup; stloc.0` keeps a copy of the new container in the local. */
  lemma {:induction false} LazyGetterKeepsCopy(h1: Heap, self: nat, c: Value, rt: Runtime, fuel: nat)
    ensures var me := Ref(self);
            Run(LazyGetterBody, [me], rt, Frame(8, [me, c], [Null], h1, []), fuel + 2)
              == Run(LazyGetterBody, [me], rt, Frame(10, [me, c], [c], h1, []), fuel)
  {
    var body := LazyGetterBody;
    var me := Ref(self);
    var args := [me];
    var f8 := Frame(8, [me, c], [Null], h1, []);
    RunDup(body, args, rt, f8, fuel + 1);
    var f9 := Frame(9, [me, c, c], [Null], h1, []);
    assert Push(f8, c) == f9;
    RunStloc(body, args, rt, f9, 0, fuel);
    assert f9.stack[..2] == [me, c];
    assert f9.locals[0 := c] == [c];
  }

  /** Slot empty: `stfld serviceContainer` stores the container in the slot of `this`. */
  lemma {:induction false} LazyGetterStores(h1: Heap, self: nat, c: Value, rt: Runtime, fuel: nat)
    requires self in h1.objects && h1.objects[self].Instance? && SlotName in h1.objects[self].fields
    ensures var me := Ref(self);
            var h2 := Heap(h1.objects[self := Instance(h1.objects[self].fields[SlotName := c])], h1.next);
            Run(LazyGetterBody, [me], rt, Frame(10, [me, c], [c], h1, []), fuel + 1)
              == Run(LazyGetterBody, [me], rt, Frame(11, [], [c], h2, []), fuel)
  {
    var me := Ref(self);
    var f10 := Frame(10, [me, c], [c], h1, []);
    RunStfld(LazyGetterBody, [me], rt, f10, SlotName, fuel);
    assert f10.stack[..0] == [];
  }

  /** Slot empty: `ldloc.0; ret` returns the container kept in the local. */
  lemma {:induction false} LazyGetterReturnsCopy(h2: Heap, self: nat, c: Value, rt: Runtime, fuel: nat)
    ensures Run(LazyGetterBody, [Ref(self)], rt, Frame(11, [], [c], h2, []), fuel + 2) == Returned([c], h2, [])
  {
    var f11 := Frame(11, [], [c], h2, []);
    RunLdloc(LazyGetterBody, [Ref(self)], rt, f11, 0, fuel + 1);
    var f12 := Frame(12, [c], [c], h2, []);
    assert Push(f11, c) == f12;
    RunRet(LazyGetterBody, [Ref(self)], rt, f12, fuel);
  }

  /** The state after the slot was filled with `c`. */
  function Filled(h: Heap, self: nat, c: Value): Heap
    requires self in h.objects && h.objects[self].Instance?
  {
    Heap(h.objects[self := Instance(h.objects[self].fields[SlotName := c])], h.next)
  }

  /** Slot empty: from the new container on, the getter stores it and returns it. */
  lemma {:induction false} LazyGetterStoresAndReturns(h1: Heap, self: nat, c: Value, rt: Runtime, fuel: nat)
    requires self in h1.objects && h1.objects[self].Instance? && SlotName in h1.objects[self].fields
    ensures Run(LazyGetterBody, [Ref(self)], rt, Frame(8, [Ref(self), c], [Null], h1, []), fuel + 5)
         == Returned([c], Filled(h1, self, c), [])
  {
    LazyGetterKeepsCopy(h1, self, c, rt, fuel + 3);
    LazyGetterStores(h1, self, c, rt, fuel + 2);
    LazyGetterReturnsCopy(Filled(h1, self, c), self, c, rt, fuel);
  }

  /** Slot empty: from the fall-through on, the getter allocates a container and fills the slot with it. */
  lemma {:induction false} LazyGetterWhenEmpty(h: Heap, self: nat, rt: Runtime, fuel: nat)
    requires self in h.objects && h.objects[self].Instance? && SlotName in h.objects[self].fields
    requires self != h.next
    ensures var h1 := Heap(h.objects[h.next := Container(Ref(self))], h.next + 1);
            Run(LazyGetterBody, [Ref(self)], rt, Frame(3, [Null, Null], [Null], h, []), fuel + 10)
              == Returned([Ref(h.next)], Filled(h1, self, Ref(h.next)), [])
  {
    var me := Ref(self);
    LazyGetterFallsThrough(h, [me], rt, fuel + 8);
    LazyGetterLoadsOwner(h, self, rt, fuel + 6);
    LazyGetterAllocates(h, self, rt, fuel + 5);
    var h1 := Heap(h.objects[h.next := Container(me)], h.next + 1);
    LazyGetterStoresAndReturns(h1, self, Ref(h.next), rt, fuel);
  }

  /**
   * The emitted instructions implement the two-state machine: run on an
   * instance whose slot is ready, with at least one step of fuel per
   * instruction, the getter returns exactly what `LazyGet` returns, leaves
   * the heap `LazyGet` leaves, and calls no outside method.
   */
  lemma {:induction false} LazyGetterImplementsLazyGet(h: Heap, self: nat, rt: Runtime, fuel: nat)
    requires h.Valid() && SlotReady(h, self)
    requires fuel >= |LazyGetterBody|
    ensures var (c, h') := LazyGet(h, self);
            Run(LazyGetterBody, [Ref(self)], rt, Entry(1, h), fuel) == Returned([c], h', [])
  {
    var me := Ref(self);
    var v := Slot(h, self);
    var k: nat := fuel - 13;
    assert Entry(1, h) == Frame(0, [], [Null], h, []);
    LazyGetterLoadsSlot(h, self, rt, k + 10);
    if v != Null {
      LazyGetterWhenSet(h, v, [me], rt, k + 8);
    } else {
      LazyGetterWhenEmpty(h, self, rt, k);
      var h1 := Heap(h.objects[h.next := Container(me)], h.next + 1);
      assert Filled(h1, self, Ref(h.next)) == LazyGet(h, self).1;
    }
  }
}

=== FILE: synthesis.dfy ===
/**
 * ViewModelSource.CreateTypeCore and ViewModelSource.GetPOCOType over the
 * `types` cache, with BuilderType.CreateTypeBuilder and BuilderType.GetModuleBuilder
 * over the `builders` cache. The two thread-static caches are one explicit state
 * `Ctx` here, and Guid.NewGuid() is a supply of tokens never drawn before.
 */
module Synthesis {
  import opened Wrappers
  import opened Reflection
  import opened TypeDefs
  import opened Memo
  import opened Constructors
  import opened Services
  import opened ServiceProperties

  /** What a type factory draws on: the module per assembly, and the next unused GUID. */
  datatype Env = Env(builders: map<string, ModuleRef>, nextGuid: nat)

  /** The cache of synthesized types per base type, and the factory state. */
  datatype Ctx = Ctx(types: map<BaseType, TypeDef>, env: Env)

  /** Guid.NewGuid(): a token no earlier call returned. */
  function NewGuid(e: Env): (r: (nat, Env))
    ensures r.0 >= e.nextGuid && r.1.nextGuid > r.0
    ensures r.1.builders == e.builders
  {
    (e.nextGuid, e.(nextGuid := e.nextGuid + 1))
  }

  /** CreateBuilder: a fresh dynamic assembly with one module named after a new GUID. */
  function CreateBuilder(guids: nat): (r: (ModuleRef, nat))
    ensures r.0.guid >= guids && r.1 > r.0.guid
  {
    (ModuleRef(guids), guids + 1)
  }

  /**
   * GetModuleBuilder: the module cached for the assembly, created (with a new
   * GUID) the first time the assembly is seen.
   */
  function GetModuleBuilder(e: Env, assembly: string): (r: (ModuleRef, Env))
    ensures assembly in r.1.builders && r.1.builders[assembly] == r.0
    ensures r.1.builders == e.builders[assembly := r.0]
    ensures assembly in e.builders ==> r == (e.builders[assembly], e)
    ensures assembly !in e.builders ==> r.0.guid >= e.nextGuid && r.1.nextGuid > r.0.guid
  {
    var a := GetOrAdd<string, ModuleRef, Error, nat>(e.builders, assembly, e.nextGuid,
                                                     (g: nat) => (Ok(CreateBuilder(g).0), CreateBuilder(g).1));
    assert a.value.Ok?;
    (a.value.value, Env(a.dict, a.state))
  }

  /** A second GetModuleBuilder for the same assembly returns the same module and changes nothing. */
  lemma GetModuleBuilderTwice(e: Env, assembly: string)
    ensures var (m, e1) := GetModuleBuilder(e, assembly);
            GetModuleBuilder(e1, assembly) == (m, e1)
  {
  }

  /**
   * CreateTypeBuilder: a type in the assembly's module, named after the base
   * type and a new GUID, deriving from the base type, declaring
   * ISupportServices and nothing else yet.
   */
  function CreateTypeBuilder(t: BaseType, e: Env): (r: (TypeDef, Env))
    ensures r.0.parent == t && r.0.interfaces == [ISupportServicesName]
    ensures r.0.name.baseName == t.name && e.nextGuid <= r.0.name.guid < r.1.nextGuid
    ensures r.0.ctors == [] && r.0.fields == [] && r.0.methods == [] && r.0.overrides == [] && r.0.properties == []
    // the module is the one now cached for the base type's assembly
    ensures r.1.builders == e.builders[t.assembly := r.0.moduleRef]
    ensures t.assembly in e.builders ==> r.0.moduleRef == e.builders[t.assembly]
    ensures t.assembly !in e.builders ==> e.nextGuid <= r.0.moduleRef.guid < r.1.nextGuid
  {
    var (m, e1) := GetModuleBuilder(e, t.assembly);
    var (g, e2) := NewGuid(e1);
    (DefineType(m, TypeName(t.name, g), t), e2)
  }

  /** Its constructors copy the constructors of `cs` one-to-one and in order. */
  ghost predicate CopiesOf(cs: seq<Constructor>, d: TypeDef) {
    && |d.ctors| == |cs|
    && forall i :: 0 <= i < |cs| ==> d.ctors[i] == BuildConstructor(cs[i])
  }

  /**
   * Its constructors copy the base constructors a finished descendant has
   * copies of: the accessible ones, or the parameterless one CreateType's
   * default constructor calls.
   */
  ghost predicate ReproducesConstructors(t: BaseType, d: TypeDef) {
    CopiesOf(CopiedConstructors(t), d)
  }

  /**
   * A descendant of `t` can be synthesized: every property has a reference
   * type, and the finished type has some constructor.
   */
  predicate Synthesizable(t: BaseType) {
    ReferenceTyped(t.properties) && CopiedConstructors(t) != []
  }

  /**
   * The exception a failed synthesis of `t` raises: the constraint violation
   * of the first value-typed property, or, when there is none,
   * CreateType's NotSupportedException.
   */
  predicate SynthesisError(t: BaseType, e: Error) {
    if ReferenceTyped(t.properties) then e == NotSupportedException else FirstViolation(t.properties, e)
  }

  /** A synthesis failure has one exception. */
  lemma SynthesisErrorUnique(t: BaseType, e1: Error, e2: Error)
    requires SynthesisError(t, e1) && SynthesisError(t, e2)
    ensures e1 == e2
  {
    if !ReferenceTyped(t.properties) {
      FirstViolationUnique(t.properties, e1, e2);
    }
  }

  /**
   * It holds the lazy slot, and the getter that overrides
   * ISupportServices.get_ServiceContainer as its first method, exactly when `t`
   * lacks ISupportServices.
   */
  ghost predicate HasCapability(t: BaseType, d: TypeDef) {
    && (t.supportsServices ==> d.fields == [])
    && (!t.supportsServices ==>
          && d.fields == [SlotField]
          && |d.methods| > 0 && d.methods[0] == BuildGetServiceContainerMethod(ServiceContainerGetterName)
          && |d.overrides| > 0 && d.overrides[0] == OverrideDef(0, InterfaceServiceContainerGetter))
  }

  /** The number of methods the capability installs ahead of the property getters. */
  function CapabilityMethods(t: BaseType): nat {
    if t.supportsServices then 0 else 1
  }

  /** Every base property is intercepted once, in order, after the capability getter. */
  ghost predicate InterceptsProperties(t: BaseType, d: TypeDef) {
    var ps := t.properties;
    var k := CapabilityMethods(t);
    && |d.methods| == k + |ps| && |d.overrides| == k + |ps| && |d.properties| == |ps|
    && forall i :: 0 <= i < |ps| ==>
         && d.methods[k + i] == InterceptingGetter(ps[i])
         && d.overrides[k + i] == OverrideDef(k + i, PropertyGetter(ps[i]))
         && d.properties[i] == PropertyDef(ps[i].name, ps[i].propertyType, [], k + i)
  }

  /**
   * What the build steps leave for `t`: a type that derives from `t`, is
   * named after it and declares ISupportServices; it copies the accessible
   * constructors, installs the capability when needed and intercepts every
   * property, all of which have reference types.
   */
  ghost predicate WellBuilt(t: BaseType, d: TypeDef) {
    && d.parent == t && d.name.baseName == t.name && d.interfaces == [ISupportServicesName]
    && ReferenceTyped(t.properties)
    && CopiesOf(AccessibleConstructors(t), d)
    && HasCapability(t, d)
    && InterceptsProperties(t, d)
  }

  /**
   * What a synthesized descendant of `t` declares once created: as built,
   * except that it has at least one constructor, the default one standing
   * in when no base constructor is accessible.
   */
  ghost predicate WellSynthesized(t: BaseType, d: TypeDef) {
    && d.parent == t && d.name.baseName == t.name && d.interfaces == [ISupportServicesName]
    && Synthesizable(t)
    && ReproducesConstructors(t, d)
    && HasCapability(t, d)
    && InterceptsProperties(t, d)
  }

  /** The three build steps, in the order CreateTypeCore runs them; the last one may throw. */
  function BuildSteps(t: BaseType, tb: TypeDef): (r: Result<TypeDef, Error>)
    ensures r.Ok? <==> ReferenceTyped(t.properties)
    ensures r.Err? ==> FirstViolation(t.properties, r.error)
  {
    BuildServiceProperties(t, ImplementISupportServices(t, BuildConstructors(t, tb)))
  }

  /** Started without constructors, the build steps copy the accessible base constructors. */
  lemma {:induction false} BuildStepsCopyAccessible(t: BaseType, tb: TypeDef)
    requires tb.ctors == [] && ReferenceTyped(t.properties)
    ensures CopiesOf(AccessibleConstructors(t), BuildSteps(t, tb).value)
  {
    var withCtors := BuildConstructors(t, tb);
    var withServices := ImplementISupportServices(t, withCtors);
    assert withServices.ctors == withCtors.ctors;
    assert Intercepts(withServices, t.properties, BuildSteps(t, tb).value);
  }

  /** Started without fields, methods or overrides, the build steps install the capability exactly when needed. */
  lemma {:induction false} BuildStepsInstallCapability(t: BaseType, tb: TypeDef)
    requires tb.fields == [] && tb.methods == [] && tb.overrides == [] && ReferenceTyped(t.properties)
    ensures HasCapability(t, BuildSteps(t, tb).value)
  {
    var withCtors := BuildConstructors(t, tb);
    var withServices := ImplementISupportServices(t, withCtors);
    var d := BuildSteps(t, tb).value;
    assert Intercepts(withServices, t.properties, d);
    if !t.supportsServices {
      assert d.methods[0] == d.methods[..1][0];
      assert d.overrides[0] == d.overrides[..1][0];
    }
  }

  /** Started without methods, overrides or properties, the build steps intercept every base property in order. */
  lemma {:induction false} BuildStepsInterceptProperties(t: BaseType, tb: TypeDef)
    requires tb.methods == [] && tb.overrides == [] && tb.properties == [] && ReferenceTyped(t.properties)
    ensures InterceptsProperties(t, BuildSteps(t, tb).value)
  {
    var withCtors := BuildConstructors(t, tb);
    var withServices := ImplementISupportServices(t, withCtors);
    assert |withServices.methods| == |withServices.overrides| == CapabilityMethods(t);
    assert withServices.properties == [];
    assert Intercepts(withServices, t.properties, BuildSteps(t, tb).value);
  }

  /**
   * The three build steps, run on an empty type definition for `t`, give a
   * well-built type exactly when every property of `t` has a reference type.
   */
  lemma {:induction false} BuildStepsWellBuilt(t: BaseType, tb: TypeDef)
    requires tb.parent == t && tb.name.baseName == t.name && tb.interfaces == [ISupportServicesName]
    requires tb.ctors == [] && tb.fields == [] && tb.methods == [] && tb.overrides == [] && tb.properties == []
    ensures BuildSteps(t, tb).Ok? <==> ReferenceTyped(t.properties)
    ensures BuildSteps(t, tb).Ok? ==> WellBuilt(t, BuildSteps(t, tb).value)
  {
    if ReferenceTyped(t.properties) {
      BuildStepsCopyAccessible(t, tb);
      BuildStepsInstallCapability(t, tb);
      BuildStepsInterceptProperties(t, tb);
      assert Intercepts(ImplementISupportServices(t, BuildConstructors(t, tb)), t.properties, BuildSteps(t, tb).value);
    }
  }

  /**
   * CreateType on a well-built type: it succeeds exactly when the finished
   * type has constructors to copy, and then the type is well synthesized.
   */
  lemma {:induction false} CreateTypeFinishes(t: BaseType, d: TypeDef)
    requires WellBuilt(t, d)
    ensures CreateType(d).Ok? <==> CopiedConstructors(t) != []
    ensures CreateType(d).Ok? ==> WellSynthesized(t, CreateType(d).value)
    ensures CreateType(d).Err? ==> CreateType(d).error == NotSupportedException
  {
    var r := CreateType(d);
    if AccessibleConstructors(t) == [] {
      match ParameterlessConstructor(t.constructors)
      case Some(c) =>
        DefaultIsCopy(c);
        assert r.value.ctors == [BuildConstructor(c)];
      case None =>
    }
  }

  /**
   * CreateTypeCore: constructors, then the capability, then the property
   * overrides, then CreateType. The module and the type's GUID are drawn
   * first, so a value-typed property, or a base type without an accessible
   * or parameterless constructor, fails the build with both drawn.
   */
  function CreateTypeCore(t: BaseType, e: Env): (r: (Result<TypeDef, Error>, Env))
    ensures r.0.Ok? <==> Synthesizable(t)
    ensures r.0.Ok? ==> WellSynthesized(t, r.0.value)
    ensures r.0.Err? ==> SynthesisError(t, r.0.error)
    // the assembly's module is cached, newly drawn on its first use, whether or not the build succeeds
    ensures t.assembly in r.1.builders && r.1.builders == e.builders[t.assembly := r.1.builders[t.assembly]]
    ensures t.assembly in e.builders ==> r.1.builders == e.builders
    ensures t.assembly !in e.builders ==> e.nextGuid <= r.1.builders[t.assembly].guid < r.1.nextGuid
    ensures e.nextGuid < r.1.nextGuid
    // a built type lives in that module, under a GUID drawn by this call
    ensures r.0.Ok? ==> r.0.value.moduleRef == r.1.builders[t.assembly]
    ensures r.0.Ok? ==> e.nextGuid <= r.0.value.name.guid < r.1.nextGuid
  {
    var (tb, e') := CreateTypeBuilder(t, e);
    BuildStepsWellBuilt(t, tb);
    match BuildSteps(t, tb)
    case Ok(d) =>
      assert Intercepts(ImplementISupportServices(t, BuildConstructors(t, tb)), t.properties, d);
      CreateTypeFinishes(t, d);
      (CreateType(d), e')
    case Err(x) => (Err(x), e')
  }

  /**
   * GetPOCOType: the type cached for `t`, synthesized the first time `t` is
   * seen. A hit returns the cached type and changes nothing; a failed build
   * caches nothing, though the module and GUIDs it drew stay drawn.
   */
  function GetPOCOType(ctx: Ctx, t: BaseType): (r: (Result<TypeDef, Error>, Ctx))
    ensures r.0.Ok? ==> r.1.types == ctx.types[t := r.0.value]
    ensures r.0.Err? ==> r.1.types == ctx.types && t !in ctx.types
    ensures t in ctx.types ==> r == (Ok(ctx.types[t]), ctx)
    ensures t !in ctx.types ==> r == (CreateTypeCore(t, ctx.env).0, Ctx(r.1.types, CreateTypeCore(t, ctx.env).1))
    ensures t !in ctx.types ==> (r.0.Ok? <==> Synthesizable(t))
    ensures t !in ctx.types && r.0.Ok? ==> WellSynthesized(t, r.0.value) && r.0.value.name.guid >= ctx.env.nextGuid
    ensures r.0.Err? ==> SynthesisError(t, r.0.error) && r.1.env.nextGuid > ctx.env.nextGuid
  {
    var a := GetOrAdd(ctx.types, t, ctx.env, (e: Env) => CreateTypeCore(t, e));
    (a.value, Ctx(a.dict, a.state))
  }

  /** Every cached type is a well-formed descendant of its key. */
  ghost predicate AllWellSynthesized(types: map<BaseType, TypeDef>) {
    forall t :: t in types ==> WellSynthesized(t, types[t])
  }

  /** Every cached type lives in the module cached for its key's assembly. */
  ghost predicate InCachedModules(types: map<BaseType, TypeDef>, builders: map<string, ModuleRef>) {
    forall t :: t in types ==> t.assembly in builders && types[t].moduleRef == builders[t.assembly]
  }

  /** Every GUID in use, by a type or by a module, was drawn before `next`. */
  ghost predicate GuidsDrawn(types: map<BaseType, TypeDef>, builders: map<string, ModuleRef>, next: nat) {
    && (forall t :: t in types ==> types[t].name.guid < next)
    && (forall a :: a in builders ==> builders[a].guid < next)
  }

  /** Distinct base types have distinct synthesized types. */
  ghost predicate NamesDistinct(types: map<BaseType, TypeDef>) {
    forall t, u :: t in types && u in types && types[t].name == types[u].name ==> t == u
  }

  /**
   * The cache invariant: every cached type is a well-formed descendant of its
   * key living in the module cached for the key's assembly; all GUIDs in use
   * were drawn; and distinct base types have distinct synthesized types.
   */
  ghost predicate Valid(ctx: Ctx) {
    && AllWellSynthesized(ctx.types)
    && InCachedModules(ctx.types, ctx.env.builders)
    && GuidsDrawn(ctx.types, ctx.env.builders, ctx.env.nextGuid)
    && NamesDistinct(ctx.types)
  }

  /** The empty cache with no GUID drawn is valid. */
  lemma EmptyValid()
    ensures Valid(Ctx(map[], Env(map[], 0)))
  {
  }

  /** Caching a well-synthesized type for a miss keeps every cached type well synthesized. */
  lemma {:induction false} MissKeepsWellSynthesized(types: map<BaseType, TypeDef>, t: BaseType, d: TypeDef)
    requires AllWellSynthesized(types) && WellSynthesized(t, d)
    ensures AllWellSynthesized(types[t := d])
  {
    var types' := types[t := d];
    forall u | u in types'
      ensures WellSynthesized(u, types'[u])
    {
      if u != t {
        assert types'[u] == types[u];
      }
    }
  }

  /** Adding a type in the module now cached for its assembly keeps every type in its cached module. */
  lemma {:induction false} MissKeepsModules(types: map<BaseType, TypeDef>, builders: map<string, ModuleRef>, t: BaseType, d: TypeDef)
    requires InCachedModules(types, builders)
    requires t.assembly in builders ==> d.moduleRef == builders[t.assembly]
    ensures InCachedModules(types[t := d], builders[t.assembly := d.moduleRef])
  {
    var types' := types[t := d];
    var builders' := builders[t.assembly := d.moduleRef];
    forall u | u in types'
      ensures u.assembly in builders' && types'[u].moduleRef == builders'[u.assembly]
    {
      if u != t {
        assert types'[u] == types[u];
      }
    }
  }

  /** A new type and module whose GUIDs were drawn before `next'` keep all GUIDs drawn. */
  lemma {:induction false} MissKeepsGuidsDrawn(
    types: map<BaseType, TypeDef>, builders: map<string, ModuleRef>, next: nat, t: BaseType, d: TypeDef, next': nat)
    requires GuidsDrawn(types, builders, next)
    requires next <= next' && d.name.guid < next' && d.moduleRef.guid < next'
    ensures GuidsDrawn(types[t := d], builders[t.assembly := d.moduleRef], next')
  {
    var types' := types[t := d];
    forall u | u in types'
      ensures types'[u].name.guid < next'
    {
      if u != t {
        assert types'[u] == types[u];
      }
    }
  }

  /** A type whose GUID none of the cached types uses keeps the names distinct. */
  lemma {:induction false} MissKeepsNamesDistinct(types: map<BaseType, TypeDef>, next: nat, t: BaseType, d: TypeDef)
    requires NamesDistinct(types)
    requires forall u :: u in types ==> types[u].name.guid < next
    requires t !in types && d.name.guid >= next
    ensures NamesDistinct(types[t := d])
  {
    var types' := types[t := d];
    forall u, v | u in types' && v in types' && types'[u].name == types'[v].name
      ensures u == v
    {
      if u != t && v != t {
        assert types'[u] == types[u] && types'[v] == types[v];
      }
    }
  }

  /**
   * A module drawn by a failed build, cached for an assembly no cached type
   * lives in yet or equal to the one cached already, and later GUIDs keep
   * the invariant of an unchanged type cache.
   */
  lemma {:induction false} FailureKeepsValid(ctx: Ctx, a: string, m: ModuleRef, next': nat)
    requires Valid(ctx)
    requires a in ctx.env.builders ==> m == ctx.env.builders[a]
    requires ctx.env.nextGuid <= next' && m.guid < next'
    ensures Valid(Ctx(ctx.types, Env(ctx.env.builders[a := m], next')))
  {
    var builders' := ctx.env.builders[a := m];
    forall u | u in ctx.types
      ensures u.assembly in builders' && ctx.types[u].moduleRef == builders'[u.assembly]
    {
      assert u.assembly in ctx.env.builders;
    }
    forall b | b in builders'
      ensures builders'[b].guid < next'
    {
      if b != a {
        assert builders'[b] == ctx.env.builders[b];
      }
    }
  }

  /** GetPOCOType keeps the cache invariant, whether it hits, builds or fails. */
  lemma {:induction false} GetPOCOTypeValid(ctx: Ctx, t: BaseType)
    requires Valid(ctx)
    ensures Valid(GetPOCOType(ctx, t).1)
  {
    if t !in ctx.types {
      var e := ctx.env;
      var (r, e') := CreateTypeCore(t, e);
      var m := e'.builders[t.assembly];
      if t.assembly in e.builders {
        assert m.guid < e.nextGuid;
      }
      match r
      case Ok(d) =>
        assert GetPOCOType(ctx, t) == (Ok(d), Ctx(ctx.types[t := d], e'));
        MissKeepsWellSynthesized(ctx.types, t, d);
        MissKeepsModules(ctx.types, e.builders, t, d);
        MissKeepsGuidsDrawn(ctx.types, e.builders, e.nextGuid, t, d, e'.nextGuid);
        MissKeepsNamesDistinct(ctx.types, e.nextGuid, t, d);
      case Err(_) =>
        assert GetPOCOType(ctx, t).1 == Ctx(ctx.types, Env(e.builders[t.assembly := m], e'.nextGuid));
        FailureKeepsValid(ctx, t.assembly, m, e'.nextGuid);
    }
  }

  /**
   * Asking twice for the same base type on one cache yields the identical
   * synthesized type, and the second request synthesizes nothing. A failed
   * request is not cached: the second one builds again, draws a new GUID
   * and fails with the same exception.
   */
  lemma GetPOCOTypeTwice(ctx: Ctx, t: BaseType)
    ensures var (r1, ctx1) := GetPOCOType(ctx, t);
            var (r2, ctx2) := GetPOCOType(ctx1, t);
            && (r1.Ok? ==> (r2, ctx2) == (r1, ctx1))
            && (r1.Err? ==> r2 == r1 && ctx2.types == ctx.types && ctx2.env.nextGuid > ctx1.env.nextGuid)
  {
    var (r1, ctx1) := GetPOCOType(ctx, t);
    var (r2, ctx2) := GetPOCOType(ctx1, t);
    if r1.Err? {
      SynthesisErrorUnique(t, r1.error, r2.error);
    }
  }

  /** Two different base types never share a synthesized type on a valid cache. */
  lemma DistinctBasesDistinctTypes(ctx: Ctx, t: BaseType, u: BaseType)
    requires Valid(ctx)
    requires t != u
    ensures var (rt, ctx1) := GetPOCOType(ctx, t);
            var (ru, ctx2) := GetPOCOType(ctx1, u);
            rt.Ok? && ru.Ok? ==> rt.value.name != ru.value.name
  {
    GetPOCOTypeValid(ctx, t);
    var (rt, ctx1) := GetPOCOType(ctx, t);
    GetPOCOTypeValid(ctx1, u);
    var (ru, ctx2) := GetPOCOType(ctx1, u);
    if rt.Ok? && ru.Ok? {
      assert ctx2.types[t] == rt.value;
    }
  }

  /** How many of `os` override `decl`. */
  function OverridesOf(os: seq<OverrideDef>, decl: Overridden): (n: nat)
    ensures n <= |os|
    ensures n == 0 <==> forall i :: 0 <= i < |os| ==> os[i].declaration != decl
  {
    if os == [] then 0
    else
      var rest := OverridesOf(os[1..], decl);
      assert forall i :: 1 <= i < |os| ==> os[i] == os[1..][i - 1];
      (if os[0].declaration == decl then 1 else 0) + rest
  }

  /**
   * A synthesized type overrides ISupportServices.get_ServiceContainer once
   * when its base type lacks the interface, and never when the base type
   * already implements it: the capability accessor is not defined twice.
   */
  lemma {:induction false} CapabilityAccessorOnce(t: BaseType, d: TypeDef)
    requires WellSynthesized(t, d)
    ensures OverridesOf(d.overrides, InterfaceServiceContainerGetter) == CapabilityMethods(t)
  {
    var k := CapabilityMethods(t);
    var ps := t.properties;
    forall i | k <= i < |d.overrides|
      ensures d.overrides[i].declaration != InterfaceServiceContainerGetter
    {
      assert d.overrides[k + (i - k)] == OverrideDef(k + (i - k), PropertyGetter(ps[i - k]));
    }
    if k == 1 {
      assert d.overrides[1..][0..] == d.overrides[1..];
      assert forall i :: 0 <= i < |d.overrides[1..]| ==> d.overrides[1..][i] == d.overrides[i + 1];
    }
  }
}

=== FILE: typedefs.dfy ===
/**
 * The member plan a TypeBuilder accumulates: what a synthesized type declares
 * once `CreateType()` seals it. Definitions are append-only, as with
 * TypeBuilder, and keep the order in which they were defined.
 */
module TypeDefs {
  import opened Reflection
  import opened Il

  /** typeof(ISupportServices).FullName */
  const ISupportServicesName: string := "Generator.ISupportServices"
  /** typeof(IServiceContainer).FullName */
  const IServiceContainerName: string := "Generator.IServiceContainer"

  /**
   * The name `baseType.Name + "_" + <GUID>`: the GUID is an opaque token, drawn
   * fresh for every synthesized type.
   */
  datatype TypeName = TypeName(baseName: string, guid: nat)

  /** A dynamic module, named `"CustomAssembly.DynamicTypes." + <GUID>`. */
  datatype ModuleRef = ModuleRef(guid: nat)

  /** The MethodAttributes flags other than member access. */
  datatype MethodFlag = Virtual | Final | HideBySig | NewSlot

  datatype FieldDef = FieldDef(name: string, fieldType: TypeRef, access: Access)

  datatype CtorDef = CtorDef(access: Access, parameters: seq<Parameter>, body: seq<Instr>)

  datatype MethodDef = MethodDef(
    name: string,
    access: Access,
    flags: set<MethodFlag>,
    returnType: TypeRef,
    locals: seq<TypeRef>,
    body: seq<Instr>)

  /** The inherited method a DefineMethodOverride replaces. */
  datatype Overridden =
    | InterfaceGetter(interfaceName: string, getterName: string)
    | PropertyGetter(property: Property)

  /** DefineMethodOverride(methods[bodyIndex], declaration). */
  datatype OverrideDef = OverrideDef(bodyIndex: nat, declaration: Overridden)

  /** DefineProperty(name, None, propertyType, indexTypes) with SetGetMethod(methods[getterIndex]). */
  datatype PropertyDef = PropertyDef(name: string, propertyType: TypeRef, indexTypes: seq<TypeRef>, getterIndex: nat)

  datatype TypeDef = TypeDef(
    name: TypeName,
    moduleRef: ModuleRef,
    parent: BaseType,
    interfaces: seq<string>,
    ctors: seq<CtorDef>,
    fields: seq<FieldDef>,
    methods: seq<MethodDef>,
    overrides: seq<OverrideDef>,
    properties: seq<PropertyDef>)

  /**
   * ModuleBuilder.DefineType(name, TypeAttributes.Public, baseType,
   * new[] { typeof(ISupportServices) }): a type that derives from the base
   * type, declares ISupportServices and has no members yet. Type attributes
   * are not modelled.
   */
  function DefineType(m: ModuleRef, name: TypeName, parent: BaseType): TypeDef {
    TypeDef(name, m, parent, [ISupportServicesName], [], [], [], [], [])
  }

  /** The member kinds of `tb` other than its constructors are those of `tb'`. */
  predicate SameExceptCtors(tb: TypeDef, tb': TypeDef) {
    tb' == tb.(ctors := tb'.ctors)
  }

  /**
   * A definition list built one element at a time: the first element's
   * definition at `base`, then those of the rest from `base + 1` on, is the
   * definitions of all of `ps` from `base` on. `f` gives the definition of an
   * element from its position, counted from `m`.
   */
  lemma {:induction false} ShiftedPositions<A, B>(xs: seq<B>, ps: seq<A>, base: nat, m: nat, f: (nat, A) -> B)
    requires ps != [] && base + |ps| <= |xs| && xs[base] == f(m, ps[0])
    requires forall j :: 0 <= j < |ps[1..]| ==> xs[base + 1 + j] == f(m + 1 + j, ps[1..][j])
    ensures forall i :: 0 <= i < |ps| ==> xs[base + i] == f(m + i, ps[i])
  {
    forall i | 1 <= i < |ps|
      ensures xs[base + i] == f(m + i, ps[i])
    {
      var j := i - 1;
      assert xs[base + 1 + j] == f(m + 1 + j, ps[1..][j]);
      assert ps[1..][j] == ps[i];
    }
  }
}

=== FILE: wrappers.dfy ===
/** Failure-compatible wrappers shared by the whole model. */
module Wrappers {

  /** A value that may be absent; stands for a nullable reference. */
  datatype Option<+T> = None | Some(value: T)

  /** The outcome of an operation that can throw: a value or the exception it raised. */
  datatype Result<+R, +E> = Ok(value: R) | Err(error: E)
}
